=== FILE: README.md ===
# SafeSecrets — a Dafny model of its core logic

SafeSecrets is a desktop vault. It has a Tauri/Rust backend (`src-tauri/src/lib.rs`) and a React front end. A secret is encrypted with gpg into a file named by a three-digit id. An encrypted index file (`000.gpg`) holds one line per secret, `NNN.app.desc.ext`. Sensitive actions (encrypting, decrypting, deleting, searching) are gated behind a registered email and a security question. The stored answer is kept as a double hash.

This project models, and proves properties of, the logic between those subprocess calls:

- **Backend index bookkeeping** (`vault_index.dfy`):
  - reading and writing the index text;
  - the next id (`add_secrets`);
  - deletion by id prefix (`delete_secrets`);
  - the filtered, parsed and reversed listing (`get_secrets_list`).
- **Backend decision helpers** (`backend.dfy`):
  - answer comparison;
  - remote detection;
  - upstream detection and the push arguments;
  - first-match tool lookup with its clearable cache.
- **The secret form** (`secret_form.dfy`): per-field validators, progressive re-validation, full validation on submit, the challenge gate, the encryption step and the YAML formatter (`yaml_format.dfy`).
- **The registration panel** (`panel.dfy`): question masking, validators, cascade clearing, progressive validation, confirmation and registration.
- **The secret list** (`list_screen.dfy`): the challenge/confirmation gate, the busy flags, delete, decrypt, load and search.
- **The challenge dialog** (`auth.dfy`): answer editing, submission and key handling.
- **The application context** (`context.dfy`): email masking and the start-up probes.
- **Notifications** (`notifications.dfy`): the queue, the stacking layout, and the toast's timer, hover and two-phase close on a discrete clock.
- **The decryption view's truncation** (`decryption.dfy`).

Shared pieces:
- `wrappers.dfy`: `Option` and `Result`.
- `text.dfy`: `split`, `join`, `trim`, `filter`, `reverse`, and their laws.
- `patterns.dfy`: the validators' regular expressions as predicates.
- `field_errors.dfy`: the error map built over a field order.
- `gateway.dfy`: the backend commands a screen invokes, recorded as `Invocation` values, so "called exactly once with these arguments" can be stated.

Everything outside the process becomes a parameter:
- gpg and git outputs are `Run` values;
- backend answers are `Result` values;
- `hash_twice` is a function parameter;
- file existence is a predicate parameter;
- notification ids are fresh-id parameters;
- time is an abstract millisecond counter.

Screens whose state the source updates in place are classes with `modifies` clauses: `FormScreen`, `PanelScreen`, `ListScreen`, `AuthDialog`, `Session`, `NotificationCenter`, `Toast` and `ToolPaths`. Their loops are `while` loops with invariants, proved against specification functions (`Verdicts`, `Kept`, `Retained`, `Reverse`).

Where the source has a quirk, the model keeps it as written and proves its consequence:

- **The repository validator** reads the component's current `pushToCloud`, not the snapshot being validated. Choosing "no" therefore leaves an old repository error in place (`SecretForm.ChoosingNoKeepsRepoError`).
- **`confirmAnswer`** is trimmed and compared with the untrimmed stored answer. An answer with a leading or trailing space can never be confirmed (`RegistrationPanel.PaddedAnswerNeverConfirmed`).
- **`maskEmail`** keeps only the text between the first and second `@`. It shows `undefined***@…` for an empty local part (`AppContext.EmptyLocalShowsUndefined`).
- **After a successful registration** the panel keeps the masked email. That value never passes the email validator again (`RegistrationPanel.MaskedEmailNeverValid`). A user with an email but no question cannot submit the panel (`RegistrationPanel.EmailWithoutQuestionBlocks`).
- **The id parser** reads only the first three characters of the last line. After `999` comes `1000`, and then `101` (`VaultIndex.IdAfter999`).
- **Enter in the challenge dialog** submits without the Verify button's length-2 guard (`Challenge.EnterRightAfterOpen`).
- **Enter in the list's search** is handled by the search icon, not by the text input, which has no key handler (`SecretList.ListScreen.HandleKeyPress`).

## Model

| member | source | states |
|---|---|---|
| Text.Split | src/components/Decryption.tsx:32 | `split` of a string at a separator: at least one part, no part contains the separator, and there are two or more parts iff the separator occurs |
| Text.JoinSplit | src/components/Form.tsx:208-238 | joining the parts of a split with the same separator gives back the original text |
| Text.SplitJoin | src-tauri/src/lib.rs:34 | splitting a join of separator-free parts gives back the parts |
| Text.JoinAppend | src-tauri/src/lib.rs:122-126 | the join of two non-empty sequences is the two joins with one separator between them |
| Text.SplitWithoutSeparator | src-tauri/src/lib.rs:244 | text without the separator splits into itself alone |
| Text.SplitAtFirstSeparator | src/contexts/Context.tsx:34 | the first part ends at the first separator and the remaining parts are the split of the rest |
| Text.SplitHeadTail | src/components/Form.tsx:214-217 | a key and the re-joined value parts, with a colon between them, rebuild the line |
| Text.TrimStart | src/components/Form.tsx:218 | `trimStart` never lengthens |
| Text.TrimStartShape | src/components/Form.tsx:218 | `trimStart` removes exactly a run of leading whitespace and leaves a result not starting with whitespace |
| Text.TrimEnd | src/components/Form.tsx:211 | the trailing half of `trim` never lengthens |
| Text.TrimEndShape | src/components/Form.tsx:211 | the trailing half removes exactly a run of trailing whitespace and leaves a result not ending with whitespace |
| Text.Trim | src/components/Form.tsx:50 | `trim` never lengthens |
| Text.TrimEdges | src/components/Panel.tsx:52 | a trimmed value is empty or starts and ends with a non-space |
| Text.TrimUntouched | src/components/Form.tsx:211 | `trim` leaves text that neither starts nor ends with whitespace unchanged |
| Text.TrimNeverEndsInSpace | src/components/Panel.tsx:52 | no trimmed value equals a text ending in whitespace |
| Text.TrimStartPadded | src/components/Form.tsx:218 | `trimStart` of whitespace followed by text starting with a non-space is that text |
| Text.TrimPadded | src/components/Form.tsx:211 | `trim` of whitespace followed by edge-trimmed text is that text |
| Text.TrimKeepsOut | src/components/Form.tsx:211 | trimming never introduces a character |
| Text.Repeat | src/components/Form.tsx:219 | `' '.repeat(n)` has length n and is all that character |
| Text.Filter | src-tauri/src/lib.rs:114-120 | `retain`/`filter`: never longer, and an element is kept iff it was present and satisfies the predicate |
| Text.FilterAppend | src-tauri/src/lib.rs:240-242 | filtering distributes over concatenation |
| Text.FilterIdempotent | src-tauri/src/lib.rs:114-120 | filtering twice with the same predicate is filtering once |
| Text.FilterKeepsAll | src-tauri/src/lib.rs:419-421 | a filter every element passes changes nothing |
| Text.Reverse | src-tauri/src/lib.rs:258 | the reversal has the same length, with element i taken from position length − 1 − i |
| Text.ReverseInPlace | src-tauri/src/lib.rs:258 | `items.reverse()` in place: the array afterwards holds the reversal of what it held before |
| Text.Map | src/components/Form.tsx:209-238 | `map` keeps the length, and element i is the function applied to element i |
| Patterns.DomainHasNoAt | src/components/Panel.tsx:55 | text matching the domain part of the email pattern has no `@` |
| Patterns.NameHasNoDot | src/components/Form.tsx:52 | a value matching `^[a-zA-Z0-9-]+$` has no dot, so it is one part of an index line |
| Patterns.DomainAccepted | src/components/Panel.tsx:55 | every host of `[a-zA-Z0-9.-]`, a dot and a top-level label of two or more letters is accepted |
| Patterns.RepoPathAccepted | src/components/Form.tsx:71 | an owner, a slash and a name from `[a-zA-Z0-9_.-]` make a repository path |
| Patterns.SshUrlOfParts | src/components/Form.tsx:71 | `git@`, a domain, a colon and a repository path are accepted as an ssh URL |
| Patterns.SshRepoUrlAccepted | src/components/Form.tsx:71 | the placeholder shape `git@host.tld:owner/name` is accepted |
| Patterns.SshRepoUrlNeedsColon | src/components/Form.tsx:71 | a URL with no colon after `git@` is rejected |
| Patterns.EmailHasOneAt | src/components/Panel.tsx:55 | an accepted email has exactly one `@` and splits into two parts |
| Patterns.SplitsInTwo | src/contexts/Context.tsx:34 | a text with exactly one `@` splits into two parts |
| Gateway.ErrorText | src/components/List.tsx:59 | `error \|\| fallback`: the backend's message when non-empty, otherwise the fallback, and never empty when the fallback is not |
| VaultIndex.IndexLines | src-tauri/src/lib.rs:418-424 | `get_index_lines`: every line is non-empty and newline-free |
| VaultIndex.IndexRoundTrip | src-tauri/src/lib.rs:122-126 | writing non-empty, newline-free lines (empty text for none, otherwise joined by newlines) and reading them back gives the same lines |
| VaultIndex.ReadWriteRead | src-tauri/src/lib.rs:418-424 | reading, writing and reading again gives the same lines as the first read |
| VaultIndex.DigitChar | src-tauri/src/lib.rs:31 | the digit character of d is a decimal digit with value d |
| VaultIndex.DecimalDigits | src-tauri/src/lib.rs:31 | the decimal expansion is non-empty and all digits |
| VaultIndex.ThreeDigitFormat | src-tauri/src/lib.rs:31 | `format!("{:03}", n)` of 0..999 is its hundreds, tens and units digits |
| VaultIndex.FormatIdRoundTrip | src-tauri/src/lib.rs:25-31 | for 0..999 the formatted id has three digits and `parse::<i32>` reads back the same number |
| VaultIndex.FirstIdIsOne | src-tauri/src/lib.rs:22-31 | with an empty index the new id is "001" |
| VaultIndex.NextIdFollowsLast | src-tauri/src/lib.rs:23-31 | after a last line starting with id n (n < 999) the new id is n + 1, three digits again |
| VaultIndex.IdAfter999 | src-tauri/src/lib.rs:25-31 | after "999" the new id is "1000", and after a line starting "1000" it is "101" |
| VaultIndex.AddSecretsIndex | src-tauri/src/lib.rs:21-34 | fails exactly when the id cannot be read from the last line; otherwise the old lines are kept, exactly one line `id.app.desc` + format is appended, and the index text is their newline join |
| VaultIndex.DeleteSecretsIndex | src-tauri/src/lib.rs:114-126 | `lines.retain` as a loop: keeps exactly the lines shorter than three characters or with a different three-character prefix, in order, and serialises them |
| VaultIndex.RetainedExactly | src-tauri/src/lib.rs:114-120 | a line survives deletion iff it was in the index and is shorter than three characters or has a different prefix |
| VaultIndex.DeleteIdempotent | src-tauri/src/lib.rs:114-120 | deleting the same id twice is deleting it once |
| VaultIndex.MatchingItems | src-tauri/src/lib.rs:240-256 | one item per line containing the search text, in index order, each the first four dot-separated parts with the dot given back to the format |
| VaultIndex.SecretsList | src-tauri/src/lib.rs:238-260 | `get_secrets_list`: the matching items in reverse index order |
| VaultIndex.EmptySearchListsAll | src-tauri/src/lib.rs:240-242 | the empty search lists every line, item k parsed from line k |
| VaultIndex.EntryLineParsesBack | src-tauri/src/lib.rs:32 | a line built from dot-free id, app, description and extension parses back to the same item |
| VaultIndex.AddedSecretListedFirst | src-tauri/src/lib.rs:31-34 | after adding a secret, the full listing starts with that secret's item |
| VaultIndex.DeletedIdNotListed | src-tauri/src/lib.rs:114-120 | after deleting a three-character id, no listed item carries it |
| VaultIndex.KeptLineKeepsItsId | src-tauri/src/lib.rs:114-120 | a line kept by deletion of id does not parse to an item with that id |
| Backend.EncryptAll | src-tauri/src/lib.rs:276-279 | a chain of `encrypt(...)?` calls succeeds iff every encryption does; on failure the files written are exactly those before the first failing one, and the error is that encryption's |
| Backend.AddEmailAndQuestion | src-tauri/src/lib.rs:263-281 | a failed or unsuccessful `gpg --list-key` writes nothing and returns its error; the command succeeds iff the key lookup and all three encryptions succeed, and then `email.gpg`, `question.gpg` and `answer.gpg` hold the email, the question and `hash_twice(answer)`, in that order; what is written is always a prefix of those three, and a failed run never writes `answer.gpg` |
| Backend.VerifySecurityQuestion | src-tauri/src/lib.rs:283-301 | fails iff the decryption fails; true iff the decrypted content equals `hash_twice(answer)` |
| Backend.VerifyAfterRegister | src-tauri/src/lib.rs:278-299 | after registration, verification of an offered answer is the comparison of the two double hashes, and the registered answer verifies |
| Backend.RepositoryExists | src-tauri/src/lib.rs:343-360 | `git remote -v`: true iff it succeeds with non-empty output, false iff it succeeds with empty output |
| Backend.AddGitRepository | src-tauri/src/lib.rs:385-400 | the remote is added iff none exists; the result is success iff one existed or the add succeeded |
| Backend.PushArgs | src-tauri/src/lib.rs:78-86 | `push` when the upstream exists, `push -u origin main` when it does not, and the error passed on otherwise |
| Backend.ContainsAcross | src-tauri/src/lib.rs:690-692 | a needle without the separator occurs in `a + sep + b` iff it occurs in a or in b |
| Backend.ContainsJoin | src-tauri/src/lib.rs:690-692 | a needle without the separator occurs in a join iff it occurs in one of the parts |
| Backend.HitsAroundLast | src-tauri/src/lib.rs:690-692 | a needle occurs in some line of `init + [last]` iff it occurs in `init` or in `last`; the empty line holds no non-empty needle |
| Backend.StripReturnKeepsHits | src-tauri/src/lib.rs:690-692 | removing a trailing carriage return does not change whether a line contains a needle without one |
| Backend.StrippedKeepHits | src-tauri/src/lib.rs:690-692 | some stripped line contains the needle iff some raw line does |
| Backend.LinesContain | src-tauri/src/lib.rs:690-695 | some line of `str::lines` contains a one-line needle iff the whole output does |
| Backend.UpstreamIffMentioned | src-tauri/src/lib.rs:682-699 | `git_upstream_exists` of a completed run is true iff it succeeded and its output contains "origin/main" |
| Backend.FirstExisting | src-tauri/src/lib.rs:571-575 | the found path is a listed candidate that exists; none is found iff no candidate exists |
| Backend.FirstExistingIsFirst | src-tauri/src/lib.rs:571-575 | the found path is the first existing candidate in listed order |
| Backend.WhichFallback | src-tauri/src/lib.rs:577-588 | the `which` fallback succeeds only with a non-empty path |
| Backend.FindPath | src-tauri/src/lib.rs:559-591 | the candidate loop and its `which` fallback compute the specified lookup |
| Backend.AvailabilityNeverFalse | src-tauri/src/lib.rs:362-378 | `is_git_available` and `is_gpg_available` are never `Ok(false)`: a missing tool is an error |
| Backend.ToolPaths.constructor | src-tauri/src/lib.rs:543-593 | both path caches start empty |
| Backend.ToolPaths.GetGpgCmd | src-tauri/src/lib.rs:544-557 | a cached path is returned without searching; otherwise the lookup runs and a found path is cached |
| Backend.ToolPaths.GetGitCmd | src-tauri/src/lib.rs:595-608 | a cached path is returned without searching; otherwise the lookup runs and a found path is cached |
| Backend.ToolPaths.ClearCache | src-tauri/src/lib.rs:762-774 | both caches are reset to none |
| Backend.CachedUntilCleared | src-tauri/src/lib.rs:595-608 | a path found once is returned again whatever the file system then holds, a failed lookup is retried, and after the cache is cleared the lookup runs afresh |
| AppContext.MaskParts | src/contexts/Context.tsx:35-39 | an empty local part shows as `undefined***@domain`; one of up to three characters keeps its first character (`a***@domain`); a longer one keeps its first two and its last character (`ab***z@domain`); the mask always holds `***` and ends in `@` + domain |
| AppContext.MaskEmail | src/contexts/Context.tsx:32-40 | text without `@` is returned unchanged; any other text is masked with `***`, starts with the email's first character when the local part is non-empty and with `undefined` when it is empty |
| AppContext.LocalAndDomain | src/contexts/Context.tsx:34 | the local part is the text before the first `@` and the domain ends at the second `@` or the end |
| AppContext.MaskEmailShape | src/contexts/Context.tsx:32-40 | the mask of `local@domain…` is the mask of the local part and the domain up to the second `@` |
| AppContext.EmptyLocalShowsUndefined | src/contexts/Context.tsx:36 | an empty local part is shown as `undefined***@domain` |
| AppContext.Session.constructor | src/contexts/Context.tsx:47-55 | all flags are false, texts empty, the trigger zero and the context initialising |
| AppContext.Session.LoadCtx | src/contexts/Context.tsx:57-78 | each fulfilled probe sets only its own fields (the email masked), a rejected one leaves them as they were, and initialisation ends |
| AppContext.Session.BumpListTrigger | src/contexts/Context.tsx:14 | the list trigger grows by one |
| AppContext.StartUp | src/contexts/Context.tsx:57-82 | from a fresh context each flag holds iff its own probe was fulfilled (with `true` for availability and repository); `hasEmail` holds iff the email probe succeeded and the email is stored masked |
| Notifications.Without | src/contexts/NotificationContext.tsx:42-44 | an item remains iff it was there and has another id |
| Notifications.RemoveAbsent | src/contexts/NotificationContext.tsx:43 | removing an absent id changes nothing |
| Notifications.RemoveIdempotent | src/contexts/NotificationContext.tsx:43 | removal is idempotent |
| Notifications.RemoveAfterAdd | src/contexts/NotificationContext.tsx:30-44 | adding an item with a fresh id and removing that id restores the queue |
| Notifications.NotificationCenter.constructor | src/contexts/NotificationContext.tsx:28 | the queue starts empty |
| Notifications.NotificationCenter.AddNotification | src/contexts/NotificationContext.tsx:30-40 | appends exactly one item with the fresh id at the end, earlier items unchanged, and returns that id |
| Notifications.NotificationCenter.RemoveNotification | src/contexts/NotificationContext.tsx:42-44 | the queue becomes the old queue without the items of that id |
| Notifications.NotificationCenter.ShowSuccess | src/contexts/NotificationContext.tsx:46-48 | appends a success item with the message and duration |
| Notifications.NotificationCenter.ShowError | src/contexts/NotificationContext.tsx:50-52 | appends an error item with the message and duration |
| Notifications.NotificationCenter.ShowInfo | src/contexts/NotificationContext.tsx:54-56 | appends an info item with the message and duration |
| Notifications.Layout | src/components/NotificationManager.tsx:20-38 | one placement per item, in order, right at 20; the first sits at top 20, zIndex 9999 and offset 0, and each next one is exactly 70 pixels lower, one zIndex lower and 3 pixels further shifted |
| Notifications.RemoveAt | src/contexts/NotificationContext.tsx:43 | removing the id of item i, when unique, removes exactly that position |
| Notifications.CloseRemovesOnlyItsOwn | src/components/NotificationManager.tsx:35 | with unique ids, closing the i-th rendered toast removes exactly the i-th item |
| Notifications.IconsDistinct | src/components/Notification.tsx:74-85 | success, error and info glyphs are distinct, and a missing type shows the success glyph |
| Notifications.Toast.constructor | src/components/Notification.tsx:13-34 | mounting uses duration 5000 by default and schedules one auto-close timer for that duration |
| Notifications.Toast.StartTimer | src/components/Notification.tsx:50-57 | the pending timer is cancelled and one fresh auto-close is scheduled for the full duration, so exactly one auto-close is pending |
| Notifications.Toast.MouseEnter | src/components/Notification.tsx:37-68 | hovering cancels the pending timer: no auto-close remains |
| Notifications.Toast.MouseLeave | src/components/Notification.tsx:44-72 | unhovering schedules one auto-close for the full duration, not the remainder, replacing only the timer timerRef names: every other pending timer, such as a scheduled onClose, survives unchanged; without a hover nothing changes |
| Notifications.Toast.HandleClose | src/components/Notification.tsx:59-64 | close marks the toast leaving and schedules `onClose` 300 ms later, without calling it yet |
| Notifications.Toast.Advance | src/components/Notification.tsx:50-64 | time moves forward and the timer invariant holds |
| Notifications.Toast.Fire | src/components/Notification.tsx:54-63 | an auto-close starts the leaving phase; the exit timer calls `onClose` exactly once |
| Notifications.Toast.Unmount | src/components/Notification.tsx:29-33 | unmounting clears the pending auto-close |
| Notifications.LeftAlone | src/components/Notification.tsx:22-64 | a toast left alone calls `onClose` once, at its duration plus 300 ms |
| Decryption.DisplayContent | src/components/Decryption.tsx:33 | content of at most five lines is shown verbatim |
| Decryption.TruncatedLines | src/components/Decryption.tsx:32-34 | truncated content shows the first five lines and a final "..." line, six lines in all |
| Decryption.TruncatedIsPrefix | src/components/Decryption.tsx:33 | the truncated display is a prefix of the content followed by "..." |
| Challenge.AuthDialog.constructor | src/components/Auth.tsx:21-23 | the answer and error start empty and nothing is verifying |
| Challenge.AuthDialog.Open | src/components/Auth.tsx:26-34 | opening resets the answer and the error |
| Challenge.AuthDialog.HandleAnswerChange | src/components/Auth.tsx:36-40 | the answer is stored; the error is non-empty iff it is shorter than six, and then it is the too-short message |
| Challenge.AuthDialog.BeginSubmit | src/components/Auth.tsx:44-49 | submission proceeds iff there is no error, and then verifying is set and the error cleared |
| Challenge.AuthDialog.FinishSubmit | src/components/Auth.tsx:50-63 | close is requested iff verification says true; false clears the answer and sets the invalid message; a failure sets the verify-failed message; verifying is cleared |
| Challenge.AuthDialog.HandleSubmit | src/components/Auth.tsx:42-64 | the verifier is called iff there was no error; close is requested iff it then says true; verifying is false after it runs; true keeps the answer with no error, false clears the answer with the invalid-answer message, a failure keeps the answer with the verify-failed message; without the call nothing changes |
| Challenge.AuthDialog.HandleKeyPress | src/components/Auth.tsx:66-72 | Enter runs the submission without the button's length guard: it goes ahead iff no error is shown, asks to close iff it went ahead and the verifier answered true, leaves the dialog idle afterwards with the answer and message of the verdict (kept with no error on true, cleared with the invalid-answer message on false, kept with the verify-failed message on failure) and changes nothing when it did not go ahead; Escape requests close and other keys change nothing, neither touching the answer, the error or the verifying flag |
| Challenge.EnterRightAfterOpen | src/components/Auth.tsx:66-72 | right after opening, the Verify button is disabled yet Enter still calls the verifier |
| Challenge.EditedAnswerEnablesVerify | src/components/Auth.tsx:36-40 | an edit that leaves no error enables the Verify button |
| FieldErrors.CollectMeaning | src/components/Form.tsx:91-97 | the collected map holds a field iff it is among the first `count` in order and its check fails, with the check's message |
| SecretForm.Position | src/components/Form.tsx:39-46 | `fieldOrder.indexOf` finds each field at its own position |
| SecretForm.With | src/components/Form.tsx:121-124 | `{ ...formData, [name]: value }` sets one field and keeps the others |
| SecretForm.ValidateField | src/components/Form.tsx:49-80 | a reported error is never the empty message |
| SecretForm.ValidationRules | src/components/Form.tsx:49-80 | app and desc are valid iff trimmed they match `[a-zA-Z0-9-]+` with lengths 2..12 and 2..24, with the character error first; secrets iff trimmed length is 1..1000000; format and pushToCloud always; repo fails iff there is no repository, the current pushToCloud is "yes" and the trimmed value is no ssh URL |
| SecretForm.VerdictsCollect | src/components/Form.tsx:83-100 | the loop's error map is the field-order collection of the validators |
| SecretForm.AmongFirst | src/components/Form.tsx:88-92 | a field is among the first `count` of the order iff its position is below `count` |
| SecretForm.VerdictsMeaning | src/components/Form.tsx:83-100 | up to `count`, a field has an error iff its validator reports one, with that message |
| SecretForm.KeptMeaning | src/components/Form.tsx:132-140 | later fields keep exactly their previous non-empty errors |
| SecretForm.Updated | src/components/Form.tsx:106-125 | the edited field takes the new value; choosing "no" empties repo in the same update, and otherwise repo is kept; a push choice sets pushToCloud, and without one pushToCloud is kept; every other field is kept |
| SecretForm.EncryptCalls | src/components/Form.tsx:171-182 | `add_git_repository` is called iff the trimmed repo is non-empty; `add_secrets` with the trimmed fields is called iff there is no repo or adding it succeeded |
| SecretForm.EncryptNotice | src/components/Form.tsx:183-185 | the notice is a success iff encryption succeeded, and its message is never empty |
| SecretForm.MergedHasNoEmptyMessage | src/components/Form.tsx:129-142 | the merged error map holds no empty message |
| SecretForm.AddToVault | src/components/Form.tsx:171-185 | records exactly the specified calls and outcome; `hasRepository` becomes true when a repo was added |
| SecretForm.FormScreen.constructor | src/components/Form.tsx:25-37 | the form starts with the initial data, no errors and no dialog |
| SecretForm.FormScreen.ValidateFieldsUpToCurrent | src/components/Form.tsx:83-100 | the loop computes the errors of the fields up to and including the current one |
| SecretForm.FormScreen.ValidateAllFields | src/components/Form.tsx:149-161 | the loop computes the errors of all fields |
| SecretForm.FormScreen.HandleInputChange | src/components/Form.tsx:102-143 | the data becomes the update; fields up to the edited one get fresh verdicts and later fields keep their old errors |
| SecretForm.FormScreen.ValidateFormData | src/components/Form.tsx:163-167 | the whole error map is replaced, and submission proceeds iff every field validates |
| SecretForm.FormScreen.CloseAuth | src/components/Form.tsx:258-262 | the dialog and the busy flag are cleared; app, desc and secrets are emptied, and format, pushToCloud and repo are kept |
| SecretForm.FormScreen.OpenAuth | src/components/Form.tsx:264-275 | without email and question only an error is shown; otherwise full validation replaces the errors, and the dialog opens with encrypting set iff there are none |
| SecretForm.FormScreen.HandleEncrypt | src/components/Form.tsx:169-190 | makes the encryption calls, shows the outcome notice, bumps the list trigger, and always ends with the dialog closed and encrypting false |
| SecretForm.FormScreen.VerifyAuth | src/components/Form.tsx:277-284 | the verdict is returned; on true the encryption runs with its calls, its one notice, the list trigger bumped, hasRepository set when a typed repository was added, the form emptied of app, description and secrets and the dialog closed; otherwise nothing changes |
| SecretForm.FormScreen.SubmitChallenge | src/components/Form.tsx:456 | with an error showing nothing happens; otherwise the verifier is called with the held answer; on true the encryption follows with its calls, notice, list-trigger bump and hasRepository, the form is emptied and closed and the dialog keeps the answer with no error; on any other verdict the form, its flags, the context and the notices are unchanged, and the dialog shows the invalid-answer message with the answer cleared on false or the verify-failed message on failure |
| SecretForm.FormScreen.HandleFormat | src/components/Form.tsx:192-256 | YAML secrets are reformatted, JSON replaced by its pretty form or left with an error notice, other formats untouched |
| SecretForm.ChoosingNoKeepsRepoError | src/components/Form.tsx:69-142 | choosing "no" with a repo error in place empties repo but keeps the error, and submit stays disabled |
| SecretForm.FormatIsExtension | src/components/Form.tsx:344-347 | every offered format is a dot followed by a dot-free extension |
| SecretForm.ValidatedSecretListedFirst | src/components/Form.tsx:174-182 | a secret whose app and description validate is listed first after it is added |
| RegistrationPanel.MaskQuestion | src/components/Panel.tsx:18-22 | up to eight characters are kept as they are; longer questions become their first eight characters and "..." |
| RegistrationPanel.MaskQuestionIdempotent | src/components/Panel.tsx:18-22 | masking a masked question changes nothing |
| RegistrationPanel.MaskQuestionShowsPrefix | src/components/Panel.tsx:18-22 | the mask is at most eleven characters and starts with the question's first eight |
| RegistrationPanel.Position | src/components/Panel.tsx:48 | `fieldOrder.indexOf` finds each field at its own position |
| RegistrationPanel.With | src/components/Panel.tsx:93-96 | setting one field keeps the others |
| RegistrationPanel.ValidateField | src/components/Panel.tsx:51-67 | a reported error is never the empty message |
| RegistrationPanel.ValidationRules | src/components/Panel.tsx:51-67 | email is valid iff trimmed it matches the email pattern; question and answer iff trimmed length is at least six; confirmAnswer iff trimmed it equals the stored untrimmed answer |
| RegistrationPanel.TrimKeepsNonSpace | src/components/Panel.tsx:52 | trimming keeps every non-space character |
| RegistrationPanel.EmailHasNoStar | src/components/Panel.tsx:55 | an accepted email has no `*` |
| RegistrationPanel.MaskedEmailNeverValid | src/components/Panel.tsx:55-57 | a masked email never passes the email validator |
| RegistrationPanel.PaddedAnswerNeverConfirmed | src/components/Panel.tsx:52-63 | an answer starting or ending with whitespace can never be confirmed |
| RegistrationPanel.MaskedQuestionStaysValid | src/components/Panel.tsx:18-22 | a valid question stays valid once trimmed and masked |
| RegistrationPanel.VerdictsCollect | src/components/Panel.tsx:70-87 | the loop's error map is the field-order collection of the validators |
| RegistrationPanel.AmongFirst | src/components/Panel.tsx:75-79 | a field is among the first `count` of the order iff its position is below `count` |
| RegistrationPanel.VerdictsMeaning | src/components/Panel.tsx:70-87 | up to `count`, a field has an error iff its validator reports one, with that message |
| RegistrationPanel.KeptMeaning | src/components/Panel.tsx:121-129 | later fields keep exactly their previous non-empty errors |
| RegistrationPanel.Updated | src/components/Panel.tsx:93-114 | the edited field takes the value; an emptied question also empties answer and confirmAnswer, and an emptied answer empties confirmAnswer |
| RegistrationPanel.MergedHasNoEmptyMessage | src/components/Panel.tsx:118-131 | the merged error map holds no empty message |
| RegistrationPanel.EmailOnlyByItsOwnEdit | src/components/Panel.tsx:98-113 | cascade clearing never touches the email |
| RegistrationPanel.PanelScreen.constructor | src/components/Panel.tsx:36-41 | the panel starts with the context's email, the masked question, empty answers and no errors |
| RegistrationPanel.PanelScreen.ValidateFieldsUpToCurrent | src/components/Panel.tsx:70-87 | the loop computes the errors of the fields up to and including the current one |
| RegistrationPanel.PanelScreen.ValidateAllFields | src/components/Panel.tsx:138-150 | the loop computes the errors of all fields |
| RegistrationPanel.PanelScreen.HandleInputChange | src/components/Panel.tsx:89-132 | the data becomes the cascade update; fields up to the edited one get fresh verdicts and later fields keep their old errors |
| RegistrationPanel.PanelScreen.ValidatePanelData | src/components/Panel.tsx:152-156 | the whole error map is replaced, and submission proceeds iff every field validates |
| RegistrationPanel.PanelScreen.CloseConfirmation | src/components/Panel.tsx:183-192 | the confirmation and busy flag are cleared and all four fields emptied |
| RegistrationPanel.PanelScreen.OpenConfirmation | src/components/Panel.tsx:194-201 | full validation replaces the errors, and the confirmation opens with submitting set iff there are none |
| RegistrationPanel.PanelScreen.HandleSubmit | src/components/Panel.tsx:158-181 | calls `add_email_and_question` with trimmed values; success shows the masked email and question, empties the answers and sets hasEmail/hasQuestion; failure empties the fields and shows the error; the flags are cleared either way |
| RegistrationPanel.RegisterValidated | src/components/Panel.tsx:158-181 | a fully validated panel registers a valid email and answers of six or more characters; afterwards the masked question still validates and the masked email does not |
| RegistrationPanel.EmailWithoutQuestionBlocks | src/components/Panel.tsx:194-201 | with an email but no question at start-up, submission is refused with the email error |
| SecretList.Remaining | src/components/List.tsx:56-57 | an item remains iff it was listed and has another id |
| SecretList.ActionCalls | src/components/List.tsx:118-126 | exactly one call for a recorded action: decrypt with the answer or delete, and none otherwise |
| SecretList.ListScreen.constructor | src/components/List.tsx:24-44 | empty list, no dialog, no busy flag, no recorded action; the mount-time load is LoadListItems with the empty search |
| SecretList.ListScreen.CloseConfirmation | src/components/List.tsx:128-131 | the confirmation and deleting flags are cleared |
| SecretList.ListScreen.OpenConfirmation | src/components/List.tsx:133-137 | opens the confirmation for the id with deleting set, which disables the buttons |
| SecretList.ListScreen.HandleDelete | src/components/List.tsx:52-64 | calls `delete_secrets`; success removes exactly that id's items in order with a success notice, failure keeps the list and shows the error; both flags end false |
| SecretList.ListScreen.HandleDecrypt | src/components/List.tsx:66-78 | calls `decrypt_secrets`; success opens the view with the content, failure shows the error; decrypting ends false |
| SecretList.ListScreen.LoadListItems | src/components/List.tsx:80-90 | success replaces the list; a failure is reported only when the search text is non-empty |
| SecretList.ListScreen.OnListTrigger | src/components/List.tsx:46-50 | a positive trigger reloads the full list: the list is replaced on success and kept on failure, with no notice either way, and loading ends; otherwise nothing happens |
| SecretList.ListScreen.CloseDecryption | src/components/List.tsx:92-96 | the view is closed and its content and title cleared |
| SecretList.ListScreen.CloseAuth | src/components/List.tsx:98-104 | the dialog is closed, the action's busy flag cleared, and id and action reset |
| SecretList.ListScreen.OpenAuth | src/components/List.tsx:106-116 | without email and question only an error is shown; otherwise the dialog opens with the id, the action and its busy flag |
| SecretList.ListScreen.VerifyAuth | src/components/List.tsx:118-126 | the verdict is returned; on true exactly the recorded action runs: a delete removes exactly that id's items on success and shows the success or error notice, clearing both delete flags; a decrypt opens the view titled for the id on the plain text, or leaves the view and shows the error notice, with decrypting idle; on any other verdict or without an action nothing changes |
| SecretList.ListScreen.SubmitChallenge | src/components/List.tsx:274 | with an error showing nothing happens; otherwise the verifier is called with the held answer; on true the recorded action runs with the full outcome of VerifyAuth (list, view, flags and notices), the challenge closes and forgets the id and action, and the dialog keeps the answer with no error; on any other verdict the list, flags, view, notices and recorded action are unchanged, and the dialog shows the invalid-answer message with the answer cleared on false or the verify-failed message on failure |
| SecretList.ListScreen.HandleSearch | src/components/List.tsx:139-149 | without email and question only an error is shown; otherwise the list reloads with the search text, which is then cleared |
| SecretList.ListScreen.HandleKeyPress | src/components/List.tsx:151-155 | the handler (bound to the search icon, not the text input) runs the whole of handleSearch on Enter: without an email and a question only the set-up error appears; otherwise the current search is loaded, the list replaced on success, a load error reported for a non-empty search, success announced and the search emptied; other keys change nothing |
| SecretList.ListScreen.DecryptClicked | src/components/List.tsx:237-246 | with a question and an email the challenge opens for decryption; with a question but no email only the set-up error appears and nothing opens; without a question decryption runs at once with no answer and opens the view on the plain text or shows the decryption error; deleting is never touched |
| SecretList.ListScreen.DeleteClicked | src/components/List.tsx:247-258 | with a question and an email the challenge opens for deletion; with a question but no email only the set-up error appears and nothing opens; without a question the confirmation opens with no notice; nothing is deleted and decrypting is never touched |
| SecretList.ListScreen.ConfirmDelete | src/components/List.tsx:276-283 | confirming deletes the recorded id: exactly its items are removed and the success notice shown on success, the list is kept and the error notice shown on failure; both flags end cleared |
| SecretList.CancelledDeleteKeepsItems | src/components/List.tsx:128-137 | opening then cancelling the confirmation deletes nothing and clears the flags |
| SecretList.WrongAnswerStartsNothing | src/components/List.tsx:118-126 | a wrong answer runs neither action and clears the answer with the invalid message |
| SecretList.ParseAll | src-tauri/src/lib.rs:243-255 | one item per line, each the line's parse |
| SecretList.ListingParsesAll | src-tauri/src/lib.rs:240-256 | the empty search parses every line |
| SecretList.IdIsPrefix | src-tauri/src/lib.rs:115-116 | a three-character parsed id is the line's three-character prefix |
| SecretList.ReverseAppend | src-tauri/src/lib.rs:258 | reversing a concatenation reverses the order of the parts |
| SecretList.FilterReverse | src-tauri/src/lib.rs:258 | filtering commutes with reversal |
| SecretList.RemainingParsed | src/components/List.tsx:56-57 | removing an id from the parsed items equals parsing the index after deletion |
| SecretList.OptimisticDeleteMatchesReload | src/components/List.tsx:56-57 | the list after the local removal equals what a reload would list after `delete_secrets` |
| YamlFormat.FormatYamlLineKeepsOut | src/components/Form.tsx:210-236 | formatting a line never introduces a character other than space, colon or dash |
| YamlFormat.FormatYamlKeepsLines | src/components/Form.tsx:208-238 | the output's lines are the input's lines each formatted, so the line count is kept |
| YamlFormat.IndentOfPadded | src/components/Form.tsx:218 | the indent of n spaces before non-space text is n |
| YamlFormat.SplitKey | src/components/Form.tsx:214-217 | the key is the text up to the first colon and the value is the rest joined back |
| YamlFormat.FormatKeyLine | src/components/Form.tsx:213-227 | a key line becomes its indent, the trimmed key, and `": " + value` (or `":"` when the value is empty) |
| YamlFormat.KeyValueText | src/components/Form.tsx:220-226 | the formatted key line is indent, key, colon and, for a non-empty value, a space and the value |
| YamlFormat.KeyValueStable | src/components/Form.tsx:213-227 | an already-formatted key line is left unchanged |
| YamlFormat.BareDashStable | src/components/Form.tsx:228-235 | a bare dash item is left unchanged |
| YamlFormat.ReformatItem | src/components/Form.tsx:228-235 | a dash line without a colon becomes its indent, `- ` and the trimmed item |
| YamlFormat.ItemStable | src/components/Form.tsx:228-235 | an already-formatted item line is left unchanged |
| YamlFormat.KeyValueIdempotent | src/components/Form.tsx:213-227 | formatting a key line twice is formatting it once |
| YamlFormat.ItemIdempotent | src/components/Form.tsx:228-235 | formatting an item line twice is formatting it once |
| YamlFormat.FormatYamlLineIdempotent | src/components/Form.tsx:210-236 | formatting any line twice is formatting it once; blank and `#` lines are untouched |
| YamlFormat.FormatYamlIdempotent | src/components/Form.tsx:205-247 | formatting a document twice is formatting it once |

## Left out

- Subprocess and file-system work: the gpg and git `Command` calls, `fs::remove_file` and the existence checks. Their outcomes are parameters (`Run`, `Result`, an existence predicate).
- `encrypt`/`encrypt_with_answer` (src-tauri/src/lib.rs:428-541): these are gpg pipelines and are not part of this model. Only the files they write and their outcome, given as a parameter, are recorded; a file whose encryption fails is counted as not written, whatever gpg may have left behind.
- `decrypt_secrets` (src-tauri/src/lib.rs:176-236): only the call and its result are modelled; its answer check and gpg pipeline are not.
- `add_secrets`' encryption of the secret and its git add/commit/push subprocesses: only the index half (the id, the new line and the text) and the push arguments are modelled.
- `create_project_dir`, `get_gpg_email`, `get_security_question`, `exit_app` and Tauri's `run`/window events: these are process and file-system set-up.
- `hash`/`hash_twice` (Keccak and hex, src-tauri/src/lib.rs:701-721) are foreign library calls. They are a function parameter, so equal hashes stand for equal answers only as far as the hash is injective.
- The `OnceLock`/`Mutex` around the path caches are concurrency primitives. Each cache is a plain `Option` field, and a poisoned lock is not modelled.
- Backend.FindPath: the fixed candidate lists are constants; the paths are modelled as text, not as the file system.
- Text: `trim` and `trimStart` treat only ASCII whitespace as space, not the full Unicode set of JavaScript.
- Text: lengths count characters, not the UTF-16 units of JavaScript or the UTF-8 bytes of Rust. Slicing the first three bytes of a line can panic in Rust on a multi-byte character; the model reads three characters.
- `String::from_utf8_lossy`: gpg and git output is taken as already-decoded text.
- VaultIndex.MatchingItems, VaultIndex.SecretsList: require every matching line to have at least four dot-separated parts, because the source panics on `parts[3]` otherwise.
- Asynchronous calls (the verifier, `handleEncrypt`, `handleDelete`, `handleDecrypt`, the list load) run to completion within the handler that starts them. The source does not await `onVerify`'s follow-up before `closeAuth` in every path, so an interleaving of a close with an in-flight action is not modelled.
- `Object.keys(formData)` order in `validateAllFields` is taken to be the field order; the resulting map is the same either way.
- `JSON.parse`/`JSON.stringify` in `formatJSON` are foreign calls: the pretty-printed text, or its absence on a parse error, is the parameter `jsonFormatted`.
- The clipboard copy (src/components/Decryption.tsx:17-24), rendering, focus, overlay clicks, CSS and the toast's entry animation are UI only.
- Notification ids (`Date.now()` and `Math.random()`) are fresh-id parameters. Timer delays run on a discrete millisecond clock, and the timing of React effects is taken to be immediate.
- src/components/Confirmation.tsx, src/App.tsx and vite.config.ts are rendering, process exit and build configuration. The panel is taken to mount after the context has loaded, as App.tsx renders it.
- RegistrationPanel.PanelScreen.HandleSubmit: the context's stored email is not updated by a registration, as in the source.

=== FILE: auth.dfy ===
/** The security-question challenge (src/components/Auth.tsx). The dialog
    owns the typed answer, the error line and the busy flag; whether it is
    open, what verifying does and what closing does belong to the screen
    that shows it, so `onVerify` arrives as its settled outcome and `onClose`
    as a returned request. */
module Challenge {
  import opened Wrappers

  const ANSWER_TOO_SHORT := "Answer requires at least 6 characters"
  const INVALID_ANSWER := "Invalid answer, please try again"
  const VERIFY_FAILED := "Failed to verify, please try again"

  datatype Key = Enter | Escape | OtherKey

  class AuthDialog {
    var answer: string
    var error: string
    var isVerifying: bool

    constructor ()
      ensures answer == "" && error == "" && !isVerifying
    {
      answer, error, isVerifying := "", "", false;
    }

    /** The effect that runs when the dialog opens: a clean answer and no error. */
    method Open()
      modifies this`answer, this`error
      ensures answer == "" && error == ""
    {
      answer := "";
      error := "";
    }

    /** handleAnswerChange: an answer shorter than six characters shows the
        length error, a longer one clears the error. */
    method HandleAnswerChange(value: string)
      modifies this`answer, this`error
      ensures answer == value
      ensures error != "" <==> |value| < 6
      ensures error != "" ==> error == ANSWER_TOO_SHORT
    {
      answer := value;
      error := if |value| >= 6 then "" else ANSWER_TOO_SHORT;
    }

    /** handleSubmit up to the call of onVerify: with an error showing
        nothing happens; otherwise the dialog turns busy and onVerify is
        called with the answer. */
    method BeginSubmit() returns (proceed: bool)
      modifies this`isVerifying, this`error
      ensures proceed <==> old(error) == ""
      ensures proceed ==> isVerifying && error == ""
      ensures !proceed ==> isVerifying == old(isVerifying) && error == old(error)
    {
      if error != "" {
        return false;
      }
      isVerifying := true;
      error := "";
      proceed := true;
    }

    /** handleSubmit once onVerify has settled: `true` asks the screen to
        close, `false` clears the answer and says so, a rejection says
        verification failed; the dialog is never left busy. */
    method FinishSubmit(verdict: Result<bool, string>) returns (closeRequested: bool)
      modifies this`answer, this`error, this`isVerifying
      ensures closeRequested <==> verdict == Success(true)
      ensures verdict == Success(true) ==> answer == old(answer) && error == old(error)
      ensures verdict == Success(false) ==> answer == "" && error == INVALID_ANSWER
      ensures verdict.Failure? ==> answer == old(answer) && error == VERIFY_FAILED
      ensures !closeRequested ==> error != ""
      ensures !isVerifying
    {
      closeRequested := false;
      match verdict {
        case Success(valid) =>
          if valid {
            closeRequested := true;
          } else {
            error := INVALID_ANSWER;
            answer := "";
          }
        case Failure(_) =>
          error := VERIFY_FAILED;
      }
      isVerifying := false;
    }

    /** handleSubmit as a whole, for a verifier whose outcome is `verdict`. */
    method HandleSubmit(verdict: Result<bool, string>) returns (verified: bool, closeRequested: bool)
      modifies this`answer, this`error, this`isVerifying
      ensures verified <==> old(error) == ""
      ensures closeRequested <==> verified && verdict == Success(true)
      ensures !verified ==> answer == old(answer) && error == old(error) && isVerifying == old(isVerifying)
      ensures verified ==> !isVerifying && (error == "" <==> closeRequested)
      ensures verified && verdict == Success(true) ==> answer == old(answer) && error == ""
      ensures verified && verdict == Success(false) ==> answer == "" && error == INVALID_ANSWER
      ensures verified && verdict.Failure? ==> answer == old(answer) && error == VERIFY_FAILED
    {
      verified := BeginSubmit();
      closeRequested := false;
      if verified {
        closeRequested := FinishSubmit(verdict);
      }
    }

    /** The Verify button is enabled when the dialog is idle and the answer
        has at least two characters. */
    predicate VerifyEnabled()
      reads this
    {
      !isVerifying && |answer| >= 2
    }

    /** The close and Cancel buttons are enabled when the dialog is idle. */
    predicate CloseEnabled()
      reads this
    {
      !isVerifying
    }

    /** handleKeyPress: Enter submits without the Verify button's guard,
        Escape asks the screen to close. */
    method HandleKeyPress(key: Key, verdict: Result<bool, string>) returns (verified: bool, closeRequested: bool)
      modifies this`answer, this`error, this`isVerifying
      ensures key == Enter ==> (verified <==> old(error) == "")
      ensures key == Enter ==> (closeRequested <==> verified && verdict == Success(true))
      ensures key == Enter && verified ==> !isVerifying && (error == "" <==> closeRequested)
      ensures key == Enter && !verified ==> answer == old(answer) && error == old(error) && isVerifying == old(isVerifying)
      ensures key == Enter && verified && verdict == Success(true) ==> answer == old(answer) && error == ""
      ensures key == Enter && verified && verdict == Success(false) ==> answer == "" && error == INVALID_ANSWER
      ensures key == Enter && verified && verdict.Failure? ==> answer == old(answer) && error == VERIFY_FAILED
      ensures key != Enter ==> isVerifying == old(isVerifying)
      ensures key == Escape ==> !verified && closeRequested && answer == old(answer) && error == old(error)
      ensures key == OtherKey ==> !verified && !closeRequested && answer == old(answer) && error == old(error)
    {
      verified, closeRequested := false, false;
      match key {
        case Enter =>
          verified, closeRequested := HandleSubmit(verdict);
        case Escape =>
          closeRequested := true;
        case OtherKey =>
      }
    }
  }

  /** Pressing Enter right after the dialog opens sends the empty answer to
      the verifier, although the Verify button is disabled. */
  method EnterRightAfterOpen(verdict: Result<bool, string>) returns (buttonEnabled: bool, verified: bool)
    ensures !buttonEnabled && verified
  {
    var dialog := new AuthDialog();
    dialog.Open();
    buttonEnabled := dialog.VerifyEnabled();
    var closeRequested;
    verified, closeRequested := dialog.HandleKeyPress(Enter, verdict);
  }

  /** Once the answer was edited, Enter and the Verify button agree: an
      answer that passes the length check enables the button. */
  method EditedAnswerEnablesVerify(value: string) returns (dialog: AuthDialog)
    ensures dialog.error == "" ==> dialog.VerifyEnabled()
    ensures dialog.answer == value
  {
    dialog := new AuthDialog();
    dialog.Open();
    dialog.HandleAnswerChange(value);
  }
}

=== FILE: backend.dfy ===
/** The decisions the vault backend (src-tauri/src/lib.rs) takes on the output
    of the gpg and git subprocesses it runs: whether an answer verifies,
    whether a remote and an upstream exist, whether to add a remote, and where
    the gpg and git programs are, with the cache that remembers them. The
    subprocess runs, the file-system probe and the hash are parameters. */
module Backend {
  import opened Wrappers
  import opened Text

  /** What a finished subprocess reports. */
  datatype CmdOutput = CmdOutput(success: bool, stdout: string, stderr: string)

  /** One subprocess run: `Failure` carries the message the command returns
      when the program could not be located or started. */
  type Run = Result<CmdOutput, string>

  /** The message returned when a subprocess exits unsuccessfully. */
  function StatusError(tool: string, stderr: string): string {
    "Error result for " + tool + " command: " + stderr
  }

  // ---------------------------------------------------------------------
  // Security question
  // ---------------------------------------------------------------------

  /** A file add_email_and_question writes, with the plain text encrypted into it. */
  datatype Stored = Stored(file: string, content: string)

  /** What add_email_and_question leaves behind: the files encrypted, in the
      order they were written, and the result the command returns. */
  datatype Registration = Registration(written: seq<Stored>, outcome: Result<(), string>)

  /** A run of `encrypt(...)?` calls: the files are encrypted in turn and the
      first failure is returned, with the files after it left unwritten.
      `encrypt` is the outcome of encrypting a content into a file; a file
      whose encryption fails is not counted as written. */
  function EncryptAll(files: seq<Stored>, encrypt: Stored -> Result<(), string>): (r: Registration)
    ensures r.outcome.Success? <==> forall i :: 0 <= i < |files| ==> encrypt(files[i]).Success?
    ensures r.outcome.Success? ==> r.written == files
    ensures r.outcome.Failure? ==>
              && |r.written| < |files|
              && r.written == files[..|r.written|]
              && encrypt(files[|r.written|]) == Failure(r.outcome.error)
    ensures forall i :: 0 <= i < |r.written| ==> encrypt(r.written[i]).Success?
  {
    if files == [] then Registration([], Success(()))
    else
      match encrypt(files[0])
      case Failure(e) => Registration([], Failure(e))
      case Success(_) =>
        var rest := EncryptAll(files[1..], encrypt);
        Registration([files[0]] + rest.written, rest.outcome)
  }

  /** add_email_and_question: once gpg knows the key of `email`, encrypt the
      email, the question and the double hash of the answer, in that order,
      each into its own file. */
  function AddEmailAndQuestion(listKey: Run, email: string, question: string, answer: string,
                               hashTwice: string -> string, encrypt: Stored -> Result<(), string>): (r: Registration)
    ensures listKey.Failure? ==> r == Registration([], Failure(listKey.error))
    ensures listKey.Success? && !listKey.value.success ==> r == Registration([], Failure(StatusError("gpg", listKey.value.stderr)))
    ensures r.outcome.Success? <==>
              && listKey.Success? && listKey.value.success
              && encrypt(Stored("./email.gpg", email)).Success?
              && encrypt(Stored("./question.gpg", question)).Success?
              && encrypt(Stored("./answer.gpg", hashTwice(answer))).Success?
    ensures r.outcome.Success? ==> r.written == [Stored("./email.gpg", email), Stored("./question.gpg", question),
                                                 Stored("./answer.gpg", hashTwice(answer))]
    ensures r.written <= [Stored("./email.gpg", email), Stored("./question.gpg", question),
                          Stored("./answer.gpg", hashTwice(answer))]
    ensures forall s :: s in r.written && s.file == "./answer.gpg" ==> s.content == hashTwice(answer)
    ensures r.outcome.Failure? ==> forall s :: s in r.written ==> s.file != "./answer.gpg"
  {
    match listKey
    case Failure(e) => Registration([], Failure(e))
    case Success(out) =>
      if !out.success then Registration([], Failure(StatusError("gpg", out.stderr)))
      else
        var files := [Stored("./email.gpg", email), Stored("./question.gpg", question),
                      Stored("./answer.gpg", hashTwice(answer))];
        assert encrypt(files[0]).Success? && encrypt(files[1]).Success? && encrypt(files[2]).Success?
               ==> forall i :: 0 <= i < |files| ==> encrypt(files[i]).Success?;
        EncryptAll(files, encrypt)
  }

  /** verify_security_question: the decrypted answer file is compared with the
      double hash of the offered answer. */
  function VerifySecurityQuestion(decrypt: Run, answer: string, hashTwice: string -> string): (r: Result<bool, string>)
    ensures r.Failure? <==> decrypt.Failure? || !decrypt.value.success
    ensures r == Success(true) <==> decrypt.Success? && decrypt.value.success && decrypt.value.stdout == hashTwice(answer)
  {
    match decrypt
    case Failure(e) => Failure(e)
    case Success(out) =>
      if !out.success then Failure(StatusError("gpg", out.stderr))
      else Success(out.stdout == hashTwice(answer))
  }

  /** Once registration has stored an answer, an offered answer verifies
      exactly when its double hash equals the stored one; the registered
      answer itself always verifies. */
  lemma {:induction false} VerifyAfterRegister(listKey: Run, email: string, question: string, registered: string,
                                               offered: string, hashTwice: string -> string,
                                               encrypt: Stored -> Result<(), string>)
    requires AddEmailAndQuestion(listKey, email, question, registered, hashTwice, encrypt).outcome.Success?
    ensures var stored := AddEmailAndQuestion(listKey, email, question, registered, hashTwice, encrypt).written[2];
      && stored.file == "./answer.gpg"
      && VerifySecurityQuestion(Success(CmdOutput(true, stored.content, "")), offered, hashTwice)
         == Success(hashTwice(offered) == hashTwice(registered))
    ensures VerifySecurityQuestion(Success(CmdOutput(true, hashTwice(registered), "")), registered, hashTwice) == Success(true)
  {
  }

  // ---------------------------------------------------------------------
  // Remote and upstream
  // ---------------------------------------------------------------------

  /** git_repository_exists: `git remote -v` printed anything. */
  function RepositoryExists(remote: Run): (r: Result<bool, string>)
    ensures r == Success(true) <==> remote.Success? && remote.value.success && remote.value.stdout != ""
    ensures r == Success(false) <==> remote.Success? && remote.value.success && remote.value.stdout == ""
  {
    match remote
    case Failure(e) => Failure(e)
    case Success(out) =>
      if !out.success then Failure(StatusError("git", out.stderr))
      else Success(out.stdout != "")
  }

  /** add_git_repository: runs `git remote add origin <repo>` only when no
      remote exists yet; `added` says whether it ran. */
  method AddGitRepository(probe: Run, addRemote: Run) returns (added: bool, r: Result<(), string>)
    ensures added <==> RepositoryExists(probe) == Success(false)
    ensures r.Success? <==> RepositoryExists(probe) == Success(true)
                            || (added && addRemote.Success? && addRemote.value.success)
  {
    added := false;
    var known := RepositoryExists(probe);
    if known.Failure? {
      return added, Failure(known.error);
    }
    if !known.value {
      added := true;
      if addRemote.Failure? {
        return added, Failure(addRemote.error);
      }
      if !addRemote.value.success {
        return added, Failure(StatusError("git", addRemote.value.stderr));
      }
    }
    r := Success(());
  }

  /** Rust's `str::lines`: split at newlines, no final empty line for a
      trailing newline, and a carriage return dropped where it comes right
      before a newline; a carriage return that ends the text without a
      newline after it stays part of the last line. */
  function Lines(s: string): seq<string> {
    var parts := Split(s, '\n');
    var ended := Map(parts[..|parts| - 1], StripReturn);
    var last := parts[|parts| - 1];
    if last == "" then ended else ended + [last]
  }

  function StripReturn(line: string): string {
    if |line| > 0 && line[|line| - 1] == '\r' then line[..|line| - 1] else line
  }

  predicate MentionsOriginMain(line: string) {
    Contains(line, "origin/main")
  }

  /** git_upstream_exists: some line of `git remote -vv` mentions
      `origin/main`; an unsuccessful run counts as no upstream. */
  function UpstreamExists(remote: Run): Result<bool, string> {
    match remote
    case Failure(e) => Failure(e)
    case Success(out) => Success(out.success && |Filter(Lines(out.stdout), MentionsOriginMain)| > 0)
  }

  /** The arguments of the push in add_secrets: set the upstream when there is none. */
  function PushArgs(upstream: Result<bool, string>): (r: Result<seq<string>, string>)
    ensures r == Success(["push"]) <==> upstream == Success(true)
    ensures r == Success(["push", "-u", "origin", "main"]) <==> upstream == Success(false)
  {
    match upstream
    case Failure(e) => Failure(e)
    case Success(upstream) => Success(if upstream then ["push"] else ["push", "-u", "origin", "main"])
  }

  /** An occurrence that starts in `a` and ends past it covers the `c` in between. */
  lemma StraddleMeetsSeparator(a: string, c: char, b: string, needle: string, i: nat)
    requires i <= |a| < i + |needle| && StartsWith((a + [c] + b)[i..], needle)
    ensures c in needle
  {
    assert needle[|a| - i] == (a + [c] + b)[|a|];
  }

  /** A needle free of `c` occurs in `a + [c] + b` exactly when it occurs in `a` or in `b`. */
  lemma ContainsAcross(a: string, c: char, b: string, needle: string)
    requires |needle| > 0 && c !in needle
    ensures Contains(a + [c] + b, needle) <==> Contains(a, needle) || Contains(b, needle)
  {
    var s := a + [c] + b;
    if Contains(s, needle) {
      var i :| 0 <= i <= |s| && StartsWith(s[i..], needle);
      if i + |needle| <= |a| {
        assert a[i..][..|needle|] == s[i..][..|needle|];
        assert StartsWith(a[i..], needle);
      } else if i > |a| {
        assert b[i - |a| - 1..] == s[i..];
        assert StartsWith(b[i - |a| - 1..], needle);
      } else {
        StraddleMeetsSeparator(a, c, b, needle, i);
        assert false;
      }
    }
    if Contains(a, needle) {
      var i :| 0 <= i <= |a| && StartsWith(a[i..], needle);
      assert a[i..][..|needle|] == s[i..][..|needle|];
      assert StartsWith(s[i..], needle);
    }
    if Contains(b, needle) {
      var j :| 0 <= j <= |b| && StartsWith(b[j..], needle);
      assert b[j..] == s[|a| + 1 + j..];
      assert StartsWith(s[|a| + 1 + j..], needle);
    }
  }

  /** A separator-free needle occurs in a join exactly when it occurs in one of the parts. */
  lemma {:induction false} ContainsJoin(parts: seq<string>, sep: char, needle: string)
    requires |needle| > 0 && sep !in needle
    ensures Contains(Join(parts, sep), needle) <==> exists p :: p in parts && Contains(p, needle)
  {
    if |parts| == 0 {
      assert !StartsWith(""[0..], needle);
    } else if |parts| == 1 {
    } else {
      ContainsJoin(parts[1..], sep, needle);
      ContainsAcross(parts[0], sep, Join(parts[1..], sep), needle);
      assert parts == [parts[0]] + parts[1..];
      assert forall p :: p in parts <==> p == parts[0] || p in parts[1..];
    }
  }

  /** The lines of `init + [last]` that hold a non-empty needle are those of
      `init` and `last`; the empty text holds none. */
  lemma HitsAroundLast(init: seq<string>, last: string, needle: string)
    requires |needle| > 0
    ensures !Contains("", needle)
    ensures (exists p :: p in init + [last] && Contains(p, needle))
      <==> (exists p :: p in init && Contains(p, needle)) || Contains(last, needle)
  {
    assert !StartsWith(""[0..], needle);
    assert forall p :: p in init + [last] <==> p in init || p == last;
  }

  /** Removing a trailing carriage return loses no occurrence of a needle without one. */
  lemma StripReturnKeepsHits(p: string, needle: string)
    requires |needle| > 0 && '\r' !in needle
    ensures Contains(StripReturn(p), needle) <==> Contains(p, needle)
  {
    if |p| > 0 && p[|p| - 1] == '\r' {
      ContainsAcross(p[..|p| - 1], '\r', "", needle);
      assert p[..|p| - 1] + ['\r'] + "" == p;
    }
  }

  /** The stripped lines hold a needle without a carriage return exactly
      when the unstripped ones do. */
  lemma StrippedKeepHits(whole: seq<string>, needle: string)
    requires |needle| > 0 && '\r' !in needle
    ensures (exists line :: line in Map(whole, StripReturn) && Contains(line, needle))
      <==> (exists p :: p in whole && Contains(p, needle))
  {
    var lines := Map(whole, StripReturn);
    forall line | line in lines && Contains(line, needle) ensures exists p :: p in whole && Contains(p, needle) {
      var i :| 0 <= i < |lines| && lines[i] == line;
      StripReturnKeepsHits(whole[i], needle);
      assert whole[i] in whole;
    }
    forall p | p in whole && Contains(p, needle) ensures exists line :: line in lines && Contains(line, needle) {
      var i :| 0 <= i < |whole| && whole[i] == p;
      StripReturnKeepsHits(p, needle);
      assert lines[i] == StripReturn(p);
    }
  }

  /** Some line contains a needle without newlines or carriage returns
      exactly when the whole text does. */
  lemma {:induction false} LinesContain(s: string, needle: string)
    requires |needle| > 0 && '\n' !in needle && '\r' !in needle
    ensures (exists line :: line in Lines(s) && Contains(line, needle)) <==> Contains(s, needle)
  {
    var parts := Split(s, '\n');
    var init, last := parts[..|parts| - 1], parts[|parts| - 1];
    var ended := Map(init, StripReturn);
    JoinSplit(s, '\n');
    ContainsJoin(parts, '\n', needle);
    assert parts == init + [last];
    HitsAroundLast(init, last, needle);
    StrippedKeepHits(init, needle);
    if last == "" {
      assert Lines(s) == ended;
    } else {
      assert Lines(s) == ended + [last];
      HitsAroundLast(ended, last, needle);
    }
  }

  /** The needle `origin/main` lies within one line. */
  lemma OriginMainIsOneLine()
    ensures '\n' !in "origin/main" && '\r' !in "origin/main"
  {
  }

  /** The upstream exists exactly when the run succeeded and its output mentions `origin/main`. */
  lemma UpstreamIffMentioned(out: CmdOutput)
    ensures UpstreamExists(Success(out)) == Success(out.success && Contains(out.stdout, "origin/main"))
  {
    var lines := Lines(out.stdout);
    var hits := Filter(lines, MentionsOriginMain);
    OriginMainIsOneLine();
    LinesContain(out.stdout, "origin/main");
    assert |hits| > 0 <==> exists line :: line in lines && Contains(line, "origin/main") by {
      if |hits| > 0 {
        assert hits[0] in lines && MentionsOriginMain(hits[0]);
      }
      if exists line :: line in lines && Contains(line, "origin/main") {
        var line :| line in lines && Contains(line, "origin/main");
        assert line in hits;
      }
    }
  }

  // ---------------------------------------------------------------------
  // Locating gpg and git
  // ---------------------------------------------------------------------

  const GPG_CANDIDATES: seq<string> := [
    "/opt/homebrew/bin/gpg", "/usr/local/bin/gpg", "/usr/bin/gpg", "/opt/local/bin/gpg",
    "/usr/local/MacGPG2/bin/gpg", "/usr/local/bin/gpg2", "gpg"]
  const GIT_CANDIDATES: seq<string> := [
    "/usr/bin/git", "/usr/local/bin/git", "/opt/homebrew/bin/git", "/opt/local/bin/git", "git"]
  const GPG_NOT_FOUND := "GPG not found in system, please install it"
  const GIT_NOT_FOUND := "Git not found in system, please install it"

  /** The first candidate, in listed order, for which `present` holds. */
  function FirstExisting(candidates: seq<string>, present: string -> bool): (found: Option<string>)
    ensures found.Some? ==> found.value in candidates && present(found.value)
    ensures found.None? <==> forall i :: 0 <= i < |candidates| ==> !present(candidates[i])
  {
    if |candidates| == 0 then None
    else if present(candidates[0]) then Some(candidates[0])
    else FirstExisting(candidates[1..], present)
  }

  /** No candidate listed after an existing one is ever chosen over it. */
  lemma {:induction false} FirstExistingIsFirst(candidates: seq<string>, present: string -> bool, k: nat)
    requires k < |candidates| && present(candidates[k])
    requires forall j :: 0 <= j < k ==> !present(candidates[j])
    ensures FirstExisting(candidates, present) == Some(candidates[k])
  {
    if k > 0 {
      FirstExistingIsFirst(candidates[1..], present, k - 1);
    }
  }

  /** The `which <tool>` fallback: the first output line, trimmed, if not empty. */
  function WhichFallback(which: Run, notFound: string): (r: Result<string, string>)
    ensures r.Success? ==> r.value != ""
  {
    if which.Success? && which.value.success then
      var lines := Lines(which.value.stdout);
      if |lines| > 0 && Trim(lines[0]) != "" then Success(Trim(lines[0])) else Failure(notFound)
    else Failure(notFound)
  }

  /** find_gpg_path / find_git_path. */
  function LocatePath(candidates: seq<string>, present: string -> bool, which: Run, notFound: string): Result<string, string> {
    match FirstExisting(candidates, present)
    case Some(path) => Success(path)
    case None => WhichFallback(which, notFound)
  }

  /** The search loop of find_gpg_path / find_git_path. */
  method FindPath(candidates: seq<string>, present: string -> bool, which: Run, notFound: string)
    returns (r: Result<string, string>)
    ensures r == LocatePath(candidates, present, which, notFound)
  {
    for i := 0 to |candidates|
      invariant forall j :: 0 <= j < i ==> !present(candidates[j])
    {
      if present(candidates[i]) {
        FirstExistingIsFirst(candidates, present, i);
        return Success(candidates[i]);
      }
    }
    r := WhichFallback(which, notFound);
  }

  /** is_git_available / is_gpg_available: a found path is available when not empty. */
  function IsAvailable(found: Result<string, string>): Result<bool, string> {
    match found
    case Failure(e) => Failure(e)
    case Success(path) => Success(path != "")
  }

  /** With the source's candidate lists the availability probes never answer
      `false`: they answer `true` or fail. */
  lemma AvailabilityNeverFalse(present: string -> bool, which: Run)
    ensures IsAvailable(LocatePath(GIT_CANDIDATES, present, which, GIT_NOT_FOUND)) != Success(false)
    ensures IsAvailable(LocatePath(GPG_CANDIDATES, present, which, GPG_NOT_FOUND)) != Success(false)
  {
    assert forall c :: c in GIT_CANDIDATES ==> c != "";
    assert forall c :: c in GPG_CANDIDATES ==> c != "";
  }

  /** The two process-wide path caches (`GIT_PATH_CACHE`, `GPG_PATH_CACHE`). */
  class ToolPaths {
    var gitPath: Option<string>
    var gpgPath: Option<string>

    constructor ()
      ensures gitPath == None && gpgPath == None
    {
      gitPath, gpgPath := None, None;
    }

    /** get_gpg_cmd: the cached path if there is one, otherwise search and
        remember what was found. */
    method GetGpgCmd(present: string -> bool, which: Run) returns (r: Result<string, string>)
      modifies this`gpgPath
      ensures old(gpgPath).Some? ==> r == Success(old(gpgPath).value) && gpgPath == old(gpgPath)
      ensures old(gpgPath).None? ==> r == LocatePath(GPG_CANDIDATES, present, which, GPG_NOT_FOUND)
      ensures old(gpgPath).None? ==> gpgPath == if r.Success? then Some(r.value) else None
    {
      if gpgPath.Some? {
        return Success(gpgPath.value);
      }
      r := FindPath(GPG_CANDIDATES, present, which, GPG_NOT_FOUND);
      if r.Success? {
        gpgPath := Some(r.value);
      }
    }

    /** get_git_cmd, the same for git. */
    method GetGitCmd(present: string -> bool, which: Run) returns (r: Result<string, string>)
      modifies this`gitPath
      ensures old(gitPath).Some? ==> r == Success(old(gitPath).value) && gitPath == old(gitPath)
      ensures old(gitPath).None? ==> r == LocatePath(GIT_CANDIDATES, present, which, GIT_NOT_FOUND)
      ensures old(gitPath).None? ==> gitPath == if r.Success? then Some(r.value) else None
    {
      if gitPath.Some? {
        return Success(gitPath.value);
      }
      r := FindPath(GIT_CANDIDATES, present, which, GIT_NOT_FOUND);
      if r.Success? {
        gitPath := Some(r.value);
      }
    }

    /** clear_cache: both caches forget their path. */
    method ClearCache()
      modifies this
      ensures gitPath == None && gpgPath == None
    {
      gitPath := None;
      gpgPath := None;
    }
  }

  /** Once found, a path is returned again whatever the file system then
      looks like, until the cache is cleared. */
  method CachedUntilCleared(paths: ToolPaths, before: string -> bool, after: string -> bool, which: Run)
    returns (first: Result<string, string>, second: Result<string, string>, third: Result<string, string>)
    requires paths.gitPath == None
    modifies paths
    ensures first == LocatePath(GIT_CANDIDATES, before, which, GIT_NOT_FOUND)
    ensures first.Success? ==> second == first
    ensures first.Failure? ==> second == LocatePath(GIT_CANDIDATES, after, which, GIT_NOT_FOUND)
    ensures third == LocatePath(GIT_CANDIDATES, after, which, GIT_NOT_FOUND)
  {
    first := paths.GetGitCmd(before, which);
    second := paths.GetGitCmd(after, which);
    paths.ClearCache();
    third := paths.GetGitCmd(after, which);
  }
}

=== FILE: context.dfy ===
/** The application context (src/contexts/Context.tsx): the masked email,
    the security question, the repository flag, the list refresh counter and
    the availability of git and gpg, filled in once at start-up from five
    independent backend probes. */
module AppContext {
  import opened Wrappers
  import opened Text

  /** The mask of a local part and a domain: two characters (one for a
      short local part) and the last character of the local part are kept.
      An empty local part shows the JavaScript rendering of the missing first
      character, "undefined". */
  function MaskParts(local: string, domain: string): (r: string)
    ensures |local| == 0 ==> r == "undefined***@" + domain
    ensures 0 < |local| <= 3 ==> r == local[..1] + "***@" + domain
    ensures |local| > 3 ==> r == local[..2] + "***" + [local[|local| - 1]] + "@" + domain
    ensures Contains(r, "***")
    ensures |local| > 3 ==> |r| == |domain| + 7
    ensures |r| > |domain| && r[|r| - |domain| - 1..] == "@" + domain
  {
    var head := if |local| == 0 then "undefined" else if |local| <= 3 then local[..1] else local[..2];
    var tail := (if |local| <= 3 then "" else local[|local| - 1..]) + "@" + domain;
    var r := head + "***" + tail;
    assert r[|head|..][..3] == "***";
    ContainsAt(r, |head|, "***");
    r
  }

  /** maskEmail: text without an `@` is shown as it is; otherwise the local
      part is masked and the domain, the text between the first and the
      second `@`, is kept. */
  function MaskEmail(email: string): (r: string)
    ensures '@' !in email ==> r == email
    ensures '@' in email ==> Contains(r, "***")
    ensures '@' in email && email[0] != '@' ==> r[0] == email[0]
    ensures '@' in email && email[0] == '@' ==> "undefined" <= r
  {
    if '@' !in email then email
    else
      var parts := Split(email, '@');
      MaskParts(parts[0], parts[1])
  }

  /** In `local@domain...` the local part is the text before the first `@`
      and the domain the text up to the second `@` or the end. */
  lemma LocalAndDomain(local: string, domain: string, rest: string)
    requires '@' !in local && '@' !in domain
    requires rest == "" || rest[0] == '@'
    ensures var parts := Split(local + "@" + domain + rest, '@');
      |parts| >= 2 && parts[0] == local && parts[1] == domain
  {
    var after := domain + rest;
    assert local + "@" + domain + rest == local + ['@'] + after;
    SplitAtFirstSeparator(local, after, '@');
    if rest == "" {
      assert after == domain;
      SplitWithoutSeparator(domain, '@');
    } else {
      assert after == domain + ['@'] + rest[1..];
      SplitAtFirstSeparator(domain, rest[1..], '@');
    }
    assert Split(after, '@')[0] == domain;
  }

  /** The mask of `local@domain...` is the mask of its local part and the
      domain that ends at the second `@` or at the end of the text. */
  lemma MaskEmailShape(local: string, domain: string, rest: string)
    requires '@' !in local && '@' !in domain
    requires rest == "" || rest[0] == '@'
    ensures MaskEmail(local + "@" + domain + rest) == MaskParts(local, domain)
  {
    LocalAndDomain(local, domain, rest);
    assert (local + "@" + domain + rest)[|local|] == '@';
  }

  /** An email with an empty local part is shown with "undefined" in front. */
  lemma EmptyLocalShowsUndefined(domain: string)
    requires '@' !in domain
    ensures MaskEmail("@" + domain) == "undefined***@" + domain
  {
    MaskEmailShape("", domain, "");
    assert "" + "@" + domain + "" == "@" + domain;
  }

  /** The context provider's state. */
  class Session {
    var email: string
    var hasEmail: bool
    var question: string
    var hasQuestion: bool
    var hasRepository: bool
    var listTrigger: int
    var isGitAvailable: bool
    var isGpgAvailable: bool
    var isInitializing: bool

    constructor ()
      ensures email == "" && !hasEmail && question == "" && !hasQuestion && !hasRepository
      ensures listTrigger == 0 && !isGitAvailable && !isGpgAvailable && isInitializing
    {
      email, hasEmail, question, hasQuestion := "", false, "", false;
      hasRepository, listTrigger := false, 0;
      isGitAvailable, isGpgAvailable, isInitializing := false, false, true;
    }

    /** loadCtx: every probe is awaited to settlement; each fulfilled one
        sets its own fields and a rejected one leaves them as they were. */
    method LoadCtx(emailProbe: Result<string, string>, questionProbe: Result<string, string>,
                   gitProbe: Result<bool, string>, gpgProbe: Result<bool, string>,
                   repositoryProbe: Result<bool, string>)
      modifies this
      ensures emailProbe.Success? ==> email == MaskEmail(emailProbe.value) && hasEmail
      ensures emailProbe.Failure? ==> email == old(email) && hasEmail == old(hasEmail)
      ensures questionProbe.Success? ==> question == questionProbe.value && hasQuestion
      ensures questionProbe.Failure? ==> question == old(question) && hasQuestion == old(hasQuestion)
      ensures isGitAvailable == if gitProbe.Success? then gitProbe.value else old(isGitAvailable)
      ensures isGpgAvailable == if gpgProbe.Success? then gpgProbe.value else old(isGpgAvailable)
      ensures hasRepository == if repositoryProbe.Success? then repositoryProbe.value else old(hasRepository)
      ensures listTrigger == old(listTrigger) && !isInitializing
    {
      isInitializing := true;
      if emailProbe.Success? {
        email, hasEmail := MaskEmail(emailProbe.value), true;
      }
      if questionProbe.Success? {
        question, hasQuestion := questionProbe.value, true;
      }
      isGitAvailable := if gitProbe.Success? then gitProbe.value else isGitAvailable;
      isGpgAvailable := if gpgProbe.Success? then gpgProbe.value else isGpgAvailable;
      hasRepository := if repositoryProbe.Success? then repositoryProbe.value else hasRepository;
      isInitializing := false;
    }

    /** `setListTrigger(prev => prev + 1)`: asks the list to reload. */
    method BumpListTrigger()
      modifies this`listTrigger
      ensures listTrigger == old(listTrigger) + 1
    {
      listTrigger := listTrigger + 1;
    }
  }

  /** Start-up on a fresh session: a flag is true only when its own probe was
      fulfilled (with `true` for the availability probes); a rejected probe
      never blocks the others. */
  method StartUp(emailProbe: Result<string, string>, questionProbe: Result<string, string>,
                 gitProbe: Result<bool, string>, gpgProbe: Result<bool, string>,
                 repositoryProbe: Result<bool, string>)
    returns (s: Session)
    ensures s.hasEmail <==> emailProbe.Success?
    ensures emailProbe.Success? ==> s.email == MaskEmail(emailProbe.value)
    ensures s.hasQuestion <==> questionProbe.Success?
    ensures s.isGitAvailable <==> gitProbe == Success(true)
    ensures s.isGpgAvailable <==> gpgProbe == Success(true)
    ensures s.hasRepository <==> repositoryProbe == Success(true)
    ensures !s.isInitializing
  {
    s := new Session();
    s.LoadCtx(emailProbe, questionProbe, gitProbe, gpgProbe, repositoryProbe);
  }
}

=== FILE: decryption.dfy ===
/** The decrypted-secret dialog (src/components/Decryption.tsx): at most five
    lines of the content are shown; longer content is cut after the fifth
    line and marked with an ellipsis line. */
module Decryption {
  import opened Text

  const SHOWN_LINES := 5

  /** isContentTruncated: the content has more lines than are shown. */
  predicate IsContentTruncated(content: string) {
    |Split(content, '\n')| > SHOWN_LINES
  }

  /** displayContent. */
  function DisplayContent(content: string): (shown: string)
    ensures !IsContentTruncated(content) ==> shown == content
  {
    var lines := Split(content, '\n');
    if |lines| > SHOWN_LINES then Join(lines[..SHOWN_LINES], '\n') + "\n..." else content
  }

  /** Truncated content shows exactly six lines: its first five and "...". */
  lemma TruncatedLines(content: string)
    requires IsContentTruncated(content)
    ensures Split(DisplayContent(content), '\n') == Split(content, '\n')[..SHOWN_LINES] + ["..."]
    ensures |Split(DisplayContent(content), '\n')| == SHOWN_LINES + 1
  {
    var lines := Split(content, '\n');
    var shown := lines[..SHOWN_LINES] + ["..."];
    JoinAppend(lines[..SHOWN_LINES], ["..."], '\n');
    assert Join(shown, '\n') == DisplayContent(content);
    forall i | 0 <= i < |shown| ensures '\n' !in shown[i] {
      if i < SHOWN_LINES {
        assert shown[i] == lines[i];
      }
    }
    SplitJoin(shown, '\n');
  }

  /** What is shown of truncated content is a prefix of it, up to and with
      the fifth newline, followed by "...". */
  lemma TruncatedIsPrefix(content: string)
    requires IsContentTruncated(content)
    ensures var shown := DisplayContent(content);
      && |shown| >= 3 && |shown| - 3 <= |content|
      && shown[..|shown| - 3] == content[..|shown| - 3]
      && shown[|shown| - 3..] == "..."
  {
    var lines := Split(content, '\n');
    JoinSplit(content, '\n');
    JoinAppend(lines[..SHOWN_LINES], lines[SHOWN_LINES..], '\n');
    assert lines[..SHOWN_LINES] + lines[SHOWN_LINES..] == lines;
    var head := Join(lines[..SHOWN_LINES], '\n') + "\n";
    assert content == head + Join(lines[SHOWN_LINES..], '\n');
    assert DisplayContent(content) == head + "...";
  }
}

=== FILE: field_errors.dfy ===
/** The error map both forms build field by field: the verdicts of the
    first fields of a fixed order, as a generic reference definition. */
module FieldErrors {
  import opened Wrappers

  /** The errors `check` finds in the first `count` fields of `order`,
      collected one field after the other. */
  function Collect<F(==)>(order: seq<F>, check: F -> Option<string>, count: nat): map<F, string>
    requires count <= |order|
  {
    if count == 0 then map[]
    else
      var earlier := Collect(order, check, count - 1);
      var name := order[count - 1];
      var error := check(name);
      if error.Some? then earlier[name := error.value] else earlier
  }

  /** A field has an error exactly when it is among the first `count` and
      fails the check, and the error is the check's message. */
  lemma {:induction false} CollectMeaning<F>(order: seq<F>, check: F -> Option<string>, count: nat, f: F)
    requires count <= |order|
    ensures var errors := Collect(order, check, count);
      && (f in errors <==> f in order[..count] && check(f).Some?)
      && (f in errors ==> errors[f] == check(f).value)
  {
    if count > 0 {
      CollectMeaning(order, check, count - 1, f);
      assert order[..count] == order[..count - 1] + [order[count - 1]];
    }
  }
}

=== FILE: gateway.dfy ===
/** The backend commands the screens invoke, recorded with their arguments,
    and the way a rejected call's error becomes a notification text. */
module Gateway {
  import opened Wrappers

  datatype Invocation =
    | AddGitRepository(repo: string)
    | AddSecrets(app: string, desc: string, format: string, secrets: string, pushToCloud: string, answer: string)
    | VerifySecurityQuestion(answer: string)
    | DeleteSecrets(id: string)
    | DecryptSecrets(id: string, givenAnswer: Option<string>)
    | GetSecretsList(searchStr: string)
    | AddEmailAndQuestion(email: string, question: string, answer: string)

  /** `error || fallback`: an empty error text falls back to the screen's own message. */
  function ErrorText(error: string, fallback: string): (text: string)
    ensures error != "" ==> text == error
    ensures error == "" ==> text == fallback
    ensures fallback != "" ==> text != ""
  {
    if error == "" then fallback else error
  }
}

=== FILE: list_screen.dfy ===
/** The list of stored secrets (src/components/List.tsx): loading and
    searching the listing, and the gates in front of the two sensitive
    actions: decrypting asks the security question when one is set,
    deleting asks it or, without a question, a confirmation. */
module SecretList {
  import opened Wrappers
  import opened Text
  import opened Gateway
  import AppContext
  import Notifications
  import Challenge
  import VaultIndex
  import SecretForm

  type ListItem = VaultIndex.ListItem

  const DELETE_FAILED := "Failed to delete secrets"
  const DECRYPT_FAILED := "Failed to decrypt secrets"
  const SEARCH_OK := "Search secrets successfully"

  function DeletedText(id: string): string {
    "Delete secrets " + id + " successfully"
  }

  function DecryptTitle(id: string): string {
    "Decrypt Secrets " + id
  }

  /** The notice handleDelete shows for the backend's outcome `result`. */
  function DeleteNotice(id: string, result: Result<(), string>, freshId: string): Notifications.NotificationItem {
    if result.Success? then Notifications.NotificationItem(freshId, DeletedText(id), Some(Notifications.Success), None)
    else Notifications.NotificationItem(freshId, ErrorText(result.error, DELETE_FAILED), Some(Notifications.Error), None)
  }

  /** The notices handleDecrypt shows: none on success, the error otherwise. */
  function DecryptNotices(result: Result<string, string>, freshId: string): seq<Notifications.NotificationItem> {
    if result.Success? then []
    else [Notifications.NotificationItem(freshId, ErrorText(result.error, DECRYPT_FAILED), Some(Notifications.Error), None)]
  }

  /** The action the open challenge guards; the empty string of the source
      is `Unset`. */
  datatype Action = Unset | Decrypt | Delete

  predicate OtherId(id: string, item: ListItem) {
    item.id != id
  }

  function KeepOthers(id: string): ListItem -> bool {
    item => OtherId(id, item)
  }

  /** `listItems.filter((item) => item.id !== id)`. */
  function Remaining(items: seq<ListItem>, id: string): (r: seq<ListItem>)
    ensures forall x :: x in r <==> x in items && x.id != id
  {
    Filter(items, KeepOthers(id))
  }

  /** The backend calls a verified challenge starts: exactly one for a
      recorded action, the decryption with the answer, and none when no
      action is recorded. */
  function ActionCalls(action: Action, id: string, answer: string): (calls: seq<Invocation>)
    ensures |calls| == if action == Unset then 0 else 1
    ensures action == Decrypt ==> calls[0] == DecryptSecrets(id, Some(answer))
    ensures action == Delete ==> calls[0] == DeleteSecrets(id)
  {
    match action
    case Unset => []
    case Decrypt => [DecryptSecrets(id, Some(answer))]
    case Delete => [DeleteSecrets(id)]
  }

  class ListScreen {
    var listItems: seq<ListItem>
    var isLoading: bool
    var isDeleting: bool
    var isDecrypting: bool
    var isDecryptionOpen: bool
    var decryptionContent: string
    var decryptionTitle: string
    var isAuthOpen: bool
    var isConfirmationOpen: bool
    var id: string
    var action: Action
    var searchStr: string
    var isSearching: bool

    /** The screen as first rendered; the mount effect's load that follows
        is LoadListItems with the empty search. */
    constructor ()
      ensures listItems == [] && !isLoading && !isDeleting && !isDecrypting
      ensures !isDecryptionOpen && decryptionContent == "" && decryptionTitle == ""
      ensures !isAuthOpen && !isConfirmationOpen && id == "" && action == Unset
      ensures searchStr == "" && !isSearching
    {
      listItems, isLoading, isDeleting, isDecrypting := [], false, false, false;
      isDecryptionOpen, decryptionContent, decryptionTitle := false, "", "";
      isAuthOpen, isConfirmationOpen, id, action := false, false, "", Unset;
      searchStr, isSearching := "", false;
    }

    /** The Decrypt and Delete buttons are enabled: neither action is busy. */
    predicate ButtonsEnabled()
      reads this
    {
      !isDecrypting && !isDeleting
    }

    /** closeConfirmation: the dialog closes and deleting is no longer busy. */
    method CloseConfirmation()
      modifies this`isConfirmationOpen, this`isDeleting
      ensures !isConfirmationOpen && !isDeleting
    {
      isConfirmationOpen := false;
      isDeleting := false;
    }

    /** openConfirmation: the dialog opens for `itemId` with deleting busy. */
    method OpenConfirmation(itemId: string)
      modifies this`isConfirmationOpen, this`isDeleting, this`id
      ensures isConfirmationOpen && isDeleting && id == itemId && !ButtonsEnabled()
    {
      isConfirmationOpen := true;
      isDeleting := true;
      id := itemId;
    }

    /** handleDelete with the backend's outcome `result`: a success removes
        exactly the items with that id and says so; deleting is idle after
        either outcome. */
    method HandleDelete(itemId: string, result: Result<(), string>,
                        center: Notifications.NotificationCenter, freshId: string)
      returns (call: Invocation)
      modifies this`isConfirmationOpen, this`isDeleting, this`listItems, center
      ensures call == DeleteSecrets(itemId)
      ensures !isConfirmationOpen && !isDeleting
      ensures result.Success? ==>
        && listItems == Remaining(old(listItems), itemId)
        && center.notifications == old(center.notifications)
             + [Notifications.NotificationItem(freshId, DeletedText(itemId), Some(Notifications.Success), None)]
      ensures result.Failure? ==>
        && listItems == old(listItems)
        && center.notifications == old(center.notifications)
             + [Notifications.NotificationItem(freshId, ErrorText(result.error, DELETE_FAILED),
                                               Some(Notifications.Error), None)]
    {
      CloseConfirmation();
      isDeleting := true;
      call := DeleteSecrets(itemId);
      match result {
        case Success(_) =>
          listItems := Remaining(listItems, itemId);
          var _ := center.ShowSuccess(DeletedText(itemId), None, freshId);
        case Failure(e) =>
          var _ := center.ShowError(ErrorText(e, DELETE_FAILED), None, freshId);
      }
      isDeleting := false;
    }

    /** handleDecrypt with the backend's outcome `result`: a success opens
        the decryption dialog on the plain text; decrypting is idle after
        either outcome. */
    method HandleDecrypt(itemId: string, answer: Option<string>, result: Result<string, string>,
                         center: Notifications.NotificationCenter, freshId: string)
      returns (call: Invocation)
      modifies this`isDecrypting, this`decryptionTitle, this`decryptionContent, this`isDecryptionOpen, center
      ensures call == DecryptSecrets(itemId, answer)
      ensures !isDecrypting
      ensures result.Success? ==>
        && decryptionTitle == DecryptTitle(itemId) && decryptionContent == result.value && isDecryptionOpen
        && center.notifications == old(center.notifications)
      ensures result.Failure? ==>
        && decryptionTitle == old(decryptionTitle) && decryptionContent == old(decryptionContent)
        && isDecryptionOpen == old(isDecryptionOpen)
        && center.notifications == old(center.notifications)
             + [Notifications.NotificationItem(freshId, ErrorText(result.error, DECRYPT_FAILED),
                                               Some(Notifications.Error), None)]
    {
      isDecrypting := true;
      call := DecryptSecrets(itemId, answer);
      match result {
        case Success(msg) =>
          decryptionTitle := DecryptTitle(itemId);
          decryptionContent := msg;
          isDecryptionOpen := true;
        case Failure(e) =>
          var _ := center.ShowError(ErrorText(e, DECRYPT_FAILED), None, freshId);
      }
      isDecrypting := false;
    }

    /** loadListItems with the backend's outcome `result`: the listing
        replaces the items; a failure is reported, with the backend's own
        text, only for a non-empty search. */
    method LoadListItems(search: string, result: Result<seq<ListItem>, string>,
                         center: Notifications.NotificationCenter, freshId: string)
      returns (call: Invocation)
      modifies this`listItems, this`isLoading, center
      ensures call == GetSecretsList(search) && !isLoading
      ensures result.Success? ==> listItems == result.value && center.notifications == old(center.notifications)
      ensures result.Failure? ==> listItems == old(listItems)
      ensures result.Failure? && search != "" ==>
        center.notifications == old(center.notifications)
          + [Notifications.NotificationItem(freshId, result.error, Some(Notifications.Error), None)]
      ensures result.Failure? && search == "" ==> center.notifications == old(center.notifications)
    {
      isLoading := true;
      call := GetSecretsList(search);
      match result {
        case Success(data) =>
          listItems := data;
        case Failure(e) =>
          if search != "" {
            var _ := center.ShowError(e, None, freshId);
          }
      }
      isLoading := false;
    }

    /** The reload effect: a change of the context's list trigger above
        zero reloads the whole listing. */
    method OnListTrigger(listTrigger: int, result: Result<seq<ListItem>, string>,
                         center: Notifications.NotificationCenter, freshId: string)
      returns (calls: seq<Invocation>)
      modifies this`listItems, this`isLoading, center
      ensures listTrigger > 0 ==> calls == [GetSecretsList("")] && !isLoading && center.notifications == old(center.notifications)
      ensures listTrigger > 0 ==> listItems == (if result.Success? then result.value else old(listItems))
      ensures listTrigger <= 0 ==>
        && calls == [] && listItems == old(listItems) && isLoading == old(isLoading)
        && center.notifications == old(center.notifications)
    {
      calls := [];
      if listTrigger > 0 {
        var call := LoadListItems("", result, center, freshId);
        calls := [call];
      }
    }

    /** closeDecryption: the dialog closes and forgets the plain text. */
    method CloseDecryption()
      modifies this`isDecryptionOpen, this`decryptionContent, this`decryptionTitle
      ensures !isDecryptionOpen && decryptionContent == "" && decryptionTitle == ""
    {
      isDecryptionOpen := false;
      decryptionContent := "";
      decryptionTitle := "";
    }

    /** closeAuth: the challenge closes, the busy flag of the recorded
        action is cleared and the recorded id and action are forgotten. */
    method CloseAuth()
      modifies this`isAuthOpen, this`isDecrypting, this`isDeleting, this`id, this`action
      ensures !isAuthOpen && id == "" && action == Unset
      ensures isDecrypting == (old(isDecrypting) && old(action) != Decrypt)
      ensures isDeleting == (old(isDeleting) && old(action) != Delete)
    {
      isAuthOpen := false;
      if action == Decrypt {
        isDecrypting := false;
      }
      if action == Delete {
        isDeleting := false;
      }
      id := "";
      action := Unset;
    }

    /** openAuth: without an email and a question only an error is shown;
        otherwise the challenge opens, the action's busy flag is set and the
        id and action are recorded. */
    method OpenAuth(ctx: AppContext.Session, itemId: string, act: Action,
                    center: Notifications.NotificationCenter, freshId: string)
      modifies this`isAuthOpen, this`isDecrypting, this`isDeleting, this`id, this`action, center
      ensures !(ctx.hasEmail && ctx.hasQuestion) ==>
        && isAuthOpen == old(isAuthOpen) && isDecrypting == old(isDecrypting) && isDeleting == old(isDeleting)
        && id == old(id) && action == old(action)
        && center.notifications == old(center.notifications)
             + [Notifications.NotificationItem(freshId, SecretForm.NEED_SETUP, Some(Notifications.Error), None)]
      ensures ctx.hasEmail && ctx.hasQuestion ==>
        && isAuthOpen && id == itemId && action == act
        && isDecrypting == (old(isDecrypting) || act == Decrypt)
        && isDeleting == (old(isDeleting) || act == Delete)
        && center.notifications == old(center.notifications)
    {
      if !ctx.hasEmail || !ctx.hasQuestion {
        var _ := center.ShowError(SecretForm.NEED_SETUP, None, freshId);
        return;
      }
      isAuthOpen := true;
      if act == Decrypt {
        isDecrypting := true;
      }
      if act == Delete {
        isDeleting := true;
      }
      id := itemId;
      action := act;
    }

    /** verifyAuth with the verifier's outcome `verdict`: only `true` starts
        the recorded action, which runs to completion with the backend's
        outcome for it; a rejection propagates to the dialog. */
    method VerifyAuth(answer: string, verdict: Result<bool, string>,
                      deleteResult: Result<(), string>, decryptResult: Result<string, string>,
                      center: Notifications.NotificationCenter, freshId: string)
      returns (r: Result<bool, string>, calls: seq<Invocation>)
      modifies this`isConfirmationOpen, this`isDeleting, this`listItems, this`isDecrypting
      modifies this`decryptionTitle, this`decryptionContent, this`isDecryptionOpen, center
      ensures r == verdict
      ensures calls == [VerifySecurityQuestion(answer)]
        + (if verdict == Success(true) then ActionCalls(action, id, answer) else [])
      ensures id == old(id) && action == old(action)
      ensures verdict != Success(true) || action == Unset ==>
        && listItems == old(listItems) && isDeleting == old(isDeleting) && isDecrypting == old(isDecrypting)
        && isConfirmationOpen == old(isConfirmationOpen) && isDecryptionOpen == old(isDecryptionOpen)
        && decryptionTitle == old(decryptionTitle) && decryptionContent == old(decryptionContent)
        && center.notifications == old(center.notifications)
      ensures verdict == Success(true) && action == Delete ==>
        && !isDeleting && !isConfirmationOpen && isDecrypting == old(isDecrypting)
        && isDecryptionOpen == old(isDecryptionOpen)
        && decryptionTitle == old(decryptionTitle) && decryptionContent == old(decryptionContent)
        && listItems == (if deleteResult.Success? then Remaining(old(listItems), id) else old(listItems))
        && center.notifications == old(center.notifications) + [DeleteNotice(id, deleteResult, freshId)]
      ensures verdict == Success(true) && action == Decrypt ==>
        && !isDecrypting && isDeleting == old(isDeleting) && isConfirmationOpen == old(isConfirmationOpen)
        && listItems == old(listItems)
        && (decryptResult.Success? ==>
              isDecryptionOpen && decryptionTitle == DecryptTitle(id) && decryptionContent == decryptResult.value)
        && (decryptResult.Failure? ==>
              && isDecryptionOpen == old(isDecryptionOpen)
              && decryptionTitle == old(decryptionTitle) && decryptionContent == old(decryptionContent))
        && center.notifications == old(center.notifications) + DecryptNotices(decryptResult, freshId)
    {
      calls := [VerifySecurityQuestion(answer)];
      r := verdict;
      if verdict == Success(true) {
        if action == Decrypt {
          var call := HandleDecrypt(id, Some(answer), decryptResult, center, freshId);
          calls := calls + [call];
        }
        if action == Delete {
          var call := HandleDelete(id, deleteResult, center, freshId);
          calls := calls + [call];
        }
      }
    }

    /** The challenge dialog's submit with this list's verifyAuth and
        closeAuth: the backend sees the verification and then, only when it
        answered `true`, the one recorded action with the answer the dialog
        held; the list then closes the challenge with both gates idle. */
    method SubmitChallenge(auth: Challenge.AuthDialog, verdict: Result<bool, string>,
                           deleteResult: Result<(), string>, decryptResult: Result<string, string>,
                           center: Notifications.NotificationCenter, freshId: string)
      returns (calls: seq<Invocation>)
      modifies this`isAuthOpen, this`id, this`action, this`isConfirmationOpen, this`isDeleting, this`listItems
      modifies this`isDecrypting, this`decryptionTitle, this`decryptionContent, this`isDecryptionOpen, center
      modifies auth`answer, auth`error, auth`isVerifying
      ensures old(auth.error) != "" ==>
        && calls == [] && unchanged(this) && center.notifications == old(center.notifications)
        && auth.answer == old(auth.answer) && auth.error == old(auth.error)
      ensures old(auth.error) == "" ==>
        calls == [VerifySecurityQuestion(old(auth.answer))]
                 + (if verdict == Success(true) then ActionCalls(old(action), old(id), old(auth.answer)) else [])
      ensures old(auth.error) == "" && verdict == Success(true) ==>
        && !isAuthOpen && id == "" && action == Unset
        && auth.answer == old(auth.answer) && auth.error == ""
      ensures old(auth.error) == "" && verdict == Success(true) && old(action) == Delete ==>
        && !isDeleting && !isConfirmationOpen && isDecrypting == old(isDecrypting)
        && isDecryptionOpen == old(isDecryptionOpen)
        && decryptionTitle == old(decryptionTitle) && decryptionContent == old(decryptionContent)
        && listItems == (if deleteResult.Success? then Remaining(old(listItems), old(id)) else old(listItems))
        && center.notifications == old(center.notifications) + [DeleteNotice(old(id), deleteResult, freshId)]
      ensures old(auth.error) == "" && verdict == Success(true) && old(action) == Decrypt ==>
        && !isDecrypting && isDeleting == old(isDeleting) && isConfirmationOpen == old(isConfirmationOpen)
        && listItems == old(listItems)
        && (decryptResult.Success? ==>
              isDecryptionOpen && decryptionTitle == DecryptTitle(old(id)) && decryptionContent == decryptResult.value)
        && (decryptResult.Failure? ==>
              && isDecryptionOpen == old(isDecryptionOpen)
              && decryptionTitle == old(decryptionTitle) && decryptionContent == old(decryptionContent))
        && center.notifications == old(center.notifications) + DecryptNotices(decryptResult, freshId)
      ensures old(auth.error) == "" && verdict == Success(true) && old(action) == Unset ==>
        && listItems == old(listItems) && isDeleting == old(isDeleting) && isDecrypting == old(isDecrypting)
        && isConfirmationOpen == old(isConfirmationOpen) && isDecryptionOpen == old(isDecryptionOpen)
        && decryptionTitle == old(decryptionTitle) && decryptionContent == old(decryptionContent)
        && center.notifications == old(center.notifications)
      ensures old(auth.error) == "" && verdict != Success(true) ==>
        && isAuthOpen == old(isAuthOpen) && id == old(id) && action == old(action)
        && listItems == old(listItems) && isDeleting == old(isDeleting) && isDecrypting == old(isDecrypting)
        && isConfirmationOpen == old(isConfirmationOpen) && isDecryptionOpen == old(isDecryptionOpen)
        && decryptionTitle == old(decryptionTitle) && decryptionContent == old(decryptionContent)
        && center.notifications == old(center.notifications)
      ensures old(auth.error) == "" && verdict == Success(false) ==>
        auth.answer == "" && auth.error == Challenge.INVALID_ANSWER
      ensures old(auth.error) == "" && verdict.Failure? ==>
        auth.answer == old(auth.answer) && auth.error == Challenge.VERIFY_FAILED
      ensures !auth.isVerifying || old(auth.error) != ""
    {
      calls := [];
      var answer := auth.answer;
      var proceed := auth.BeginSubmit();
      if proceed {
        var r;
        r, calls := VerifyAuth(answer, verdict, deleteResult, decryptResult, center, freshId);
        var closeRequested := auth.FinishSubmit(r);
        if closeRequested {
          CloseAuth();
        }
      }
    }

    /** handleSearch with the backend's outcome `result`: without an email
        and a question only an error is shown; otherwise the current search
        is loaded, success is announced whatever the load did, and the
        search box is emptied. */
    method HandleSearch(ctx: AppContext.Session, result: Result<seq<ListItem>, string>,
                        center: Notifications.NotificationCenter, loadId: string, doneId: string)
      returns (calls: seq<Invocation>)
      modifies this`listItems, this`isLoading, this`searchStr, this`isSearching, center
      ensures !(ctx.hasEmail && ctx.hasQuestion) ==>
        && calls == [] && listItems == old(listItems) && searchStr == old(searchStr)
        && isSearching == old(isSearching)
        && center.notifications == old(center.notifications)
             + [Notifications.NotificationItem(loadId, SecretForm.NEED_SETUP, Some(Notifications.Error), None)]
      ensures ctx.hasEmail && ctx.hasQuestion ==>
        && calls == [GetSecretsList(old(searchStr))]
        && searchStr == "" && !isSearching && !isLoading
        && listItems == (if result.Success? then result.value else old(listItems))
        && center.notifications == old(center.notifications)
             + (if result.Failure? && old(searchStr) != ""
                then [Notifications.NotificationItem(loadId, result.error, Some(Notifications.Error), None)]
                else [])
             + [Notifications.NotificationItem(doneId, SEARCH_OK, Some(Notifications.Success), None)]
    {
      if !ctx.hasEmail || !ctx.hasQuestion {
        var _ := center.ShowError(SecretForm.NEED_SETUP, None, loadId);
        return [];
      }
      isSearching := true;
      var call := LoadListItems(searchStr, result, center, loadId);
      calls := [call];
      var _ := center.ShowSuccess(SEARCH_OK, None, doneId);
      searchStr := "";
      isSearching := false;
    }

    /** handleKeyPress, bound to the search icon (the text input has no key
        handler): Enter runs handleSearch, any other key does nothing. */
    method HandleKeyPress(key: Challenge.Key, ctx: AppContext.Session, result: Result<seq<ListItem>, string>,
                          center: Notifications.NotificationCenter, loadId: string, doneId: string)
      returns (calls: seq<Invocation>)
      modifies this`listItems, this`isLoading, this`searchStr, this`isSearching, center
      ensures key == Challenge.Enter && !(ctx.hasEmail && ctx.hasQuestion) ==>
        && calls == [] && listItems == old(listItems) && searchStr == old(searchStr)
        && isSearching == old(isSearching)
        && center.notifications == old(center.notifications)
             + [Notifications.NotificationItem(loadId, SecretForm.NEED_SETUP, Some(Notifications.Error), None)]
      ensures key == Challenge.Enter && ctx.hasEmail && ctx.hasQuestion ==>
        && calls == [GetSecretsList(old(searchStr))]
        && searchStr == "" && !isSearching && !isLoading
        && listItems == (if result.Success? then result.value else old(listItems))
        && center.notifications == old(center.notifications)
             + (if result.Failure? && old(searchStr) != ""
                then [Notifications.NotificationItem(loadId, result.error, Some(Notifications.Error), None)]
                else [])
             + [Notifications.NotificationItem(doneId, SEARCH_OK, Some(Notifications.Success), None)]
      ensures key != Challenge.Enter ==> calls == [] && unchanged(this) && center.notifications == old(center.notifications)
    {
      calls := [];
      if key == Challenge.Enter {
        calls := HandleSearch(ctx, result, center, loadId, doneId);
      }
    }

    /** The Decrypt button: with a question set it goes through openAuth,
        which opens the challenge or, without an email, only shows an error;
        without a question it decrypts at once with no answer. */
    method DecryptClicked(ctx: AppContext.Session, itemId: string, result: Result<string, string>,
                          center: Notifications.NotificationCenter, freshId: string)
      returns (calls: seq<Invocation>)
      modifies this`isAuthOpen, this`isDecrypting, this`isDeleting, this`id, this`action
      modifies this`decryptionTitle, this`decryptionContent, this`isDecryptionOpen, center
      ensures isDeleting == old(isDeleting)
      ensures ctx.hasQuestion ==>
        && calls == []
        && decryptionTitle == old(decryptionTitle) && decryptionContent == old(decryptionContent)
        && isDecryptionOpen == old(isDecryptionOpen)
      ensures ctx.hasQuestion && ctx.hasEmail ==>
        && isAuthOpen && action == Decrypt && id == itemId && isDecrypting
        && center.notifications == old(center.notifications)
      ensures ctx.hasQuestion && !ctx.hasEmail ==>
        && isAuthOpen == old(isAuthOpen) && action == old(action) && id == old(id) && isDecrypting == old(isDecrypting)
        && center.notifications == old(center.notifications)
             + [Notifications.NotificationItem(freshId, SecretForm.NEED_SETUP, Some(Notifications.Error), None)]
      ensures !ctx.hasQuestion ==>
        && calls == [DecryptSecrets(itemId, None)] && !isDecrypting
        && isAuthOpen == old(isAuthOpen) && action == old(action) && id == old(id)
      ensures !ctx.hasQuestion && result.Success? ==>
        && decryptionTitle == DecryptTitle(itemId) && decryptionContent == result.value && isDecryptionOpen
        && center.notifications == old(center.notifications)
      ensures !ctx.hasQuestion && result.Failure? ==>
        && decryptionTitle == old(decryptionTitle) && decryptionContent == old(decryptionContent)
        && isDecryptionOpen == old(isDecryptionOpen)
        && center.notifications == old(center.notifications)
             + [Notifications.NotificationItem(freshId, ErrorText(result.error, DECRYPT_FAILED),
                                               Some(Notifications.Error), None)]
    {
      calls := [];
      if ctx.hasQuestion {
        OpenAuth(ctx, itemId, Decrypt, center, freshId);
      } else {
        var call := HandleDecrypt(itemId, None, result, center, freshId);
        calls := [call];
      }
    }

    /** The Delete button: with a question set it goes through openAuth,
        which opens the challenge or, without an email, only shows an error;
        without a question it asks for confirmation; nothing is deleted yet. */
    method DeleteClicked(ctx: AppContext.Session, itemId: string,
                         center: Notifications.NotificationCenter, freshId: string)
      modifies this`isAuthOpen, this`isDecrypting, this`isDeleting, this`id, this`action
      modifies this`isConfirmationOpen, center
      ensures listItems == old(listItems) && isDecrypting == old(isDecrypting)
      ensures ctx.hasQuestion ==> isConfirmationOpen == old(isConfirmationOpen)
      ensures ctx.hasQuestion && ctx.hasEmail ==>
        && isAuthOpen && action == Delete && id == itemId && isDeleting
        && center.notifications == old(center.notifications)
      ensures ctx.hasQuestion && !ctx.hasEmail ==>
        && isAuthOpen == old(isAuthOpen) && action == old(action) && id == old(id) && isDeleting == old(isDeleting)
        && center.notifications == old(center.notifications)
             + [Notifications.NotificationItem(freshId, SecretForm.NEED_SETUP, Some(Notifications.Error), None)]
      ensures !ctx.hasQuestion ==>
        && isConfirmationOpen && isDeleting && id == itemId
        && isAuthOpen == old(isAuthOpen) && action == old(action)
        && center.notifications == old(center.notifications)
    {
      if ctx.hasQuestion {
        OpenAuth(ctx, itemId, Delete, center, freshId);
      } else {
        OpenConfirmation(itemId);
      }
    }

    /** The confirmation dialog's confirm: the recorded id is deleted. */
    method ConfirmDelete(result: Result<(), string>, center: Notifications.NotificationCenter, freshId: string)
      returns (call: Invocation)
      modifies this`isConfirmationOpen, this`isDeleting, this`listItems, center
      ensures call == DeleteSecrets(id) && !isConfirmationOpen && !isDeleting
      ensures listItems == (if result.Success? then Remaining(old(listItems), id) else old(listItems))
      ensures center.notifications == old(center.notifications) + [DeleteNotice(id, result, freshId)]
    {
      call := HandleDelete(id, result, center, freshId);
    }
  }

  /** Without a question, Delete only opens the confirmation; cancelling it
      leaves every item in place and both the dialog and the gate idle. */
  method CancelledDeleteKeepsItems(screen: ListScreen, ctx: AppContext.Session, itemId: string,
                                   center: Notifications.NotificationCenter, freshId: string)
    requires !ctx.hasQuestion
    modifies screen, center
    ensures screen.listItems == old(screen.listItems)
    ensures !screen.isConfirmationOpen && !screen.isDeleting && screen.id == itemId
    ensures center.notifications == old(center.notifications)
  {
    screen.DeleteClicked(ctx, itemId, center, freshId);
    screen.CloseConfirmation();
  }

  /** A wrong answer starts nothing: the challenge stays open on the same
      action, the dialog shows why, and only the verification reached the
      backend. */
  method WrongAnswerStartsNothing(screen: ListScreen, auth: Challenge.AuthDialog,
                                  deleteResult: Result<(), string>, decryptResult: Result<string, string>,
                                  center: Notifications.NotificationCenter, freshId: string)
    returns (calls: seq<Invocation>)
    requires auth.error == ""
    modifies screen, auth, center
    ensures calls == [VerifySecurityQuestion(old(auth.answer))]
    ensures screen.listItems == old(screen.listItems) && screen.action == old(screen.action)
    ensures auth.error == Challenge.INVALID_ANSWER && auth.answer == ""
  {
    calls := screen.SubmitChallenge(auth, Success(false), deleteResult, decryptResult, center, freshId);
  }

  // ---------------------------------------------------------------------
  // The optimistic removal and the backend's listing
  // ---------------------------------------------------------------------

  /** Every line parsed, in order. */
  function ParseAll(lines: seq<string>): (items: seq<ListItem>)
    requires forall line :: line in lines ==> VaultIndex.Listable(line)
    ensures |items| == |lines|
    ensures forall i :: 0 <= i < |lines| ==> items[i] == VaultIndex.ParseItem(lines[i])
  {
    if |lines| == 0 then [] else [VaultIndex.ParseItem(lines[0])] + ParseAll(lines[1..])
  }

  /** The unfiltered listing parses every line. */
  lemma ListingParsesAll(lines: seq<string>)
    requires forall line :: line in lines ==> VaultIndex.Listable(line)
    ensures VaultIndex.MatchingItems(lines, "") == ParseAll(lines)
  {
    VaultIndex.EmptySearchListsAll(lines);
  }

  /** A line whose id has three characters starts with that id. */
  lemma IdIsPrefix(line: string)
    requires VaultIndex.Listable(line) && |VaultIndex.ParseItem(line).id| == 3
    ensures |line| >= 3 && line[..3] == VaultIndex.ParseItem(line).id
  {
    var parts := Split(line, '.');
    JoinSplit(line, '.');
    assert line == parts[0] + ['.'] + Join(parts[1..], '.');
  }

  /** Reversal turns a concatenation around. */
  lemma ReverseAppend<T>(a: seq<T>, b: seq<T>)
    ensures Reverse(a + b) == Reverse(b) + Reverse(a)
  {
    var r, t := Reverse(a + b), Reverse(b) + Reverse(a);
    assert |r| == |t|;
    forall i | 0 <= i < |r| ensures r[i] == t[i] {
      if i < |b| {
        assert t[i] == Reverse(b)[i];
      } else {
        assert t[i] == Reverse(a)[i - |b|];
      }
    }
  }

  /** Filtering a reversed sequence is reversing the filtered one. */
  lemma {:induction false} FilterReverse<T(!new)>(s: seq<T>, keep: T -> bool)
    ensures Filter(Reverse(s), keep) == Reverse(Filter(s, keep))
  {
    if |s| > 0 {
      FilterReverse(s[1..], keep);
      var head := if keep(s[0]) then [s[0]] else [];
      FilterAppend(Reverse(s[1..]), [s[0]], keep);
      assert Filter([s[0]], keep) == head by {
        assert [s[0]][1..] == [];
      }
      ReverseAppend(head, Filter(s[1..], keep));
      assert Reverse(head) == head;
    }
  }

  /** Removing the items of an id from the parsed lines is parsing the
      lines delete_secrets keeps, when every id has three characters. */
  lemma {:induction false} RemainingParsed(lines: seq<string>, id: string)
    requires forall line :: line in lines ==> VaultIndex.Listable(line) && |VaultIndex.ParseItem(line).id| == 3
    ensures Filter(ParseAll(lines), KeepOthers(id)) == ParseAll(VaultIndex.Retained(lines, id))
  {
    if |lines| > 0 {
      var h, t := lines[0], lines[1..];
      RemainingParsed(t, id);
      IdIsPrefix(h);
      assert ParseAll(lines)[1..] == ParseAll(t);
      var kept := VaultIndex.Retained(lines, id);
      assert kept == (if VaultIndex.KeepLine(id, h) then [h] else []) + VaultIndex.Retained(t, id);
      if VaultIndex.KeepLine(id, h) {
        assert kept[0] == h && kept[1..] == VaultIndex.Retained(t, id);
      }
    }
  }

  /** The optimistic removal of handleDelete agrees with the backend: on a
      screen showing the unfiltered listing of an index whose ids have
      three characters, the items left after a successful delete are what
      get_secrets_list returns for the index delete_secrets leaves. */
  lemma OptimisticDeleteMatchesReload(lines: seq<string>, id: string)
    requires forall line :: line in lines ==> VaultIndex.Listable(line) && |VaultIndex.ParseItem(line).id| == 3
    ensures Remaining(Reverse(VaultIndex.MatchingItems(lines, "")), id)
      == Reverse(VaultIndex.MatchingItems(VaultIndex.Retained(lines, id), ""))
  {
    var kept := VaultIndex.Retained(lines, id);
    ListingParsesAll(lines);
    ListingParsesAll(kept);
    FilterReverse(ParseAll(lines), KeepOthers(id));
    RemainingParsed(lines, id);
  }
}

=== FILE: notifications.dfy ===
/** The notification queue (src/contexts/NotificationContext.tsx), its
    stacked layout (src/components/NotificationManager.tsx) and the
    auto-closing toast (src/components/Notification.tsx). Ids, which the
    source draws from the clock and a random number, are fresh parameters;
    time is an abstract millisecond counter that only moves forward. */
module Notifications {
  import Wrappers
  import opened Text

  datatype Kind = Success | Error | Info

  /** NotificationItem: `type` and `duration` are optional. */
  datatype NotificationItem = NotificationItem(id: string, message: string,
                                               kind: Wrappers.Option<Kind>,
                                               duration: Wrappers.Option<int>)

  predicate OtherThan(id: string, item: NotificationItem) {
    item.id != id
  }

  /** The test removeNotification filters with. */
  function KeepOthers(id: string): NotificationItem -> bool {
    item => OtherThan(id, item)
  }

  /** The queue after removing `id`: every item with that id goes, the
      others stay in order. */
  function Without(items: seq<NotificationItem>, id: string): (r: seq<NotificationItem>)
    ensures forall x :: x in r <==> x in items && x.id != id
  {
    Filter(items, KeepOthers(id))
  }

  /** Removing an id nobody has changes nothing. */
  lemma RemoveAbsent(items: seq<NotificationItem>, id: string)
    requires forall i :: 0 <= i < |items| ==> items[i].id != id
    ensures Without(items, id) == items
  {
    FilterKeepsAll(items, KeepOthers(id));
  }

  /** Removing twice is removing once. */
  lemma RemoveIdempotent(items: seq<NotificationItem>, id: string)
    ensures Without(Without(items, id), id) == Without(items, id)
  {
    FilterIdempotent(items, KeepOthers(id));
  }

  /** Removing a freshly added item restores the queue before the add. */
  lemma RemoveAfterAdd(items: seq<NotificationItem>, added: NotificationItem)
    requires forall i :: 0 <= i < |items| ==> items[i].id != added.id
    ensures Without(items + [added], added.id) == items
  {
    FilterAppend(items, [added], KeepOthers(added.id));
    RemoveAbsent(items, added.id);
  }

  predicate UniqueIds(items: seq<NotificationItem>) {
    forall i, j :: 0 <= i < |items| && 0 <= j < |items| && items[i].id == items[j].id ==> i == j
  }

  /** The notification context's state. */
  class NotificationCenter {
    var notifications: seq<NotificationItem>

    constructor ()
      ensures notifications == []
    {
      notifications := [];
    }

    /** addNotification: appends one item with the fresh id and returns that id. */
    method AddNotification(message: string, kind: Wrappers.Option<Kind>, duration: Wrappers.Option<int>,
                           freshId: string)
      returns (id: string)
      modifies this
      ensures id == freshId
      ensures notifications == old(notifications) + [NotificationItem(id, message, kind, duration)]
    {
      id := freshId;
      notifications := notifications + [NotificationItem(id, message, kind, duration)];
    }

    /** removeNotification. */
    method RemoveNotification(id: string)
      modifies this
      ensures notifications == Without(old(notifications), id)
    {
      notifications := Without(notifications, id);
    }

    method ShowSuccess(message: string, duration: Wrappers.Option<int>, freshId: string) returns (id: string)
      modifies this
      ensures id == freshId
      ensures notifications == old(notifications) + [NotificationItem(id, message, Wrappers.Some(Success), duration)]
    {
      id := AddNotification(message, Wrappers.Some(Success), duration, freshId);
    }

    method ShowError(message: string, duration: Wrappers.Option<int>, freshId: string) returns (id: string)
      modifies this
      ensures id == freshId
      ensures notifications == old(notifications) + [NotificationItem(id, message, Wrappers.Some(Error), duration)]
    {
      id := AddNotification(message, Wrappers.Some(Error), duration, freshId);
    }

    method ShowInfo(message: string, duration: Wrappers.Option<int>, freshId: string) returns (id: string)
      modifies this
      ensures id == freshId
      ensures notifications == old(notifications) + [NotificationItem(id, message, Wrappers.Some(Info), duration)]
    {
      id := AddNotification(message, Wrappers.Some(Info), duration, freshId);
    }
  }

  // ---------------------------------------------------------------------
  // Layout
  // ---------------------------------------------------------------------

  /** Where one toast is drawn, in pixels, and which item it shows. */
  datatype Placement = Placement(item: NotificationItem, top: int, right: int, zIndex: int, offsetX: int)

  /** The manager's map over the queue: one placement per item, in queue
      order, the first at 20 pixels from the top, on top of the stack and not
      shifted, each next one 70 pixels lower, one layer beneath and 3 pixels
      further shifted than the one before. */
  function Layout(items: seq<NotificationItem>): (r: seq<Placement>)
    ensures |r| == |items|
    ensures forall i :: 0 <= i < |r| ==> r[i].item == items[i] && r[i].right == 20
    ensures forall i, j :: 0 <= i < j < |r| ==>
      r[i].top + 70 <= r[j].top && r[i].zIndex > r[j].zIndex && r[i].offsetX < r[j].offsetX
    ensures |r| > 0 ==> r[0].top == 20 && r[0].zIndex == 9999 && r[0].offsetX == 0
    ensures forall i :: 0 < i < |r| ==>
      r[i].top == r[i - 1].top + 70 && r[i].zIndex == r[i - 1].zIndex - 1 && r[i].offsetX == r[i - 1].offsetX + 3
  {
    seq(|items|, i requires 0 <= i < |items| => Placement(items[i], 20 + 70 * i, 20, 9999 - i, 3 * i))
  }

  /** Removing the id of the item at position `i` removes that item and no
      other when no other item has that id. */
  lemma RemoveAt(items: seq<NotificationItem>, i: nat)
    requires i < |items|
    requires forall k :: 0 <= k < |items| && k != i ==> items[k].id != items[i].id
    ensures Without(items, items[i].id) == items[..i] + items[i + 1..]
  {
    var id := items[i].id;
    var before, after := items[..i], items[i + 1..];
    forall k | 0 <= k < |before| ensures before[k].id != id {
      assert before[k] == items[k];
    }
    forall k | 0 <= k < |after| ensures after[k].id != id {
      assert after[k] == items[i + 1 + k];
    }
    var keep := KeepOthers(id);
    RemoveAbsent(before, id);
    RemoveAbsent(after, id);
    assert Filter([items[i]], keep) == [] by {
      assert !keep(items[i]);
      assert [items[i]][1..] == [];
    }
    FilterAppend([items[i]], after, keep);
    assert Filter([items[i]] + after, keep) == after;
    Around(items, i);
    FilterAppend(before, [items[i]] + after, keep);
  }

  /** Closing the toast drawn at position `i` removes its own item only. */
  lemma CloseRemovesOnlyItsOwn(items: seq<NotificationItem>, i: nat)
    requires UniqueIds(items) && i < |items|
    ensures Without(items, Layout(items)[i].item.id) == items[..i] + items[i + 1..]
  {
    RemoveAt(items, i);
  }

  // ---------------------------------------------------------------------
  // One toast
  // ---------------------------------------------------------------------

  const DEFAULT_DURATION := 5000
  /** The exit animation that runs between the start of a close and onClose. */
  const EXIT_DELAY := 300

  /** The glyph shown for a kind; a missing kind takes the default, success. */
  function Icon(kind: Wrappers.Option<Kind>): string {
    match kind.UnwrapOr(Success)
    case Success => "\U{2705}"
    case Error => "\U{274C}"
    case Info => "\U{1F4E3}"
  }

  /** The three kinds have three different glyphs; no kind means success. */
  lemma IconsDistinct(a: Kind, b: Kind)
    ensures Icon(Wrappers.Some(a)) == Icon(Wrappers.Some(b)) <==> a == b
    ensures Icon(Wrappers.None) == Icon(Wrappers.Some(Success))
  {
  }

  /** A negative delay behaves as no delay. */
  function Delay(ms: int): nat {
    if ms < 0 then 0 else ms
  }

  /** What a scheduled timeout does when it fires: the auto-close timer
      starts a close, the exit timer calls onClose. */
  datatype Action = AutoClose | FinishClose
  datatype Timer = Timer(due: int, action: Action)

  /** The toast's state, with the timeouts it has scheduled and that have
      neither fired nor been cleared, by handle. */
  class Toast {
    const duration: int
    var now: int
    var isVisible: bool
    var isLeaving: bool
    var isHovered: bool
    var timerRef: Wrappers.Option<nat>
    var pending: map<nat, Timer>
    var nextHandle: nat
    /** How many times onClose has been called. */
    var closeCalls: nat
    /** When the toast began to leave. */
    ghost var leftAt: int

    /** At most one auto-close timer is pending and timerRef names it, and
        timerRef never names any other timer; none while hovered; onClose
        runs only after the exit delay. */
    ghost predicate Valid()
      reads this
    {
      && nextHandle > 0 && now >= leftAt
      && (forall h :: h in pending ==> 0 < h < nextHandle)
      && (forall h :: h in pending && pending[h].action == AutoClose ==> timerRef == Wrappers.Some(h))
      && (timerRef.Some? ==> timerRef.value < nextHandle)
      && (timerRef.Some? && timerRef.value in pending ==> pending[timerRef.value].action == AutoClose)
      && (isHovered ==> forall h :: h in pending ==> pending[h].action != AutoClose)
      && (forall h :: h in pending && pending[h].action == FinishClose ==> isLeaving && pending[h].due >= leftAt + EXIT_DELAY)
      && (closeCalls > 0 ==> isLeaving && now >= leftAt + EXIT_DELAY)
      && (!isLeaving ==> closeCalls == 0)
    }

    /** The auto-close timer, if one is pending. */
    ghost function AutoCloses(): set<nat>
      reads this
    {
      set h | h in pending && pending[h].action == AutoClose
    }

    /** Mounting: both effects run, so startTimer runs twice and the second
        replaces the first timer. */
    constructor (duration: Wrappers.Option<int>, now: int)
      ensures Valid()
      ensures this.duration == duration.UnwrapOr(DEFAULT_DURATION) && this.now == now
      ensures isVisible && !isLeaving && !isHovered && closeCalls == 0
      ensures timerRef.Some? && pending == map[timerRef.value := Timer(now + Delay(this.duration), AutoClose)]
    {
      this.duration := duration.UnwrapOr(DEFAULT_DURATION);
      this.now := now;
      isVisible, isLeaving, isHovered := false, false, false;
      timerRef, pending, nextHandle, closeCalls := Wrappers.None, map[], 1, 0;
      leftAt := now;
      new;
      isVisible := true;
      StartTimer();
      StartTimer();
    }

    /** startTimer: clear the pending auto-close timer, schedule a new one
        for the full duration and remember it. */
    method StartTimer()
      requires Valid() && !isHovered
      modifies this`timerRef, this`pending, this`nextHandle
      ensures Valid()
      ensures timerRef == Wrappers.Some(old(nextHandle)) && nextHandle == old(nextHandle) + 1
      ensures pending == (if old(timerRef).Some? then old(pending) - {old(timerRef).value} else old(pending))
                         [old(nextHandle) := Timer(now + Delay(duration), AutoClose)]
      ensures AutoCloses() == {old(nextHandle)}
    {
      if timerRef.Some? {
        pending := pending - {timerRef.value};
      }
      pending := pending[nextHandle := Timer(now + Delay(duration), AutoClose)];
      timerRef := Wrappers.Some(nextHandle);
      nextHandle := nextHandle + 1;
    }

    /** handleMouseEnter and the hover effect: the pending timer is cleared. */
    method MouseEnter()
      requires Valid()
      modifies this`isHovered, this`timerRef, this`pending
      ensures Valid() && isHovered
      ensures AutoCloses() == {}
      ensures !old(isHovered) ==> (timerRef == Wrappers.None &&
        pending == if old(timerRef).Some? then old(pending) - {old(timerRef).value} else old(pending))
      ensures old(isHovered) ==> timerRef == old(timerRef) && pending == old(pending)
    {
      if !isHovered {
        isHovered := true;
        if timerRef.Some? {
          pending := pending - {timerRef.value};
          timerRef := Wrappers.None;
        }
      }
    }

    /** handleMouseLeave and the hover effect: a fresh timer for the whole
        duration, not the time that was left. */
    method MouseLeave()
      requires Valid()
      modifies this`isHovered, this`timerRef, this`pending, this`nextHandle
      ensures Valid() && !isHovered
      ensures old(isHovered) ==> (timerRef == Wrappers.Some(old(nextHandle))
        && AutoCloses() == {old(nextHandle)}
        && pending[old(nextHandle)].due == now + Delay(duration))
      ensures old(isHovered) ==>
        && nextHandle == old(nextHandle) + 1
        && pending == (if old(timerRef).Some? then old(pending) - {old(timerRef).value} else old(pending))
                      [old(nextHandle) := Timer(now + Delay(duration), AutoClose)]
      ensures old(isHovered) ==>
        forall h :: h in old(pending) && old(pending)[h].action != AutoClose ==> h in pending && pending[h] == old(pending)[h]
      ensures !old(isHovered) ==> timerRef == old(timerRef) && pending == old(pending) && nextHandle == old(nextHandle)
    {
      if isHovered {
        isHovered := false;
        StartTimer();
      }
    }

    /** handleClose: the exit animation starts now and onClose is scheduled
        after it. */
    method HandleClose()
      requires Valid()
      modifies this`isLeaving, this`pending, this`nextHandle, this`leftAt
      ensures Valid() && isLeaving && closeCalls == old(closeCalls)
      ensures pending == old(pending)[old(nextHandle) := Timer(now + EXIT_DELAY, FinishClose)]
      ensures nextHandle == old(nextHandle) + 1
    {
      if !isLeaving {
        leftAt := now;
      }
      isLeaving := true;
      pending := pending[nextHandle := Timer(now + EXIT_DELAY, FinishClose)];
      nextHandle := nextHandle + 1;
    }

    /** Time passes. */
    method Advance(ms: nat)
      requires Valid()
      modifies this`now
      ensures Valid() && now == old(now) + ms
    {
      now := now + ms;
    }

    /** A pending timeout whose time has come fires. */
    method Fire(h: nat)
      requires Valid() && h in pending && pending[h].due <= now
      modifies this`pending, this`isLeaving, this`nextHandle, this`leftAt, this`closeCalls
      ensures Valid() && h !in pending
      ensures old(pending[h]).action == FinishClose ==> closeCalls == old(closeCalls) + 1 && pending == old(pending) - {h}
      ensures old(pending[h]).action == AutoClose ==> (closeCalls == old(closeCalls) && isLeaving
        && pending == (old(pending) - {h})[old(nextHandle) := Timer(now + EXIT_DELAY, FinishClose)])
    {
      var action := pending[h].action;
      pending := pending - {h};
      if action == AutoClose {
        HandleClose();
      } else {
        closeCalls := closeCalls + 1;
      }
    }

    /** The mount effect's clean-up: the pending auto-close timer is cleared;
        an exit timer still runs. */
    method Unmount()
      requires Valid()
      modifies this`pending
      ensures Valid() && AutoCloses() == {}
      ensures pending == if timerRef.Some? then old(pending) - {timerRef.value} else old(pending)
    {
      if timerRef.Some? {
        pending := pending - {timerRef.value};
      }
    }
  }

  /** A toast left alone closes itself: after its duration the auto-close
      fires, and after the exit delay onClose is called once. */
  method LeftAlone(duration: Wrappers.Option<int>, start: int) returns (toast: Toast)
    ensures toast.closeCalls == 1 && toast.isLeaving
    ensures toast.now == start + Delay(duration.UnwrapOr(DEFAULT_DURATION)) + EXIT_DELAY
  {
    toast := new Toast(duration, start);
    var auto, exit := toast.timerRef.value, toast.nextHandle;
    toast.Advance(Delay(toast.duration));
    toast.Fire(auto);
    toast.Advance(EXIT_DELAY);
    toast.Fire(exit);
  }
}

=== FILE: panel.dfy ===
/** The registration panel (src/components/Panel.tsx): the GPG email, the
    secret question, its answer and the confirmation, validated
    progressively in a fixed order; a confirmation dialog before the one
    registration the backend accepts. */
module RegistrationPanel {
  import opened Wrappers
  import opened Text
  import opened Patterns
  import opened Gateway
  import AppContext
  import Notifications
  import FieldErrors

  // ---------------------------------------------------------------------
  // maskQuestion
  // ---------------------------------------------------------------------

  /** maskQuestion: a question of up to eight characters is shown as it is,
      a longer one by its first eight characters and an ellipsis. */
  function MaskQuestion(question: string): (r: string)
    ensures |question| <= 8 ==> r == question
    ensures |question| > 8 ==> |r| == 11 && r[..8] == question[..8] && r[8..] == "..."
  {
    if question == "" then question
    else if |question| <= 8 then question
    else question[..8] + "..."
  }

  /** Masking a masked question changes nothing. */
  lemma MaskQuestionIdempotent(question: string)
    ensures MaskQuestion(MaskQuestion(question)) == MaskQuestion(question)
  {
  }

  /** The mask never shows more than eleven characters and always shows the
      question's first eight (all of it when shorter). */
  lemma MaskQuestionShowsPrefix(question: string)
    ensures var r := MaskQuestion(question);
      |r| <= 11 && (|question| <= 8 ==> r == question) && (|question| > 8 ==> StartsWith(r, question[..8]))
  {
  }

  // ---------------------------------------------------------------------
  // Fields and panel data
  // ---------------------------------------------------------------------

  datatype PanelField = Email | Question | Answer | ConfirmAnswer

  /** fieldOrder. */
  const FIELD_ORDER: seq<PanelField> := [Email, Question, Answer, ConfirmAnswer]

  /** `fieldOrder.indexOf(f)`. */
  function Position(f: PanelField): (i: nat)
    ensures i < |FIELD_ORDER| && FIELD_ORDER[i] == f
  {
    match f
    case Email => 0
    case Question => 1
    case Answer => 2
    case ConfirmAnswer => 3
  }

  datatype PanelData = PanelData(email: string, question: string, answer: string, confirmAnswer: string)

  const EMPTY_DATA := PanelData("", "", "", "")

  function Get(d: PanelData, f: PanelField): string {
    match f
    case Email => d.email
    case Question => d.question
    case Answer => d.answer
    case ConfirmAnswer => d.confirmAnswer
  }

  /** `{ ...d, [f]: value }`: one field replaced, the others kept. */
  function With(d: PanelData, f: PanelField, value: string): (r: PanelData)
    ensures Get(r, f) == value
    ensures forall g :: g != f ==> Get(r, g) == Get(d, g)
  {
    match f
    case Email => d.(email := value)
    case Question => d.(question := value)
    case Answer => d.(answer := value)
    case ConfirmAnswer => d.(confirmAnswer := value)
  }

  // ---------------------------------------------------------------------
  // validateField
  // ---------------------------------------------------------------------

  const EMAIL_INVALID := "Please enter a valid email address"
  const QUESTION_SHORT := "Question requires at least 6 characters"
  const ANSWER_SHORT := "Answer requires at least 6 characters"
  const CONFIRM_MISMATCH := "Confirm answer does not match"
  const REGISTER_FAILED := "Failed to add email and question"

  /** validateField on the trimmed value. The confirmation is compared with
      `storedAnswer`, the answer the component holds, which is not trimmed;
      what each rule accepts is stated by ValidationRules. */
  function ValidateField(f: PanelField, value: string, storedAnswer: string): (r: Option<string>)
    ensures r.Some? ==> r.value != ""
  {
    var v := Trim(value);
    match f
    case Email => if IsEmail(v) then None else Some(EMAIL_INVALID)
    case Question => if |v| >= 6 then None else Some(QUESTION_SHORT)
    case Answer => if |v| >= 6 then None else Some(ANSWER_SHORT)
    case ConfirmAnswer => if v == storedAnswer then None else Some(CONFIRM_MISMATCH)
  }

  /** What validateField accepts, field by field: an email address, a
      question and an answer of at least six characters once trimmed, and a
      confirmation whose trim is the stored answer. */
  lemma ValidationRules(f: PanelField, value: string, storedAnswer: string)
    ensures var r := ValidateField(f, value, storedAnswer);
      && (f == Email ==> (r.None? <==> IsEmail(Trim(value))))
      && (f == Question ==> (r.None? <==> |Trim(value)| >= 6))
      && (f == Answer ==> (r.None? <==> |Trim(value)| >= 6))
      && (f == ConfirmAnswer ==> (r.None? <==> Trim(value) == storedAnswer))
  {
  }

  /** A character that is not white space survives the trim. */
  lemma TrimKeepsNonSpace(s: string, c: char)
    requires c in s && !IsSpace(c)
    ensures c in Trim(s)
  {
    var t := TrimStart(s);
    TrimStartShape(s);
    var k :| 0 <= k < |s| && s[k] == c;
    assert t[k - (|s| - |t|)] == c;
    TrimEndShape(t);
    var r := TrimEnd(t);
    assert r[k - (|s| - |t|)] == c;
  }

  /** A domain has no `*`. */
  lemma DomainHasNoStar(s: string)
    requires IsDomain(s)
    ensures '*' !in s
  {
    var dot :| 0 < dot < |s| - 2 && s[dot] == '.' && AllOf(s[..dot], IsHostChar) && AllOf(s[dot + 1..], IsLetter);
    Excludes(s[..dot], IsHostChar, '*');
    Excludes(s[dot + 1..], IsLetter, '*');
    assert s == s[..dot] + [s[dot]] + s[dot + 1..];
  }

  /** An email address has no `*`: neither its local part nor its domain
      admits one. */
  lemma EmailHasNoStar(s: string)
    requires IsEmail(s)
    ensures '*' !in s
  {
    var at :| 0 < at < |s| && s[at] == '@' && AllOf(s[..at], IsWordChar) && IsDomain(s[at + 1..]);
    Excludes(s[..at], IsWordChar, '*');
    DomainHasNoStar(s[at + 1..]);
    AbsentAround(s, at, '*');
  }

  /** A character absent on both sides of a position other than it is absent. */
  lemma AbsentAround(s: string, at: nat, c: char)
    requires at < |s| && s[at] != c && c !in s[..at] && c !in s[at + 1..]
    ensures c !in s
  {
    assert s == s[..at] + [s[at]] + s[at + 1..];
  }

  /** What maskEmail shows never passes the email rule: a masked address
      holds `***`, and text without an `@` is shown unchanged and has none. */
  lemma MaskedEmailNeverValid(email: string, storedAnswer: string)
    ensures ValidateField(Email, AppContext.MaskEmail(email), storedAnswer) == Some(EMAIL_INVALID)
  {
    var shown := AppContext.MaskEmail(email);
    if '@' in email {
      var i :| 0 <= i <= |shown| && StartsWith(shown[i..], "***");
      assert shown[i] == '*';
      TrimKeepsNonSpace(shown, '*');
      if IsEmail(Trim(shown)) {
        EmailHasNoStar(Trim(shown));
      }
    } else {
      TrimKeepsOut(shown, '@');
    }
  }

  /** An answer with white space at either end can never be confirmed: the
      confirmation is trimmed, the stored answer is not. */
  lemma PaddedAnswerNeverConfirmed(answer: string, confirmation: string)
    requires |answer| > 0 && (IsSpace(answer[0]) || IsSpace(answer[|answer| - 1]))
    ensures ValidateField(ConfirmAnswer, confirmation, answer) == Some(CONFIRM_MISMATCH)
  {
    TrimEdges(confirmation);
  }

  /** The masked question shown after a registration still passes the
      question rule when the registered question did. */
  lemma MaskedQuestionStaysValid(question: string, storedAnswer: string)
    requires ValidateField(Question, question, storedAnswer).None?
    ensures ValidateField(Question, MaskQuestion(Trim(question)), storedAnswer).None?
  {
    var q := Trim(question);
    TrimEdges(question);
    var shown := MaskQuestion(q);
    if |q| > 8 {
      assert shown[0] == q[0] && shown[|shown| - 1] == '.';
    }
    TrimUntouched(shown);
  }

  /** The errors of the first `count` fields in field order, collected one
      field after the other. */
  function Verdicts(d: PanelData, count: nat, storedAnswer: string): map<PanelField, string>
    requires count <= |FIELD_ORDER|
  {
    if count == 0 then map[]
    else
      var earlier := Verdicts(d, count - 1, storedAnswer);
      var name := FIELD_ORDER[count - 1];
      var error := ValidateField(name, Get(d, name), storedAnswer);
      if error.Some? then earlier[name := error.value] else earlier
  }

  /** The validation of every field of `d`. */
  function Check(d: PanelData, storedAnswer: string): PanelField -> Option<string> {
    f => ValidateField(f, Get(d, f), storedAnswer)
  }

  /** The panel's verdicts are the generic collection of its checks. */
  lemma {:induction false} VerdictsCollect(d: PanelData, count: nat, storedAnswer: string)
    requires count <= |FIELD_ORDER|
    ensures Verdicts(d, count, storedAnswer) == FieldErrors.Collect(FIELD_ORDER, Check(d, storedAnswer), count)
  {
    if count > 0 {
      VerdictsCollect(d, count - 1, storedAnswer);
      var name := FIELD_ORDER[count - 1];
      assert Check(d, storedAnswer)(name) == ValidateField(name, Get(d, name), storedAnswer);
    }
  }

  /** A field is among the first `count` exactly when its position is below `count`. */
  lemma AmongFirst(f: PanelField, count: nat)
    requires count <= |FIELD_ORDER|
    ensures f in FIELD_ORDER[..count] <==> Position(f) < count
  {
    if f in FIELD_ORDER[..count] {
      var j :| 0 <= j < count && FIELD_ORDER[..count][j] == f;
      assert FIELD_ORDER[j] == f;
    }
    if Position(f) < count {
      assert FIELD_ORDER[..count][Position(f)] == f;
    }
  }

  /** A field has an error among the first `count` exactly when it is one
      of them and its value fails validation, and the error is that
      validation's message. */
  lemma VerdictsMeaning(d: PanelData, count: nat, storedAnswer: string, f: PanelField)
    requires count <= |FIELD_ORDER|
    ensures var errors := Verdicts(d, count, storedAnswer);
      && (f in errors <==> Position(f) < count && ValidateField(f, Get(d, f), storedAnswer).Some?)
      && (f in errors ==> errors[f] == ValidateField(f, Get(d, f), storedAnswer).value)
  {
    VerdictsCollect(d, count, storedAnswer);
    FieldErrors.CollectMeaning(FIELD_ORDER, Check(d, storedAnswer), count, f);
    AmongFirst(f, count);
    assert Check(d, storedAnswer)(f) == ValidateField(f, Get(d, f), storedAnswer);
  }

  /** The non-empty errors of the fields at positions `k + 1` up to `i`,
      kept one field after the other. */
  function Kept(errors: map<PanelField, string>, k: nat, i: nat): map<PanelField, string>
    requires i <= |FIELD_ORDER|
  {
    if i <= k + 1 then map[]
    else
      var earlier := Kept(errors, k, i - 1);
      var name := FIELD_ORDER[i - 1];
      if name in errors && errors[name] != "" then earlier[name := errors[name]] else earlier
  }

  /** A later field keeps exactly its own non-empty error. */
  lemma {:induction false} KeptMeaning(errors: map<PanelField, string>, k: nat, i: nat, f: PanelField)
    requires i <= |FIELD_ORDER|
    ensures var kept := Kept(errors, k, i);
      && (f in kept <==> k < Position(f) < i && f in errors && errors[f] != "")
      && (f in kept ==> kept[f] == errors[f])
  {
    if i > k + 1 {
      KeptMeaning(errors, k, i - 1, f);
      assert Position(FIELD_ORDER[i - 1]) == i - 1;
    }
  }

  // ---------------------------------------------------------------------
  // Input changes
  // ---------------------------------------------------------------------

  /** The change event of an input: its name and its new value. */
  datatype Edit = Edit(field: PanelField, value: string)

  /** The fields an edit empties besides the edited one: emptying the
      question empties both answers, emptying the answer its confirmation. */
  predicate Clears(edit: Edit, g: PanelField) {
    && edit.value == ""
    && ((edit.field == Question && (g == Answer || g == ConfirmAnswer))
        || (edit.field == Answer && g == ConfirmAnswer))
  }

  /** The updated panel data of handleInputChange. */
  function Updated(d: PanelData, edit: Edit): (r: PanelData)
    ensures Get(r, edit.field) == edit.value
    ensures forall g :: g != edit.field && Clears(edit, g) ==> Get(r, g) == ""
    ensures forall g :: g != edit.field && !Clears(edit, g) ==> Get(r, g) == Get(d, g)
  {
    var d1 := With(d, edit.field, edit.value);
    var d2 := if edit.field == Question && edit.value == "" then d1.(answer := "", confirmAnswer := "") else d1;
    if edit.field == Answer && edit.value == "" then d2.(confirmAnswer := "") else d2
  }

  /** Merging fresh verdicts with the kept later errors never shows an empty message. */
  lemma MergedHasNoEmptyMessage(d: PanelData, k: nat, storedAnswer: string, errors: map<PanelField, string>)
    requires k < |FIELD_ORDER|
    requires forall f :: f in errors ==> errors[f] != ""
    ensures var merged := Verdicts(d, k + 1, storedAnswer) + Kept(errors, k, |FIELD_ORDER|);
      forall f :: f in merged ==> merged[f] != ""
  {
    var merged := Verdicts(d, k + 1, storedAnswer) + Kept(errors, k, |FIELD_ORDER|);
    forall f | f in merged
      ensures merged[f] != ""
    {
      KeptMeaning(errors, k, |FIELD_ORDER|, f);
      VerdictsMeaning(d, k + 1, storedAnswer, f);
    }
  }

  /** No edit of another field changes the email. */
  lemma EmailOnlyByItsOwnEdit(d: PanelData, edit: Edit)
    requires edit.field != Email
    ensures Updated(d, edit).email == d.email
  {
  }

  // ---------------------------------------------------------------------
  // The panel
  // ---------------------------------------------------------------------

  class PanelScreen {
    var panelData: PanelData
    var errors: map<PanelField, string>
    var isSubmitting: bool
    var isConfirmationOpen: bool

    /** Every error shown has a message. */
    ghost predicate Valid()
      reads this
    {
      forall f :: f in errors ==> errors[f] != ""
    }

    /** The panel as it mounts: the context's email and masked question,
        no answers, no errors. */
    constructor (contextEmail: string, contextQuestion: string)
      ensures Valid()
      ensures panelData == PanelData(contextEmail, MaskQuestion(contextQuestion), "", "")
      ensures errors == map[] && !isSubmitting && !isConfirmationOpen
    {
      panelData := PanelData(contextEmail, MaskQuestion(contextQuestion), "", "");
      errors := map[];
      isSubmitting := false;
      isConfirmationOpen := false;
    }

    /** validateFieldsUpToCurrent: the fields up to and with `current`, in
        field order, the confirmation compared with the answer the panel
        currently holds. */
    method ValidateFieldsUpToCurrent(data: PanelData, current: PanelField)
      returns (newErrors: map<PanelField, string>)
      ensures newErrors == Verdicts(data, Position(current) + 1, panelData.answer)
    {
      newErrors := map[];
      var currentFieldIndex := Position(current);
      for i := 0 to currentFieldIndex + 1
        invariant newErrors == Verdicts(data, i, panelData.answer)
      {
        var fieldName := FIELD_ORDER[i];
        var error := ValidateField(fieldName, Get(data, fieldName), panelData.answer);
        if error.Some? {
          newErrors := newErrors[fieldName := error.value];
        }
      }
    }

    /** validateAllFields: every field of the data, in the order of its keys. */
    method ValidateAllFields(data: PanelData) returns (newErrors: map<PanelField, string>)
      ensures newErrors == Verdicts(data, |FIELD_ORDER|, panelData.answer)
    {
      newErrors := map[];
      for i := 0 to |FIELD_ORDER|
        invariant newErrors == Verdicts(data, i, panelData.answer)
      {
        var fieldName := FIELD_ORDER[i];
        var error := ValidateField(fieldName, Get(data, fieldName), panelData.answer);
        if error.Some? {
          newErrors := newErrors[fieldName := error.value];
        }
      }
    }

    /** hasErrors: some field shows a non-empty message. */
    predicate HasErrors()
      reads this
    {
      exists f :: f in errors && errors[f] != ""
    }

    /** The Submit button is disabled. */
    predicate SubmitDisabled()
      reads this
    {
      HasErrors() || isSubmitting
    }

    /** handleInputChange: the edited data (with the cascade of emptied
        answers) replaces the old; the fields up to the edited one are
        validated again, the confirmation against the answer held before
        the change, and the non-empty errors of later fields are kept. */
    method HandleInputChange(edit: Edit)
      requires Valid()
      modifies this`panelData, this`errors
      ensures Valid()
      ensures panelData == Updated(old(panelData), edit)
      ensures errors == Verdicts(panelData, Position(edit.field) + 1, old(panelData).answer)
        + Kept(old(errors), Position(edit.field), |FIELD_ORDER|)
    {
      var fieldName := edit.field;
      var updatePanelData := Updated(panelData, edit);
      var progressiveErrors := ValidateFieldsUpToCurrent(updatePanelData, fieldName);
      ghost var storedAnswer := panelData.answer;
      panelData := updatePanelData;
      var currentFieldIndex := Position(fieldName);
      var preservedErrors: map<PanelField, string> := map[];
      for i := currentFieldIndex + 1 to |FIELD_ORDER|
        invariant preservedErrors == Kept(errors, currentFieldIndex, i)
      {
        var laterField := FIELD_ORDER[i];
        if laterField in errors && errors[laterField] != "" {
          preservedErrors := preservedErrors[laterField := errors[laterField]];
        }
      }
      MergedHasNoEmptyMessage(updatePanelData, currentFieldIndex, storedAnswer, errors);
      errors := progressiveErrors + preservedErrors;
    }

    /** validatePanelData: every field is validated and the result shown;
        true when nothing failed. */
    method ValidatePanelData() returns (ok: bool)
      modifies this`errors
      ensures Valid()
      ensures errors == Verdicts(panelData, |FIELD_ORDER|, panelData.answer)
      ensures ok <==> errors == map[]
      ensures ok <==> forall f :: ValidateField(f, Get(panelData, f), panelData.answer).None?
    {
      var newErrors := ValidateAllFields(panelData);
      errors := newErrors;
      ok := |newErrors| == 0;
      assert ok <==> newErrors == map[];
      forall f ensures (f in newErrors <==> ValidateField(f, Get(panelData, f), panelData.answer).Some?)
        && (f in newErrors ==> newErrors[f] != "")
      {
        VerdictsMeaning(panelData, |FIELD_ORDER|, panelData.answer, f);
      }
    }

    /** closeConfirmation: the dialog closes, the panel is idle and all
        four fields are emptied. */
    method CloseConfirmation()
      modifies this`isConfirmationOpen, this`isSubmitting, this`panelData
      ensures !isConfirmationOpen && !isSubmitting && panelData == EMPTY_DATA
    {
      isConfirmationOpen := false;
      isSubmitting := false;
      panelData := EMPTY_DATA;
    }

    /** openConfirmation, the form's submit handler: every field is
        validated, and the dialog opens, with the panel busy, only when none
        failed. */
    method OpenConfirmation()
      modifies this`errors, this`isConfirmationOpen, this`isSubmitting
      ensures Valid()
      ensures errors == Verdicts(panelData, |FIELD_ORDER|, panelData.answer)
      ensures errors == map[] ==> isConfirmationOpen && isSubmitting
      ensures errors != map[] ==> isConfirmationOpen == old(isConfirmationOpen) && isSubmitting == old(isSubmitting)
    {
      var ok := ValidatePanelData();
      if !ok {
        return;
      }
      isConfirmationOpen := true;
      isSubmitting := true;
    }

    /** handleSubmit, the dialog's confirm: the three values are captured
        and the dialog closed (which empties the fields); the trimmed values
        go to the backend, whose outcome is `result`. A success shows the
        masked email and question and records both in the context; a
        rejection is reported and leaves the fields empty. */
    method HandleSubmit(ctx: AppContext.Session, center: Notifications.NotificationCenter,
                        result: Result<(), string>, freshId: string)
      returns (call: Invocation)
      modifies this`isConfirmationOpen, this`isSubmitting, this`panelData
      modifies ctx`hasEmail, ctx`hasQuestion, ctx`question, center
      ensures call == AddEmailAndQuestion(Trim(old(panelData).email), Trim(old(panelData).question),
                                          Trim(old(panelData).answer))
      ensures !isConfirmationOpen && !isSubmitting && errors == old(errors)
      ensures result.Success? ==>
        && panelData == PanelData(AppContext.MaskEmail(Trim(old(panelData).email)),
                                  MaskQuestion(Trim(old(panelData).question)), "", "")
        && ctx.hasEmail && ctx.hasQuestion && ctx.question == Trim(old(panelData).question)
        && center.notifications == old(center.notifications)
      ensures result.Failure? ==>
        && panelData == EMPTY_DATA
        && ctx.hasEmail == old(ctx.hasEmail) && ctx.hasQuestion == old(ctx.hasQuestion)
        && ctx.question == old(ctx.question)
        && center.notifications == old(center.notifications)
             + [Notifications.NotificationItem(freshId, ErrorText(result.error, REGISTER_FAILED),
                                               Some(Notifications.Error), None)]
    {
      var email, question, answer := panelData.email, panelData.question, panelData.answer;
      CloseConfirmation();
      isSubmitting := true;
      email, question, answer := Trim(email), Trim(question), Trim(answer);
      call := AddEmailAndQuestion(email, question, answer);
      match result {
        case Success(_) =>
          panelData := PanelData(AppContext.MaskEmail(email), MaskQuestion(question), "", "");
          ctx.hasEmail := true;
          ctx.hasQuestion := true;
          ctx.question := question;
        case Failure(e) =>
          var _ := center.ShowError(ErrorText(e, REGISTER_FAILED), None, freshId);
      }
      isSubmitting := false;
    }
  }

  /** A panel that validated registers exactly the values it showed,
      trimmed; afterwards the question it shows still passes its rule and
      the email it shows never does. */
  method RegisterValidated(panel: PanelScreen, ctx: AppContext.Session,
                           center: Notifications.NotificationCenter, freshId: string)
    returns (call: Invocation)
    requires forall f :: ValidateField(f, Get(panel.panelData, f), panel.panelData.answer).None?
    modifies panel, ctx, center
    ensures call.AddEmailAndQuestion? && |call.question| >= 6 && |call.answer| >= 6 && IsEmail(call.email)
    ensures ctx.hasEmail && ctx.hasQuestion && panel.panelData.answer == ""
    ensures ValidateField(Question, panel.panelData.question, "").None?
    ensures ValidateField(Email, panel.panelData.email, "").Some?
  {
    ghost var d := panel.panelData;
    ValidationRules(Email, d.email, d.answer);
    ValidationRules(Question, d.question, d.answer);
    ValidationRules(Answer, d.answer, d.answer);
    assert ValidateField(Email, Get(d, Email), d.answer).None?;
    assert ValidateField(Question, Get(d, Question), d.answer).None?;
    assert ValidateField(Answer, Get(d, Answer), d.answer).None?;
    call := panel.HandleSubmit(ctx, center, Success(()), freshId);
    MaskedQuestionStaysValid(d.question, "");
    MaskedEmailNeverValid(Trim(d.email), "");
  }

  /** With an email but no question in the context, the panel hides the
      email input yet still validates the masked email it shows, so the
      confirmation can never open. */
  method EmailWithoutQuestionBlocks(emailProbe: string, questionError: string,
                                    gitProbe: Result<bool, string>, gpgProbe: Result<bool, string>,
                                    repositoryProbe: Result<bool, string>)
    returns (ctx: AppContext.Session, panel: PanelScreen)
    ensures ctx.hasEmail && !ctx.hasQuestion
    ensures !panel.isConfirmationOpen && Email in panel.errors && panel.errors[Email] == EMAIL_INVALID
  {
    ctx := AppContext.StartUp(Success(emailProbe), Failure(questionError), gitProbe, gpgProbe, repositoryProbe);
    panel := new PanelScreen(ctx.email, ctx.question);
    MaskedEmailNeverValid(emailProbe, panel.panelData.answer);
    panel.OpenConfirmation();
    VerdictsMeaning(panel.panelData, |FIELD_ORDER|, panel.panelData.answer, Email);
  }
}

=== FILE: patterns.dfy ===
/** The regular expressions the forms validate with, as predicates that
    follow each expression piece by piece: a `+` is a non-empty run of one
    character class, a literal is a character at a position, and the
    backtracking of the matcher is an existential over that position. */
module Patterns {
  import opened Text

  predicate IsLetter(c: char) {
    ('a' <= c <= 'z') || ('A' <= c <= 'Z')
  }

  predicate IsDecimal(c: char) {
    '0' <= c <= '9'
  }

  /** `[a-zA-Z0-9-]` */
  predicate IsNameChar(c: char) {
    IsLetter(c) || IsDecimal(c) || c == '-'
  }

  /** `[a-zA-Z0-9.-]` */
  predicate IsHostChar(c: char) {
    IsLetter(c) || IsDecimal(c) || c == '.' || c == '-'
  }

  /** `[a-zA-Z0-9_.-]`, the same class as `[a-zA-Z0-9._-]`. */
  predicate IsWordChar(c: char) {
    IsLetter(c) || IsDecimal(c) || c == '_' || c == '.' || c == '-'
  }

  predicate AllOf(s: string, p: char -> bool) {
    forall i :: 0 <= i < |s| ==> p(s[i])
  }

  /** `^[a-zA-Z0-9-]+$` */
  predicate IsName(s: string) {
    |s| > 0 && AllOf(s, IsNameChar)
  }

  /** `[a-zA-Z0-9.-]+\.[a-zA-Z]{2,}`: a host, a dot and a top-level label of
      at least two letters. */
  predicate IsDomain(s: string) {
    exists dot | 0 < dot < |s| - 2 ::
      s[dot] == '.' && AllOf(s[..dot], IsHostChar) && AllOf(s[dot + 1..], IsLetter)
  }

  /** `^[a-zA-Z0-9._-]+@[a-zA-Z0-9.-]+\.[a-zA-Z]{2,}$` */
  predicate IsEmail(s: string) {
    exists at | 0 < at < |s| ::
      s[at] == '@' && AllOf(s[..at], IsWordChar) && IsDomain(s[at + 1..])
  }

  /** `[a-zA-Z0-9_.-]+\/[a-zA-Z0-9_.-]+(\.git)?`; the optional `.git` is
      already in the second class. */
  predicate IsRepoPath(s: string) {
    exists slash | 0 < slash < |s| - 1 ::
      s[slash] == '/' && AllOf(s[..slash], IsWordChar) && AllOf(s[slash + 1..], IsWordChar)
  }

  /** `^git@[a-zA-Z0-9.-]+\.[a-zA-Z]{2,}:[a-zA-Z0-9_.-]+\/[a-zA-Z0-9_.-]+(\.git)?$` */
  predicate IsSshRepoUrl(s: string) {
    StartsWith(s, "git@") &&
    exists colon | 4 < colon < |s| ::
      s[colon] == ':' && IsDomain(s[4..colon]) && IsRepoPath(s[colon + 1..])
  }

  /** A character outside the class never occurs in a run of it. */
  lemma Excludes(s: string, p: char -> bool, c: char)
    requires AllOf(s, p) && !p(c)
    ensures c !in s
  {
  }

  /** A domain has no `@`. */
  lemma DomainHasNoAt(s: string)
    requires IsDomain(s)
    ensures '@' !in s
  {
    var dot :| 0 < dot < |s| - 2 && s[dot] == '.' && AllOf(s[..dot], IsHostChar) && AllOf(s[dot + 1..], IsLetter);
    Excludes(s[..dot], IsHostChar, '@');
    Excludes(s[dot + 1..], IsLetter, '@');
    assert s == s[..dot] + [s[dot]] + s[dot + 1..];
  }

  /** A name never contains a dot, so it is one part of a dot-separated index line. */
  lemma NameHasNoDot(s: string)
    requires IsName(s)
    ensures '.' !in s
  {
    Excludes(s, IsNameChar, '.');
  }

  /** Every host, dot and top-level label of two or more letters is a domain. */
  lemma DomainAccepted(host: string, tld: string)
    requires |host| > 0 && AllOf(host, IsHostChar)
    requires |tld| >= 2 && AllOf(tld, IsLetter)
    ensures IsDomain(host + "." + tld)
  {
    var s := host + "." + tld;
    assert s[..|host|] == host;
    assert s[|host| + 1..] == tld;
    assert s[|host|] == '.';
  }

  /** An owner, a slash and a repository name make a repository path. */
  lemma RepoPathAccepted(owner: string, name: string)
    requires |owner| > 0 && AllOf(owner, IsWordChar) && |name| > 0 && AllOf(name, IsWordChar)
    ensures IsRepoPath(owner + "/" + name)
  {
    var path := owner + "/" + name;
    assert path[..|owner|] == owner && path[|owner| + 1..] == name && path[|owner|] == '/';
  }

  /** `git@`, a domain, a colon and a repository path make an ssh repository URL. */
  lemma SshUrlOfParts(domain: string, path: string)
    requires IsDomain(domain) && IsRepoPath(path)
    ensures IsSshRepoUrl("git@" + domain + ":" + path)
  {
    var s := "git@" + domain + ":" + path;
    var colon := 4 + |domain|;
    assert s[..4] == "git@";
    assert s[4..colon] == domain && s[colon] == ':' && s[colon + 1..] == path;
  }

  /** The form's placeholder shape `git@host.tld:owner/name` is accepted. */
  lemma SshRepoUrlAccepted(host: string, tld: string, owner: string, name: string)
    requires |host| > 0 && AllOf(host, IsHostChar)
    requires |tld| >= 2 && AllOf(tld, IsLetter)
    requires |owner| > 0 && AllOf(owner, IsWordChar) && |name| > 0 && AllOf(name, IsWordChar)
    ensures IsSshRepoUrl("git@" + (host + "." + tld) + ":" + (owner + "/" + name))
  {
    DomainAccepted(host, tld);
    RepoPathAccepted(owner, name);
    SshUrlOfParts(host + "." + tld, owner + "/" + name);
  }

  /** A URL is rejected when it has no colon after the `git@` prefix. */
  lemma SshRepoUrlNeedsColon(s: string)
    requires forall i :: 4 < i < |s| ==> s[i] != ':'
    ensures !IsSshRepoUrl(s)
  {
  }

  /** An email has exactly one `@`, so it splits into a local part and a domain. */
  lemma EmailHasOneAt(s: string)
    requires IsEmail(s)
    ensures |Split(s, '@')| == 2
  {
    var at :| 0 < at < |s| && s[at] == '@' && AllOf(s[..at], IsWordChar) && IsDomain(s[at + 1..]);
    Excludes(s[..at], IsWordChar, '@');
    DomainHasNoAt(s[at + 1..]);
    SplitsInTwo(s, at);
  }

  /** A string with exactly one `@` splits at it into two parts. */
  lemma SplitsInTwo(s: string, at: nat)
    requires at < |s| && s[at] == '@' && '@' !in s[..at] && '@' !in s[at + 1..]
    ensures |Split(s, '@')| == 2
  {
    assert s == s[..at] + ['@'] + s[at + 1..];
    SplitAtFirstSeparator(s[..at], s[at + 1..], '@');
    SplitWithoutSeparator(s[at + 1..], '@');
  }
}

=== FILE: secret_form.dfy ===
/** The secret entry form (src/components/Form.tsx): six fields validated
    progressively in a fixed order, the security challenge before
    encryption, and the YAML formatter of the Format button. */
module SecretForm {
  import opened Wrappers
  import opened Text
  import opened Patterns
  import opened Gateway
  import AppContext
  import Notifications
  import Challenge
  import VaultIndex
  import YamlFormat
  import FieldErrors

  // ---------------------------------------------------------------------
  // Fields and form data
  // ---------------------------------------------------------------------

  datatype Field = App | Desc | Format | Secrets | PushToCloud | Repo

  /** fieldOrder. */
  const FIELD_ORDER: seq<Field> := [App, Desc, Format, Secrets, PushToCloud, Repo]

  const ALL_FIELDS: set<Field> := {App, Desc, Format, Secrets, PushToCloud, Repo}

  /** `fieldOrder.indexOf(f)`. */
  function Position(f: Field): (i: nat)
    ensures i < |FIELD_ORDER| && FIELD_ORDER[i] == f
  {
    match f
    case App => 0
    case Desc => 1
    case Format => 2
    case Secrets => 3
    case PushToCloud => 4
    case Repo => 5
  }

  datatype FormData = FormData(app: string, desc: string, format: string, secrets: string,
                               pushToCloud: string, repo: string)

  /** The form's first state. */
  const INITIAL_DATA := FormData("", "", ".txt", "", "no", "")

  /** The options of the format select. */
  const FORMATS: seq<string> := [".txt", ".yml", ".json", ".csv"]

  function Get(d: FormData, f: Field): string {
    match f
    case App => d.app
    case Desc => d.desc
    case Format => d.format
    case Secrets => d.secrets
    case PushToCloud => d.pushToCloud
    case Repo => d.repo
  }

  /** `{ ...d, [f]: value }`: one field replaced, the others kept. */
  function With(d: FormData, f: Field, value: string): (r: FormData)
    ensures Get(r, f) == value
    ensures forall g :: g != f ==> Get(r, g) == Get(d, g)
  {
    match f
    case App => d.(app := value)
    case Desc => d.(desc := value)
    case Format => d.(format := value)
    case Secrets => d.(secrets := value)
    case PushToCloud => d.(pushToCloud := value)
    case Repo => d.(repo := value)
  }

  // ---------------------------------------------------------------------
  // validateField
  // ---------------------------------------------------------------------

  const APP_CHARS := "App can only contain letters, numbers, and hyphens (a-z, A-Z, 0-9, -)"
  const APP_LENGTH := "App must be 2-12 characters"
  const DESC_CHARS := "Description can only contain letters, numbers, and hyphens (a-z, A-Z, 0-9, -)"
  const DESC_LENGTH := "Description must be 2-24 characters"
  const SECRETS_LENGTH := "Secrets must be 1-1,000,000 characters"
  const REPO_INVALID := "Please enter a valid ssh git repository URL"
  const NEED_SETUP := "Please set your GPG Email and Secret Question first"
  const ENCRYPT_OK := "Encrypt secrets successfully"
  const ENCRYPT_FAILED := "Failed to encrypt secrets"
  const JSON_INVALID := "Invalid .json format"

  /** validateField on the trimmed value. The repository rule reads the
      repository flag of the session and the push choice the component
      currently holds, `currentPush`; what each rule accepts is stated by
      ValidationRules. */
  function ValidateField(f: Field, value: string, hasRepository: bool, currentPush: string): (r: Option<string>)
    ensures r.Some? ==> r.value != ""
  {
    var v := Trim(value);
    match f
    case App =>
      if !IsName(v) then Some(APP_CHARS) else if 2 <= |v| <= 12 then None else Some(APP_LENGTH)
    case Desc =>
      if !IsName(v) then Some(DESC_CHARS) else if 2 <= |v| <= 24 then None else Some(DESC_LENGTH)
    case Secrets =>
      if 1 <= |v| <= 1_000_000 then None else Some(SECRETS_LENGTH)
    case Repo =>
      if !hasRepository && currentPush == "yes" && !IsSshRepoUrl(v) then Some(REPO_INVALID) else None
    case Format => None
    case PushToCloud => None
  }

  /** What validateField accepts, field by field: app and description are
      names of 2-12 and 2-24 characters, with the character rule reported
      first; secrets have 1 to 1,000,000 characters; the format and the push
      choice always pass; the repository fails only while none is set up,
      "yes" is chosen and the trimmed value is not an ssh repository URL. */
  lemma ValidationRules(f: Field, value: string, hasRepository: bool, currentPush: string)
    ensures var r := ValidateField(f, value, hasRepository, currentPush);
      && (f == App ==> (r.None? <==> IsName(Trim(value)) && 2 <= |Trim(value)| <= 12))
      && (f == App && !IsName(Trim(value)) ==> r == Some(APP_CHARS))
      && (f == Desc ==> (r.None? <==> IsName(Trim(value)) && 2 <= |Trim(value)| <= 24))
      && (f == Desc && !IsName(Trim(value)) ==> r == Some(DESC_CHARS))
      && (f == Secrets ==> (r.None? <==> 1 <= |Trim(value)| <= 1_000_000))
      && (f == Format || f == PushToCloud ==> r.None?)
      && (f == Repo ==> (r.Some? <==> !hasRepository && currentPush == "yes" && !IsSshRepoUrl(Trim(value))))
  {
  }

  /** The errors of the first `count` fields in field order, collected one
      field after the other. */
  function Verdicts(d: FormData, count: nat, hasRepository: bool, currentPush: string): map<Field, string>
    requires count <= |FIELD_ORDER|
  {
    if count == 0 then map[]
    else
      var earlier := Verdicts(d, count - 1, hasRepository, currentPush);
      var name := FIELD_ORDER[count - 1];
      var error := ValidateField(name, Get(d, name), hasRepository, currentPush);
      if error.Some? then earlier[name := error.value] else earlier
  }

  /** The validation of every field of `d`. */
  function Check(d: FormData, hasRepository: bool, currentPush: string): Field -> Option<string> {
    f => ValidateField(f, Get(d, f), hasRepository, currentPush)
  }

  /** The form's verdicts are the generic collection of its checks. */
  lemma {:induction false} VerdictsCollect(d: FormData, count: nat, hasRepository: bool, currentPush: string)
    requires count <= |FIELD_ORDER|
    ensures Verdicts(d, count, hasRepository, currentPush)
      == FieldErrors.Collect(FIELD_ORDER, Check(d, hasRepository, currentPush), count)
  {
    if count > 0 {
      VerdictsCollect(d, count - 1, hasRepository, currentPush);
      var name := FIELD_ORDER[count - 1];
      assert Check(d, hasRepository, currentPush)(name) == ValidateField(name, Get(d, name), hasRepository, currentPush);
    }
  }

  /** A field is among the first `count` exactly when its position is below `count`. */
  lemma AmongFirst(f: Field, count: nat)
    requires count <= |FIELD_ORDER|
    ensures f in FIELD_ORDER[..count] <==> Position(f) < count
  {
    if f in FIELD_ORDER[..count] {
      var j :| 0 <= j < count && FIELD_ORDER[..count][j] == f;
      assert FIELD_ORDER[j] == f;
    }
    if Position(f) < count {
      assert FIELD_ORDER[..count][Position(f)] == f;
    }
  }

  /** A field has an error among the first `count` exactly when it is one
      of them and its value fails validation, and the error is that
      validation's message. */
  lemma VerdictsMeaning(d: FormData, count: nat, hasRepository: bool, currentPush: string, f: Field)
    requires count <= |FIELD_ORDER|
    ensures var errors := Verdicts(d, count, hasRepository, currentPush);
      && (f in errors <==> Position(f) < count && ValidateField(f, Get(d, f), hasRepository, currentPush).Some?)
      && (f in errors ==> errors[f] == ValidateField(f, Get(d, f), hasRepository, currentPush).value)
  {
    VerdictsCollect(d, count, hasRepository, currentPush);
    FieldErrors.CollectMeaning(FIELD_ORDER, Check(d, hasRepository, currentPush), count, f);
    AmongFirst(f, count);
    assert Check(d, hasRepository, currentPush)(f) == ValidateField(f, Get(d, f), hasRepository, currentPush);
  }

  /** The non-empty errors of the fields at positions `k + 1` up to `i`,
      kept one field after the other. */
  function Kept(errors: map<Field, string>, k: nat, i: nat): map<Field, string>
    requires i <= |FIELD_ORDER|
  {
    if i <= k + 1 then map[]
    else
      var earlier := Kept(errors, k, i - 1);
      var name := FIELD_ORDER[i - 1];
      if name in errors && errors[name] != "" then earlier[name := errors[name]] else earlier
  }

  /** A later field keeps exactly its own non-empty error. */
  lemma {:induction false} KeptMeaning(errors: map<Field, string>, k: nat, i: nat, f: Field)
    requires i <= |FIELD_ORDER|
    ensures var kept := Kept(errors, k, i);
      && (f in kept <==> k < Position(f) < i && f in errors && errors[f] != "")
      && (f in kept ==> kept[f] == errors[f])
  {
    if i > k + 1 {
      KeptMeaning(errors, k, i - 1, f);
      assert Position(FIELD_ORDER[i - 1]) == i - 1;
    }
  }

  // ---------------------------------------------------------------------
  // Input changes
  // ---------------------------------------------------------------------

  datatype Push = Yes | No

  function PushText(p: Push): string {
    match p
    case Yes => "yes"
    case No => "no"
  }

  /** The change event of an input: its name and its new value. */
  datatype Edit = Edit(field: Field, value: string)

  /** The field handleInputChange validates up to: the edited one, or the
      push choice when only the radio was clicked. */
  function EditedField(edit: Option<Edit>): Field {
    if edit.Some? then edit.value.field else PushToCloud
  }

  /** The updated form data of handleInputChange: the push choice first
      (choosing "no" empties the repository), then the edited input. */
  function Updated(d: FormData, edit: Option<Edit>, push: Option<Push>): (r: FormData)
    ensures push == Some(No) && (edit.None? || edit.value.field != Repo) ==> r.repo == ""
    ensures push.Some? && (edit.None? || edit.value.field != PushToCloud) ==> r.pushToCloud == PushText(push.value)
    ensures push != Some(No) && (edit.None? || edit.value.field != Repo) ==> r.repo == d.repo
    ensures push.None? && (edit.None? || edit.value.field != PushToCloud) ==> r.pushToCloud == d.pushToCloud
    ensures edit.Some? ==> Get(r, edit.value.field) == edit.value.value
    ensures forall f :: f != PushToCloud && f != Repo && (edit.None? || edit.value.field != f) ==> Get(r, f) == Get(d, f)
  {
    var d1 := if push.Some? then d.(pushToCloud := PushText(push.value)) else d;
    var d2 := if push == Some(No) then d1.(repo := "") else d1;
    if edit.Some? then With(d2, edit.value.field, edit.value.value) else d2
  }

  // ---------------------------------------------------------------------
  // handleEncrypt
  // ---------------------------------------------------------------------

  /** The backend calls of handleEncrypt in order: the repository first when
      one was typed, then the secret with trimmed fields unless adding the
      repository was rejected. */
  function EncryptCalls(d: FormData, answer: string, repoResult: Result<(), string>): (calls: seq<Invocation>)
    ensures |calls| <= 2
    ensures (AddSecrets(Trim(d.app), Trim(d.desc), d.format, Trim(d.secrets), d.pushToCloud, answer) in calls)
      <==> (Trim(d.repo) == "" || repoResult.Success?)
    ensures forall c :: c in calls && c.AddSecrets? ==>
      c == AddSecrets(Trim(d.app), Trim(d.desc), d.format, Trim(d.secrets), d.pushToCloud, answer)
    ensures (AddGitRepository(Trim(d.repo)) in calls) <==> Trim(d.repo) != ""
  {
    var repo := Trim(d.repo);
    var add := AddSecrets(Trim(d.app), Trim(d.desc), d.format, Trim(d.secrets), d.pushToCloud, answer);
    if repo == "" then [add]
    else if repoResult.Success? then [AddGitRepository(repo), add]
    else [AddGitRepository(repo)]
  }

  /** How handleEncrypt ends: the first rejection, or success. */
  function EncryptOutcome(d: FormData, repoResult: Result<(), string>, addResult: Result<(), string>): Result<(), string> {
    if Trim(d.repo) != "" && repoResult.Failure? then repoResult else addResult
  }

  /** The notification handleEncrypt ends with. */
  function EncryptNotice(outcome: Result<(), string>, freshId: string): (item: Notifications.NotificationItem)
    ensures item.id == freshId && item.message != "" && item.duration.None?
    ensures item.kind == Some(Notifications.Success) <==> outcome.Success?
  {
    match outcome
    case Success(_) => Notifications.NotificationItem(freshId, ENCRYPT_OK, Some(Notifications.Success), None)
    case Failure(e) => Notifications.NotificationItem(freshId, ErrorText(e, ENCRYPT_FAILED), Some(Notifications.Error), None)
  }

  /** Merging fresh verdicts with the kept later errors never shows an empty message. */
  lemma MergedHasNoEmptyMessage(d: FormData, k: nat, hasRepository: bool, currentPush: string, errors: map<Field, string>)
    requires k < |FIELD_ORDER|
    requires forall f :: f in errors ==> errors[f] != ""
    ensures var merged := Verdicts(d, k + 1, hasRepository, currentPush) + Kept(errors, k, |FIELD_ORDER|);
      forall f :: f in merged ==> merged[f] != ""
  {
    var merged := Verdicts(d, k + 1, hasRepository, currentPush) + Kept(errors, k, |FIELD_ORDER|);
    forall f | f in merged
      ensures merged[f] != ""
    {
      KeptMeaning(errors, k, |FIELD_ORDER|, f);
      VerdictsMeaning(d, k + 1, hasRepository, currentPush, f);
    }
  }

  /** The awaited part of handleEncrypt: the trimmed repository is added
      first when one was typed, and a success marks the session as having
      one; the secret is added unless that was rejected. */
  method AddToVault(d: FormData, answer: string, ctx: AppContext.Session,
                    repoResult: Result<(), string>, addResult: Result<(), string>)
    returns (calls: seq<Invocation>, outcome: Result<(), string>)
    modifies ctx`hasRepository
    ensures calls == EncryptCalls(d, answer, repoResult)
    ensures outcome == EncryptOutcome(d, repoResult, addResult)
    ensures ctx.hasRepository == (old(ctx.hasRepository) || (Trim(d.repo) != "" && repoResult.Success?))
  {
    var app, desc, secrets, repo := Trim(d.app), Trim(d.desc), Trim(d.secrets), Trim(d.repo);
    calls := [];
    outcome := Success(());
    if repo != "" {
      calls := calls + [AddGitRepository(repo)];
      if repoResult.Success? {
        ctx.hasRepository := true;
      } else {
        outcome := repoResult;
      }
    }
    if outcome.Success? {
      calls := calls + [AddSecrets(app, desc, d.format, secrets, d.pushToCloud, answer)];
      outcome := addResult;
    }
  }

  // ---------------------------------------------------------------------
  // The form screen
  // ---------------------------------------------------------------------

  class FormScreen {
    var formData: FormData
    var errors: map<Field, string>
    var isEncrypting: bool
    var isAuthOpen: bool

    /** Every error shown has a message. */
    ghost predicate Valid()
      reads this
    {
      forall f :: f in errors ==> errors[f] != ""
    }

    constructor ()
      ensures Valid()
      ensures formData == INITIAL_DATA && errors == map[] && !isEncrypting && !isAuthOpen
    {
      formData := INITIAL_DATA;
      errors := map[];
      isEncrypting := false;
      isAuthOpen := false;
    }

    /** validateFieldsUpToCurrent: the fields up to and with `current`, in
        field order. */
    method ValidateFieldsUpToCurrent(data: FormData, current: Field, hasRepository: bool)
      returns (newErrors: map<Field, string>)
      ensures newErrors == Verdicts(data, Position(current) + 1, hasRepository, formData.pushToCloud)
    {
      newErrors := map[];
      var currentFieldIndex := Position(current);
      for i := 0 to currentFieldIndex + 1
        invariant newErrors == Verdicts(data, i, hasRepository, formData.pushToCloud)
      {
        var fieldName := FIELD_ORDER[i];
        var error := ValidateField(fieldName, Get(data, fieldName), hasRepository, formData.pushToCloud);
        if error.Some? {
          newErrors := newErrors[fieldName := error.value];
        }
      }
    }

    /** validateAllFields: every field of the data, in field order. */
    method ValidateAllFields(data: FormData, hasRepository: bool) returns (newErrors: map<Field, string>)
      ensures newErrors == Verdicts(data, |FIELD_ORDER|, hasRepository, formData.pushToCloud)
    {
      newErrors := map[];
      for i := 0 to |FIELD_ORDER|
        invariant newErrors == Verdicts(data, i, hasRepository, formData.pushToCloud)
      {
        var fieldName := FIELD_ORDER[i];
        var error := ValidateField(fieldName, Get(data, fieldName), hasRepository, formData.pushToCloud);
        if error.Some? {
          newErrors := newErrors[fieldName := error.value];
        }
      }
    }

    /** hasErrors: some field shows a non-empty message. */
    predicate HasErrors()
      reads this
    {
      exists f :: f in errors && errors[f] != ""
    }

    /** The Encrypt button is disabled. */
    predicate SubmitDisabled()
      reads this
    {
      HasErrors() || isEncrypting
    }

    /** handleInputChange: the changed data replaces the old; the fields up
        to the edited one are validated again (the repository rule still
        reading the push choice from before the change), and the non-empty
        errors of later fields are kept. */
    method HandleInputChange(edit: Option<Edit>, push: Option<Push>, hasRepository: bool)
      requires Valid()
      modifies this`formData, this`errors
      ensures Valid()
      ensures formData == Updated(old(formData), edit, push)
      ensures errors == Verdicts(formData, Position(EditedField(edit)) + 1, hasRepository, old(formData).pushToCloud)
        + Kept(old(errors), Position(EditedField(edit)), |FIELD_ORDER|)
    {
      var fieldName := EditedField(edit);
      var updatedFormData := Updated(formData, edit, push);
      var progressiveErrors := ValidateFieldsUpToCurrent(updatedFormData, fieldName, hasRepository);
      formData := updatedFormData;
      var currentFieldIndex := Position(fieldName);
      var preservedErrors: map<Field, string> := map[];
      for i := currentFieldIndex + 1 to |FIELD_ORDER|
        invariant preservedErrors == Kept(errors, currentFieldIndex, i)
      {
        var laterField := FIELD_ORDER[i];
        if laterField in errors && errors[laterField] != "" {
          preservedErrors := preservedErrors[laterField := errors[laterField]];
        }
      }
      MergedHasNoEmptyMessage(updatedFormData, currentFieldIndex, hasRepository, old(formData).pushToCloud, errors);
      errors := progressiveErrors + preservedErrors;
    }

    /** validateFormData: every field is validated and the result shown;
        true when nothing failed. */
    method ValidateFormData(hasRepository: bool) returns (ok: bool)
      modifies this`errors
      ensures Valid()
      ensures errors == Verdicts(formData, |FIELD_ORDER|, hasRepository, formData.pushToCloud)
      ensures ok <==> errors == map[]
      ensures ok <==> forall f :: ValidateField(f, Get(formData, f), hasRepository, formData.pushToCloud).None?
    {
      var newErrors := ValidateAllFields(formData, hasRepository);
      errors := newErrors;
      ok := |newErrors| == 0;
      assert ok <==> newErrors == map[];
      forall f ensures (f in newErrors <==> ValidateField(f, Get(formData, f), hasRepository, formData.pushToCloud).Some?)
        && (f in newErrors ==> newErrors[f] != "")
      {
        VerdictsMeaning(formData, |FIELD_ORDER|, hasRepository, formData.pushToCloud, f);
      }
    }

    /** closeAuth: the dialog closes, the form is idle again, and app,
        description and secrets are emptied. */
    method CloseAuth()
      modifies this`isAuthOpen, this`isEncrypting, this`formData
      ensures !isAuthOpen && !isEncrypting
      ensures formData == old(formData).(app := "", desc := "", secrets := "")
    {
      isAuthOpen := false;
      isEncrypting := false;
      formData := formData.(app := "", desc := "", secrets := "");
    }

    /** openAuth, the form's submit handler: without email and question it
        only complains; otherwise every field is validated and the
        challenge opens only when none failed. */
    method OpenAuth(ctx: AppContext.Session, center: Notifications.NotificationCenter, freshId: string)
      requires Valid()
      modifies this`errors, this`isAuthOpen, this`isEncrypting, center
      ensures Valid()
      ensures !(ctx.hasEmail && ctx.hasQuestion) ==>
        && errors == old(errors) && isAuthOpen == old(isAuthOpen) && isEncrypting == old(isEncrypting)
        && center.notifications == old(center.notifications)
             + [Notifications.NotificationItem(freshId, NEED_SETUP, Some(Notifications.Error), None)]
      ensures ctx.hasEmail && ctx.hasQuestion ==>
        && errors == Verdicts(formData, |FIELD_ORDER|, ctx.hasRepository, formData.pushToCloud)
        && center.notifications == old(center.notifications)
        && (errors == map[] ==> isAuthOpen && isEncrypting)
        && (errors != map[] ==> isAuthOpen == old(isAuthOpen) && isEncrypting == old(isEncrypting))
    {
      if !ctx.hasEmail || !ctx.hasQuestion {
        var _ := center.ShowError(NEED_SETUP, None, freshId);
        return;
      }
      var ok := ValidateFormData(ctx.hasRepository);
      if !ok {
        return;
      }
      isAuthOpen := true;
      isEncrypting := true;
    }

    /** handleEncrypt with the verified answer: the data is captured and
        trimmed, the dialog closed, the repository added first when one was
        typed, then the secret; it ends with one notification, an idle
        form and a list reload. `repoResult` and `addResult` are what the
        two backend commands settle with. */
    method HandleEncrypt(answer: string, ctx: AppContext.Session, center: Notifications.NotificationCenter,
                         repoResult: Result<(), string>, addResult: Result<(), string>, freshId: string)
      returns (calls: seq<Invocation>)
      requires Valid()
      modifies this`isAuthOpen, this`isEncrypting, this`formData, ctx`hasRepository, ctx`listTrigger, center
      ensures Valid()
      ensures calls == EncryptCalls(old(formData), answer, repoResult)
      ensures formData == old(formData).(app := "", desc := "", secrets := "")
      ensures !isAuthOpen && !isEncrypting
      ensures ctx.hasRepository == (old(ctx.hasRepository) || (Trim(old(formData).repo) != "" && repoResult.Success?))
      ensures ctx.listTrigger == old(ctx.listTrigger) + 1
      ensures center.notifications == old(center.notifications)
        + [EncryptNotice(EncryptOutcome(old(formData), repoResult, addResult), freshId)]
    {
      var d := formData;
      CloseAuth();
      isEncrypting := true;
      var outcome;
      calls, outcome := AddToVault(d, answer, ctx, repoResult, addResult);
      match outcome {
        case Success(_) =>
          var _ := center.ShowSuccess(ENCRYPT_OK, None, freshId);
        case Failure(e) =>
          var _ := center.ShowError(ErrorText(e, ENCRYPT_FAILED), None, freshId);
      }
      isEncrypting := false;
      ctx.BumpListTrigger();
    }

    /** verifyAuth: asks the backend to verify the answer; a rejection
        propagates to the dialog, `true` starts the encryption. */
    method VerifyAuth(answer: string, verdict: Result<bool, string>, ctx: AppContext.Session,
                      center: Notifications.NotificationCenter,
                      repoResult: Result<(), string>, addResult: Result<(), string>, freshId: string)
      returns (r: Result<bool, string>, calls: seq<Invocation>)
      requires Valid()
      modifies this`isAuthOpen, this`isEncrypting, this`formData, ctx`hasRepository, ctx`listTrigger, center
      ensures Valid()
      ensures r == verdict
      ensures calls == [VerifySecurityQuestion(answer)]
        + (if verdict == Success(true) then EncryptCalls(old(formData), answer, repoResult) else [])
      ensures verdict != Success(true) ==>
        && formData == old(formData) && isAuthOpen == old(isAuthOpen) && isEncrypting == old(isEncrypting)
        && ctx.hasRepository == old(ctx.hasRepository) && ctx.listTrigger == old(ctx.listTrigger)
        && center.notifications == old(center.notifications)
      ensures verdict == Success(true) ==>
        && formData == old(formData).(app := "", desc := "", secrets := "")
        && !isAuthOpen && !isEncrypting
        && ctx.hasRepository == (old(ctx.hasRepository) || (Trim(old(formData).repo) != "" && repoResult.Success?))
        && ctx.listTrigger == old(ctx.listTrigger) + 1
        && center.notifications == old(center.notifications)
             + [EncryptNotice(EncryptOutcome(old(formData), repoResult, addResult), freshId)]
    {
      calls := [VerifySecurityQuestion(answer)];
      r := verdict;
      if verdict == Success(true) {
        var encrypted := HandleEncrypt(answer, ctx, center, repoResult, addResult, freshId);
        calls := calls + encrypted;
      }
    }

    /** The challenge dialog's submit with this form's verifyAuth and
        closeAuth: the backend sees the verification and then, only when
        it answered `true`, the encryption with the answer the dialog held. */
    method SubmitChallenge(auth: Challenge.AuthDialog, verdict: Result<bool, string>, ctx: AppContext.Session,
                           center: Notifications.NotificationCenter,
                           repoResult: Result<(), string>, addResult: Result<(), string>, freshId: string)
      returns (calls: seq<Invocation>)
      requires Valid()
      modifies this`isAuthOpen, this`isEncrypting, this`formData, ctx`hasRepository, ctx`listTrigger, center
      modifies auth`answer, auth`error, auth`isVerifying
      ensures Valid()
      ensures old(auth.error) != "" ==> calls == []
      ensures old(auth.error) == "" ==>
        calls == [VerifySecurityQuestion(old(auth.answer))]
                 + (if verdict == Success(true) then EncryptCalls(old(formData), old(auth.answer), repoResult) else [])
      ensures old(auth.error) != "" ==>
        && formData == old(formData) && isAuthOpen == old(isAuthOpen) && isEncrypting == old(isEncrypting)
        && ctx.hasRepository == old(ctx.hasRepository) && ctx.listTrigger == old(ctx.listTrigger)
        && center.notifications == old(center.notifications)
        && auth.answer == old(auth.answer) && auth.error == old(auth.error)
      ensures old(auth.error) == "" && verdict == Success(true) ==>
        && !isAuthOpen && !isEncrypting
        && formData == old(formData).(app := "", desc := "", secrets := "")
        && ctx.hasRepository == (old(ctx.hasRepository) || (Trim(old(formData).repo) != "" && repoResult.Success?))
        && ctx.listTrigger == old(ctx.listTrigger) + 1
        && center.notifications == old(center.notifications)
             + [EncryptNotice(EncryptOutcome(old(formData), repoResult, addResult), freshId)]
        && auth.answer == old(auth.answer) && auth.error == ""
      ensures old(auth.error) == "" && verdict != Success(true) ==>
        && formData == old(formData) && isAuthOpen == old(isAuthOpen) && isEncrypting == old(isEncrypting)
        && ctx.hasRepository == old(ctx.hasRepository) && ctx.listTrigger == old(ctx.listTrigger)
        && center.notifications == old(center.notifications)
      ensures old(auth.error) == "" && verdict == Success(false) ==>
        auth.answer == "" && auth.error == Challenge.INVALID_ANSWER
      ensures old(auth.error) == "" && verdict.Failure? ==>
        auth.answer == old(auth.answer) && auth.error == Challenge.VERIFY_FAILED
      ensures !auth.isVerifying || old(auth.error) != ""
    {
      calls := [];
      var answer := auth.answer;
      var proceed := auth.BeginSubmit();
      if proceed {
        var r;
        r, calls := VerifyAuth(answer, verdict, ctx, center, repoResult, addResult, freshId);
        var closeRequested := auth.FinishSubmit(r);
        if closeRequested {
          CloseAuth();
        }
      }
    }

    /** handleFormat: `.yml` secrets go through the YAML formatter; `.json`
        secrets are replaced by `jsonFormatted`, the parsed and re-printed
        text, or an error is shown when they did not parse. */
    method HandleFormat(jsonFormatted: Option<string>, center: Notifications.NotificationCenter, freshId: string)
      modifies this`formData, center
      ensures formData.format == ".yml" ==>
        formData == old(formData).(secrets := YamlFormat.FormatYaml(old(formData).secrets))
        && center.notifications == old(center.notifications)
      ensures formData.format == ".json" && jsonFormatted.Some? ==>
        formData == old(formData).(secrets := jsonFormatted.value)
        && center.notifications == old(center.notifications)
      ensures formData.format == ".json" && jsonFormatted.None? ==>
        formData == old(formData)
        && center.notifications == old(center.notifications)
             + [Notifications.NotificationItem(freshId, JSON_INVALID, Some(Notifications.Error), None)]
      ensures formData.format != ".yml" && formData.format != ".json" ==>
        formData == old(formData) && center.notifications == old(center.notifications)
    {
      if formData.format == ".yml" {
        formData := formData.(secrets := YamlFormat.FormatYaml(formData.secrets));
      }
      if formData.format == ".json" {
        match jsonFormatted {
          case Some(text) =>
            formData := formData.(secrets := text);
          case None =>
            var _ := center.ShowError(JSON_INVALID, None, freshId);
        }
      }
    }
  }

  /** Choosing "No" while the repository field shows an error empties and
      hides the field but keeps its error, so the Encrypt button stays
      disabled until "Yes" is chosen again and the field corrected. */
  method ChoosingNoKeepsRepoError(form: FormScreen, hasRepository: bool)
    requires form.Valid() && Repo in form.errors
    modifies form
    ensures form.formData.pushToCloud == "no" && form.formData.repo == ""
    ensures Repo in form.errors && form.SubmitDisabled()
  {
    form.HandleInputChange(None, Some(No), hasRepository);
  }

  // ---------------------------------------------------------------------
  // From a validated form to the index
  // ---------------------------------------------------------------------

  /** A format of the select is a dot and a dot-free extension. */
  lemma FormatIsExtension(format: string)
    requires format in FORMATS
    ensures |format| > 1 && format[0] == '.' && '.' !in format[1..]
  {
  }

  /** Values that pass validation and are encrypted make an index line that
      lists back as exactly those values: after add_secrets on an index
      whose lines all list, the first listed item is the new secret with
      its trimmed app and description and its format. */
  lemma ValidatedSecretListedFirst(d: FormData, hasRepository: bool, currentPush: string,
                                   lines: seq<string>, id: string)
    requires ValidateField(App, d.app, hasRepository, currentPush).None?
    requires ValidateField(Desc, d.desc, hasRepository, currentPush).None?
    requires d.format in FORMATS
    requires forall i :: 0 <= i < |lines| ==> VaultIndex.Listable(lines[i])
    requires VaultIndex.NextId(lines) == Success(id) && '.' !in id
    ensures var newLines := lines + [VaultIndex.EntryLine(id, Trim(d.app), Trim(d.desc), d.format)];
      forall i :: 0 <= i < |newLines| ==> VaultIndex.Listable(newLines[i])
    ensures var newLines := lines + [VaultIndex.EntryLine(id, Trim(d.app), Trim(d.desc), d.format)];
      Reverse(VaultIndex.MatchingItems(newLines, ""))[0] == VaultIndex.ListItem(id, Trim(d.app), Trim(d.desc), d.format)
  {
    ValidationRules(App, d.app, hasRepository, currentPush);
    ValidationRules(Desc, d.desc, hasRepository, currentPush);
    NameHasNoDot(Trim(d.app));
    NameHasNoDot(Trim(d.desc));
    FormatIsExtension(d.format);
    var ext := d.format[1..];
    assert d.format == "." + ext;
    VaultIndex.AddedSecretListedFirst(lines, Trim(d.app), Trim(d.desc), ext, id);
  }
}

=== FILE: text.dfy ===
/** The string and sequence operations the source takes from the Rust and
    JavaScript standard libraries (`split`, `join`, `trim`, `contains`,
    `filter`, `reverse`), each defined once, with the facts about them that
    the rest of the model relies on. Strings are sequences of characters;
    every character is one unit of length. */
module Text {

  /** The characters `trim` removes. Only the ASCII white-space characters
      are modelled. */
  predicate IsSpace(c: char) {
    c == ' ' || c == '\t' || c == '\n' || c == '\r' || c == '\U{B}' || c == '\U{C}'
  }

  /** `s.split(sep)`: n separators give n + 1 parts, so the empty string
      gives one empty part and adjacent separators give empty parts. */
  function Split(s: string, sep: char): (parts: seq<string>)
    ensures |parts| >= 1
    ensures forall i :: 0 <= i < |parts| ==> sep !in parts[i]
    ensures |parts| >= 2 <==> sep in s
  {
    if |s| == 0 then [""]
    else
      var rest := Split(s[1..], sep);
      if s[0] == sep then [""] + rest
      else [[s[0]] + rest[0]] + rest[1..]
  }

  /** `parts.join(sep)`: the separator goes between neighbours only. */
  function Join(parts: seq<string>, sep: char): string {
    if |parts| == 0 then ""
    else if |parts| == 1 then parts[0]
    else parts[0] + [sep] + Join(parts[1..], sep)
  }

  /** Joining the parts of a split gives back the original string. */
  lemma {:induction false} JoinSplit(s: string, sep: char)
    ensures Join(Split(s, sep), sep) == s
  {
    if |s| > 0 {
      var rest := Split(s[1..], sep);
      JoinSplit(s[1..], sep);
      if s[0] == sep {
        assert ([""] + rest)[1..] == rest;
      } else if |rest| > 1 {
        var parts := [[s[0]] + rest[0]] + rest[1..];
        assert parts[1..] == rest[1..];
        assert Join(rest, sep) == rest[0] + [sep] + Join(rest[1..], sep);
        assert s == [s[0]] + s[1..];
      } else {
        assert s == [s[0]] + s[1..];
      }
    }
  }

  /** Joining a concatenation puts one separator between the two joins. */
  lemma {:induction false} JoinAppend(a: seq<string>, b: seq<string>, sep: char)
    requires |a| > 0 && |b| > 0
    ensures Join(a + b, sep) == Join(a, sep) + [sep] + Join(b, sep)
  {
    if |a| == 1 {
      assert (a + b)[1..] == b;
    } else {
      JoinAppend(a[1..], b, sep);
      assert (a + b)[1..] == a[1..] + b;
    }
  }

  /** A string without the separator splits into itself alone. */
  lemma {:induction false} SplitWithoutSeparator(a: string, sep: char)
    requires sep !in a
    ensures Split(a, sep) == [a]
  {
    if |a| > 0 {
      SplitWithoutSeparator(a[1..], sep);
      assert a == [a[0]] + a[1..];
    }
  }

  /** The first separator of a string ends its first part. */
  lemma {:induction false} SplitAtFirstSeparator(a: string, b: string, sep: char)
    requires sep !in a
    ensures Split(a + [sep] + b, sep) == [a] + Split(b, sep)
  {
    var s := a + [sep] + b;
    if |a| == 0 {
      assert s[1..] == b;
    } else {
      assert s[1..] == a[1..] + [sep] + b;
      SplitAtFirstSeparator(a[1..], b, sep);
      assert [a[0]] + a[1..] == a;
    }
  }

  /** Splitting a join of separator-free parts gives back the parts. */
  lemma {:induction false} SplitJoin(parts: seq<string>, sep: char)
    requires |parts| >= 1
    requires forall i :: 0 <= i < |parts| ==> sep !in parts[i]
    ensures Split(Join(parts, sep), sep) == parts
  {
    if |parts| == 1 {
      SplitWithoutSeparator(parts[0], sep);
    } else {
      SplitJoin(parts[1..], sep);
      SplitAtFirstSeparator(parts[0], Join(parts[1..], sep), sep);
      assert [parts[0]] + parts[1..] == parts;
    }
  }

  predicate StartsWith(s: string, prefix: string) {
    |prefix| <= |s| && s[..|prefix|] == prefix
  }

  /** `s.contains(needle)` / `s.includes(needle)`; the empty needle is in every string. */
  predicate Contains(s: string, needle: string) {
    exists i | 0 <= i <= |s| :: StartsWith(s[i..], needle)
  }

  /** An occurrence at a known position. */
  lemma ContainsAt(s: string, i: nat, needle: string)
    requires i <= |s| && StartsWith(s[i..], needle)
    ensures Contains(s, needle)
  {
  }

  /** `s.trimStart()`: the leading white space removed. What is removed
      and what is left is stated by TrimStartShape. */
  function TrimStart(s: string): (r: string)
    ensures |r| <= |s|
  {
    if |s| > 0 && IsSpace(s[0]) then TrimStart(s[1..]) else s
  }

  /** `trimStart` keeps a suffix that does not start with white space and
      removes only white space. */
  lemma {:induction false} TrimStartShape(s: string)
    ensures var r := TrimStart(s);
      && r == s[|s| - |r|..]
      && (r == [] || !IsSpace(r[0]))
      && forall i :: 0 <= i < |s| - |r| ==> IsSpace(s[i])
  {
    if |s| > 0 && IsSpace(s[0]) {
      TrimStartShape(s[1..]);
    }
  }

  /** The trailing white space removed. */
  function TrimEnd(s: string): (r: string)
    ensures |r| <= |s|
  {
    if |s| > 0 && IsSpace(s[|s| - 1]) then TrimEnd(s[..|s| - 1]) else s
  }

  /** The end trim keeps a prefix that does not end in white space and
      removes only white space. */
  lemma {:induction false} TrimEndShape(s: string)
    ensures var r := TrimEnd(s);
      && r == s[..|r|]
      && (r == [] || !IsSpace(r[|r| - 1]))
      && forall i :: |r| <= i < |s| ==> IsSpace(s[i])
  {
    if |s| > 0 && IsSpace(s[|s| - 1]) {
      TrimEndShape(s[..|s| - 1]);
    }
  }

  /** `s.trim()`: white space removed at both ends. */
  function Trim(s: string): (r: string)
    ensures |r| <= |s|
  {
    TrimEnd(TrimStart(s))
  }

  /** The trim of a string neither starts nor ends with white space. */
  lemma TrimEdges(s: string)
    ensures var r := Trim(s);
      r == [] || (!IsSpace(r[0]) && !IsSpace(r[|r| - 1]))
  {
    var t := TrimStart(s);
    TrimStartShape(s);
    TrimEndShape(t);
    var r := TrimEnd(t);
    if r != [] {
      assert r[0] == t[0];
    }
  }

  /** A string with no white space at either end is its own trim. */
  lemma TrimUntouched(s: string)
    requires s == [] || (!IsSpace(s[0]) && !IsSpace(s[|s| - 1]))
    ensures Trim(s) == s
  {
  }

  /** A string ending in white space is never the trim of anything. */
  lemma TrimNeverEndsInSpace(s: string, t: string)
    requires |t| > 0 && IsSpace(t[|t| - 1])
    ensures Trim(s) != t
  {
    TrimEdges(s);
  }

  /** Leading white space in front of a string that starts with something
      else is exactly what `trimStart` removes. */
  lemma {:induction false} TrimStartPadded(pad: string, x: string)
    requires forall i :: 0 <= i < |pad| ==> IsSpace(pad[i])
    requires x == [] || !IsSpace(x[0])
    ensures TrimStart(pad + x) == x
  {
    if |pad| > 0 {
      TrimStartPadded(pad[1..], x);
      assert (pad + x)[1..] == pad[1..] + x;
    }
  }

  /** Trimming a padded string that is already its own trim gives it back. */
  lemma TrimPadded(pad: string, x: string)
    requires forall i :: 0 <= i < |pad| ==> IsSpace(pad[i])
    requires x == [] || (!IsSpace(x[0]) && !IsSpace(x[|x| - 1]))
    ensures Trim(pad + x) == x
  {
    TrimStartPadded(pad, x);
  }

  /** Trimming adds no character. */
  lemma TrimKeepsOut(s: string, c: char)
    requires c !in s
    ensures c !in TrimStart(s) && c !in Trim(s)
  {
    var t := TrimStart(s);
    TrimStartShape(s);
    TrimEndShape(t);
  }

  /** A string holding the separator is its first part, the separator and
      the join of the remaining parts. */
  lemma SplitHeadTail(s: string, sep: char)
    requires sep in s
    ensures var parts := Split(s, sep);
      s == parts[0] + [sep] + Join(parts[1..], sep)
  {
    JoinSplit(s, sep);
  }

  /** The `count`-fold repetition of `c`, as JavaScript's `c.repeat(count)`. */
  function Repeat(c: char, count: nat): (r: string)
    ensures |r| == count && forall i :: 0 <= i < count ==> r[i] == c
  {
    seq(count, _ => c)
  }

  /** The elements of `s` that satisfy `keep`, in their original order:
      Rust's `retain` and `filter`, JavaScript's `Array.prototype.filter`. */
  function Filter<T(!new)>(s: seq<T>, keep: T -> bool): (r: seq<T>)
    ensures |r| <= |s|
    ensures forall x :: x in r <==> x in s && keep(x)
  {
    if |s| == 0 then []
    else (if keep(s[0]) then [s[0]] else []) + Filter(s[1..], keep)
  }

  /** Filtering distributes over concatenation. */
  lemma {:induction false} FilterAppend<T(!new)>(a: seq<T>, b: seq<T>, keep: T -> bool)
    ensures Filter(a + b, keep) == Filter(a, keep) + Filter(b, keep)
  {
    if |a| > 0 {
      FilterAppend(a[1..], b, keep);
      assert (a + b)[0] == a[0];
      assert (a + b)[1..] == a[1..] + b;
      var head := if keep(a[0]) then [a[0]] else [];
      calc {
        Filter(a + b, keep);
        head + Filter(a[1..] + b, keep);
        head + (Filter(a[1..], keep) + Filter(b, keep));
        (head + Filter(a[1..], keep)) + Filter(b, keep);
      }
    } else {
      assert a + b == b;
    }
  }

  /** Filtering a second time with the same test removes nothing more. */
  lemma {:induction false} FilterIdempotent<T(!new)>(s: seq<T>, keep: T -> bool)
    ensures Filter(Filter(s, keep), keep) == Filter(s, keep)
  {
    if |s| > 0 {
      FilterIdempotent(s[1..], keep);
      var head := if keep(s[0]) then [s[0]] else [];
      FilterAppend(head, Filter(s[1..], keep), keep);
    }
  }

  /** When every element passes, the filter is the identity. */
  lemma {:induction false} FilterKeepsAll<T(!new)>(s: seq<T>, keep: T -> bool)
    requires forall i :: 0 <= i < |s| ==> keep(s[i])
    ensures Filter(s, keep) == s
  {
    if |s| > 0 {
      FilterKeepsAll(s[1..], keep);
      assert [s[0]] + s[1..] == s;
    }
  }

  /** A sequence is what comes before position `i`, the element there and what follows. */
  lemma Around<T>(s: seq<T>, i: nat)
    requires i < |s|
    ensures s == s[..i] + ([s[i]] + s[i + 1..])
  {
    assert s[i..] == [s[i]] + s[i + 1..];
    assert s == s[..i] + s[i..];
  }

  /** The elements in reverse order. */
  function Reverse<T>(s: seq<T>): (r: seq<T>)
    ensures |r| == |s|
    ensures forall i :: 0 <= i < |s| ==> r[i] == s[|s| - 1 - i]
  {
    if |s| == 0 then [] else Reverse(s[1..]) + [s[0]]
  }

  /** A slice's `reverse()`: swaps the two ends towards the middle. */
  method ReverseInPlace<T>(a: array<T>)
    modifies a
    ensures a[..] == Reverse(old(a[..]))
  {
    ghost var original := a[..];
    var n := a.Length;
    var i := 0;
    while i < n / 2
      invariant 0 <= i <= n / 2
      invariant forall k :: 0 <= k < i ==> a[k] == original[n - 1 - k]
      invariant forall k :: 0 <= k < i ==> a[n - 1 - k] == original[k]
      invariant forall k :: i <= k < n - i ==> a[k] == original[k]
    {
      var t := a[i];
      a[i] := a[n - 1 - i];
      a[n - 1 - i] := t;
      i := i + 1;
    }
    forall k | 0 <= k < n
      ensures a[k] == original[n - 1 - k]
    {
      if n - i <= k {
        var j := n - 1 - k;
        assert 0 <= j < i;
      }
    }
    MirroredIsReverse(original, a[..]);
  }

  /** A sequence that holds another's elements in mirrored positions is its reverse. */
  lemma MirroredIsReverse<T>(s: seq<T>, r: seq<T>)
    requires |r| == |s|
    requires forall k :: 0 <= k < |s| ==> r[k] == s[|s| - 1 - k]
    ensures r == Reverse(s)
  {
  }

  /** `s.map(f)`. */
  function Map<T, U>(s: seq<T>, f: T -> U): (r: seq<U>)
    ensures |r| == |s| && forall i :: 0 <= i < |s| ==> r[i] == f(s[i])
  {
    seq(|s|, i requires 0 <= i < |s| => f(s[i]))
  }
}

=== FILE: vault_index.dfy ===
/** The bookkeeping the vault backend does on its index file
    (src-tauri/src/lib.rs). The decrypted index is text holding one line per
    stored secret, `NNN.app.desc.ext`, where `NNN` is the three-digit id that
    also names the secret's own encrypted file. Reading and writing the file
    through gpg is left to the caller: these functions take the decrypted text
    or its lines and give back the lines or text to write. */
module VaultIndex {
  import opened Wrappers
  import opened Text

  /** One row of the listing (the Rust `ListItem`). */
  datatype ListItem = ListItem(id: string, app: string, desc: string, format: string)

  // ---------------------------------------------------------------------
  // Reading and writing the index text
  // ---------------------------------------------------------------------

  predicate NonEmptyLine(line: string) {
    |line| > 0
  }

  /** get_index_lines: the decrypted text split at newlines, empty segments dropped. */
  function IndexLines(data: string): (lines: seq<string>)
    ensures forall i :: 0 <= i < |lines| ==> |lines[i]| > 0 && '\n' !in lines[i]
  {
    var lines := Filter(Split(data, '\n'), NonEmptyLine);
    assert forall i :: 0 <= i < |lines| ==> lines[i] in Split(data, '\n') && NonEmptyLine(lines[i]);
    lines
  }

  /** The text written back: empty for no lines, otherwise the lines joined by newlines. */
  function SerializeIndex(lines: seq<string>): string {
    if |lines| == 0 then "" else Join(lines, '\n')
  }

  /** Lines that are non-empty and newline-free survive a write and a read unchanged. */
  lemma {:induction false} IndexRoundTrip(lines: seq<string>)
    requires forall i :: 0 <= i < |lines| ==> |lines[i]| > 0 && '\n' !in lines[i]
    ensures IndexLines(SerializeIndex(lines)) == lines
  {
    if |lines| == 0 {
      assert Split("", '\n') == [""];
      assert Filter([""], NonEmptyLine) == Filter([""][1..], NonEmptyLine);
    } else {
      SplitJoin(lines, '\n');
      FilterKeepsAll(lines, NonEmptyLine);
    }
  }

  /** Reading, writing and reading again gives the same lines. */
  lemma ReadWriteRead(data: string)
    ensures IndexLines(SerializeIndex(IndexLines(data))) == IndexLines(data)
  {
    IndexRoundTrip(IndexLines(data));
  }

  // ---------------------------------------------------------------------
  // Ids: `&line[..3]`, `parse::<i32>()` and `format!("{:03}", n)`
  // ---------------------------------------------------------------------

  predicate IsDigit(c: char) {
    '0' <= c <= '9'
  }

  predicate AllDigits(s: string) {
    forall i :: 0 <= i < |s| ==> IsDigit(s[i])
  }

  function DigitValue(c: char): nat
    requires IsDigit(c)
  {
    (c as int) - ('0' as int)
  }

  function DigitChar(d: nat): (c: char)
    requires d < 10
    ensures IsDigit(c) && DigitValue(c) == d
  {
    (('0' as int) + d) as char
  }

  /** The value of a string of decimal digits. */
  function DigitsValue(s: string): nat
    requires AllDigits(s)
  {
    if |s| == 0 then 0 else DigitsValue(s[..|s| - 1]) * 10 + DigitValue(s[|s| - 1])
  }

  /** `s.parse::<i32>()` for the short strings it is applied to here: an
      optional `+` or `-`, then one or more digits and nothing else. */
  function ParseInt(s: string): Option<int> {
    if |s| > 0 && (s[0] == '+' || s[0] == '-') then
      if |s| > 1 && AllDigits(s[1..]) then
        var magnitude: int := DigitsValue(s[1..]);
        Some(if s[0] == '-' then -magnitude else magnitude)
      else None
    else if |s| > 0 && AllDigits(s) then Some(DigitsValue(s))
    else None
  }

  /** The decimal digits of `n`, without leading zeros. */
  function DecimalDigits(n: nat): (s: string)
    ensures |s| >= 1 && AllDigits(s)
  {
    if n < 10 then [DigitChar(n)] else DecimalDigits(n / 10) + [DigitChar(n % 10)]
  }

  function PadZeros(s: string, width: nat): string {
    if |s| < width then Repeat('0', width - |s|) + s else s
  }

  /** `format!("{:03}", n)`: zero-padded to at least three characters,
      the sign counting towards the width. */
  function FormatId(n: int): string {
    if n < 0 then "-" + PadZeros(DecimalDigits(-n), 2) else PadZeros(DecimalDigits(n), 3)
  }

  /** Every number below 1000 is written as exactly three digits. */
  lemma ThreeDigitFormat(n: int)
    requires 0 <= n < 1000
    ensures FormatId(n) == [DigitChar(n / 100), DigitChar(n / 10 % 10), DigitChar(n % 10)]
  {
    if n < 10 {
      assert DecimalDigits(n) == [DigitChar(n)];
    } else if n < 100 {
      assert DecimalDigits(n) == [DigitChar(n / 10), DigitChar(n % 10)];
    } else {
      assert DecimalDigits(n / 10) == [DigitChar(n / 100), DigitChar(n / 10 % 10)];
    }
  }

  /** Ids below 1000 read back as the number they were written from. */
  lemma FormatIdRoundTrip(n: int)
    requires 0 <= n < 1000
    ensures |FormatId(n)| == 3 && AllDigits(FormatId(n))
    ensures ParseInt(FormatId(n)) == Some(n)
  {
    ThreeDigitFormat(n);
    var s := FormatId(n);
    assert s[..2][..1] == s[..1] && s[..1][..0] == [] && s[..3] == s;
    assert DigitsValue(s[..1]) == DigitValue(s[0]);
    assert DigitsValue(s[..2]) == DigitValue(s[0]) * 10 + DigitValue(s[1]);
    assert DigitsValue(s) == (DigitValue(s[0]) * 10 + DigitValue(s[1])) * 10 + DigitValue(s[2]);
    assert n == (n / 100 * 10 + n / 10 % 10) * 10 + n % 10;
  }

  /** Why the id is taken from a line. */
  datatype IdError =
    | LineTooShort     // `&last_line[..3]` panics on a line shorter than three characters
    | InvalidNumber    // `parse::<i32>()` rejects the first three characters

  /** The id add_secrets gives a new secret: "001" for an empty index,
      otherwise one more than the number the last line starts with. */
  function NextId(lines: seq<string>): Result<string, IdError> {
    if |lines| == 0 then Success(FormatId(1))
    else
      var last := lines[|lines| - 1];
      if |last| < 3 then Failure(LineTooShort)
      else match ParseInt(last[..3])
        case None => Failure(InvalidNumber)
        case Some(n) => Success(FormatId(n + 1))
  }

  /** The first secret is "001". */
  lemma FirstIdIsOne()
    ensures NextId([]) == Success("001")
  {
    ThreeDigitFormat(1);
  }

  /** After a line with id n (n < 999) the next id is n + 1, again three digits. */
  lemma {:induction false} NextIdFollowsLast(lines: seq<string>, n: int, rest: string)
    requires 0 <= n < 999
    requires |lines| > 0 && lines[|lines| - 1] == FormatId(n) + rest
    ensures NextId(lines) == Success(FormatId(n + 1))
    ensures |FormatId(n + 1)| == 3 && ParseInt(FormatId(n + 1)) == Some(n + 1)
  {
    FormatIdRoundTrip(n);
    FormatIdRoundTrip(n + 1);
    var last := lines[|lines| - 1];
    assert last[..3] == FormatId(n);
  }

  /** After id 999 the next id has four digits, and only its first three are
      read back: the id sequence is not stable past 999. */
  lemma IdAfter999(rest: string)
    ensures NextId(["999" + rest]) == Success("1000")
    ensures NextId(["1000" + rest]) == Success("101")
  {
    FormatIdRoundTrip(999);
    assert FormatId(999) == "999";
    assert DecimalDigits(1000) == DecimalDigits(100) + ['0'];
    assert DecimalDigits(100) == DecimalDigits(10) + ['0'];
    assert DecimalDigits(10) == ['1', '0'];
    assert FormatId(1000) == "1000";
    FormatIdRoundTrip(100);
    ThreeDigitFormat(100);
    ThreeDigitFormat(101);
    assert ("1000" + rest)[..3] == "100" == FormatId(100);
  }

  // ---------------------------------------------------------------------
  // add_secrets, delete_secrets, get_secrets_list
  // ---------------------------------------------------------------------

  /** The index line of a new secret: `format` already holds its leading dot. */
  function EntryLine(id: string, app: string, desc: string, format: string): string {
    id + "." + app + "." + desc + format
  }

  /** What add_secrets writes: the new id, the new lines and the index text. */
  datatype Added = Added(id: string, lines: seq<string>, index: string)

  /** The index half of add_secrets: compute the next id from the last line,
      push the new line, join with newlines. */
  method AddSecretsIndex(lines: seq<string>, app: string, desc: string, format: string)
    returns (r: Result<Added, IdError>)
    ensures r.Failure? <==> NextId(lines).Failure?
    ensures r.Failure? ==> r.error == NextId(lines).error
    ensures r.Success? ==> r.value.id == NextId(lines).value
    ensures r.Success? ==> |r.value.lines| == |lines| + 1 && r.value.lines[..|lines|] == lines
    ensures r.Success? ==> r.value.lines[|lines|] == EntryLine(r.value.id, app, desc, format)
    ensures r.Success? ==> r.value.index == SerializeIndex(r.value.lines)
  {
    var fileNumber := 1;
    if |lines| > 0 {
      var last := lines[|lines| - 1];
      if |last| < 3 {
        return Failure(LineTooShort);
      }
      var parsed := ParseInt(last[..3]);
      if parsed.None? {
        return Failure(InvalidNumber);
      }
      fileNumber := parsed.value + 1;
    }
    var id := FormatId(fileNumber);
    var newLines := lines + [EntryLine(id, app, desc, format)];
    r := Success(Added(id, newLines, Join(newLines, '\n')));
  }

  /** The retain test of delete_secrets: lines shorter than three characters
      are kept, others are kept when their first three characters differ from `id`. */
  predicate KeepLine(id: string, line: string) {
    |line| < 3 || line[..3] != id
  }

  function KeepFor(id: string): string -> bool {
    line => KeepLine(id, line)
  }

  /** The lines left after deleting `id`, in their original order. */
  function Retained(lines: seq<string>, id: string): seq<string> {
    Filter(lines, KeepFor(id))
  }

  /** `lines.retain(...)` followed by the serialisation of delete_secrets. */
  method DeleteSecretsIndex(lines: seq<string>, id: string) returns (kept: seq<string>, index: string)
    ensures kept == Retained(lines, id)
    ensures index == SerializeIndex(kept)
  {
    kept := [];
    var i := 0;
    while i < |lines|
      invariant 0 <= i <= |lines|
      invariant kept == Filter(lines[..i], KeepFor(id))
    {
      FilterAppend(lines[..i], [lines[i]], KeepFor(id));
      assert lines[..i + 1] == lines[..i] + [lines[i]];
      if |lines[i]| >= 3 {
        if lines[i][..3] != id {
          kept := kept + [lines[i]];
        }
      } else {
        kept := kept + [lines[i]];
      }
      i := i + 1;
    }
    assert lines[..i] == lines;
    if |kept| == 0 {
      index := "";
    } else {
      index := Join(kept, '\n');
    }
  }

  /** A line survives the deletion exactly when it does not carry the id. */
  lemma RetainedExactly(lines: seq<string>, id: string, line: string)
    ensures line in Retained(lines, id) <==> line in lines && (|line| < 3 || line[..3] != id)
  {
  }

  /** Deleting the same id twice is the same as deleting it once. */
  lemma DeleteIdempotent(lines: seq<string>, id: string)
    ensures Retained(Retained(lines, id), id) == Retained(lines, id)
  {
    FilterIdempotent(lines, KeepFor(id));
  }

  /** A line has at least the four dot-separated parts the listing reads. */
  predicate Listable(line: string) {
    |Split(line, '.')| >= 4
  }

  /** The listing's view of one line: the first four dot-separated parts,
      with the dot given back to the format. */
  function ParseItem(line: string): ListItem
    requires Listable(line)
  {
    var parts := Split(line, '.');
    ListItem(parts[0], parts[1], parts[2], "." + parts[3])
  }

  function MatchFor(search: string): string -> bool {
    line => Contains(line, search)
  }

  /** Every line the search keeps can be listed (the source indexes `parts[3]`). */
  predicate MatchesListable(lines: seq<string>, search: string) {
    forall line :: line in lines && Contains(line, search) ==> Listable(line)
  }

  /** The lines the search keeps, parsed, in index order. */
  function MatchingItems(lines: seq<string>, search: string): (items: seq<ListItem>)
    requires MatchesListable(lines, search)
    ensures |items| == |Filter(lines, MatchFor(search))|
    ensures forall i :: 0 <= i < |items| ==>
      Listable(Filter(lines, MatchFor(search))[i]) && items[i] == ParseItem(Filter(lines, MatchFor(search))[i])
  {
    var matching := Filter(lines, MatchFor(search));
    assert forall i :: 0 <= i < |matching| ==> matching[i] in lines && MatchFor(search)(matching[i]);
    seq(|matching|, i requires 0 <= i < |matching| => ParseItem(matching[i]))
  }

  /** get_secrets_list: filter, parse, then `items.reverse()` in place. */
  method SecretsList(lines: seq<string>, search: string) returns (items: seq<ListItem>)
    requires MatchesListable(lines, search)
    ensures items == Reverse(MatchingItems(lines, search))
  {
    var collected := MatchingItems(lines, search);
    var a := new ListItem[|collected|](i requires 0 <= i < |collected| => collected[i]);
    assert a[..] == collected;
    ReverseInPlace(a);
    items := a[..];
  }

  /** The empty search lists every line, in reverse index order. */
  lemma EmptySearchListsAll(lines: seq<string>)
    requires forall i :: 0 <= i < |lines| ==> Listable(lines[i])
    ensures |MatchingItems(lines, "")| == |lines|
    ensures forall k :: 0 <= k < |lines| ==> MatchingItems(lines, "")[k] == ParseItem(lines[k])
  {
    forall i | 0 <= i < |lines| ensures Contains(lines[i], "") {
      assert StartsWith(lines[i][0..], "");
    }
    FilterKeepsAll(lines, MatchFor(""));
  }

  /** A line built from a dot-free id, app and description and a format of
      a dot and a dot-free extension lists back as the same four fields. */
  lemma {:induction false} EntryLineParsesBack(id: string, app: string, desc: string, ext: string)
    requires '.' !in id && '.' !in app && '.' !in desc && '.' !in ext
    ensures Listable(EntryLine(id, app, desc, "." + ext))
    ensures ParseItem(EntryLine(id, app, desc, "." + ext)) == ListItem(id, app, desc, "." + ext)
  {
    var parts := [id, app, desc, ext];
    assert Join(parts[3..], '.') == ext;
    assert Join(parts[2..], '.') == desc + "." + ext;
    assert Join(parts[1..], '.') == app + "." + desc + "." + ext;
    assert Join(parts, '.') == EntryLine(id, app, desc, "." + ext);
    SplitJoin(parts, '.');
  }

  /** After add_secrets on an index whose lines all list, an unfiltered
      listing shows the new secret first, with the fields it was added with. */
  lemma {:induction false} AddedSecretListedFirst(lines: seq<string>, app: string, desc: string, ext: string, id: string)
    requires forall i :: 0 <= i < |lines| ==> Listable(lines[i])
    requires NextId(lines) == Success(id) && '.' !in id
    requires '.' !in app && '.' !in desc && '.' !in ext
    ensures var newLines := lines + [EntryLine(id, app, desc, "." + ext)];
      forall i :: 0 <= i < |newLines| ==> Listable(newLines[i])
    ensures var newLines := lines + [EntryLine(id, app, desc, "." + ext)];
      Reverse(MatchingItems(newLines, ""))[0] == ListItem(id, app, desc, "." + ext)
  {
    var newLines := lines + [EntryLine(id, app, desc, "." + ext)];
    EntryLineParsesBack(id, app, desc, ext);
    EmptySearchListsAll(newLines);
  }

  /** After deleting a three-character id, no listed item carries it. */
  lemma {:induction false} DeletedIdNotListed(lines: seq<string>, id: string)
    requires |id| == 3
    requires forall i :: 0 <= i < |lines| ==> Listable(lines[i])
    ensures forall i :: 0 <= i < |Retained(lines, id)| ==> Listable(Retained(lines, id)[i])
    ensures forall item :: item in MatchingItems(Retained(lines, id), "") ==> item.id != id
  {
    var kept := Retained(lines, id);
    forall i | 0 <= i < |kept| ensures Listable(kept[i]) && KeepLine(id, kept[i]) {
      assert kept[i] in kept;
    }
    EmptySearchListsAll(kept);
    var items := MatchingItems(kept, "");
    forall item | item in items ensures item.id != id {
      var k :| 0 <= k < |items| && items[k] == item;
      KeptLineKeepsItsId(id, kept[k]);
    }
  }

  /** A kept line never lists with the deleted three-character id. */
  lemma KeptLineKeepsItsId(id: string, line: string)
    requires |id| == 3 && Listable(line) && KeepLine(id, line)
    ensures ParseItem(line).id != id
  {
    var parts := Split(line, '.');
    JoinSplit(line, '.');
    assert line == parts[0] + ['.'] + Join(parts[1..], '.');
  }
}

=== FILE: wrappers.dfy ===
/** Optional values and results with an error, as the source's `Option`,
    `Result`, `undefined` defaults and rejected promises. */
module Wrappers {
  datatype Option<+T> = None | Some(value: T) {
    /** The value, or `default` when there is none. */
    function UnwrapOr(default: T): T {
      match this
      case None => default
      case Some(v) => v
    }
  }

  datatype Result<+T, +E> = Success(value: T) | Failure(error: E)
}

=== FILE: yaml_format.dfy ===
/** formatYAML of the secret entry form (src/components/Form.tsx): a
    line-by-line re-spacing of `key: value` and `- item` lines that leaves
    blank lines, comments and everything else as they are. */
module YamlFormat {
  import opened Text

  /** The number of white-space characters in front of a line. */
  function Indent(line: string): nat {
    |line| - |TrimStart(line)|
  }

  /** A `key: value` line from the trimmed key and value: one space after
      the colon, none when the value is empty. */
  function KeyValueLine(spaces: string, key: string, value: string): string {
    if value != "" then spaces + key + ": " + value else spaces + key + ":"
  }

  /** A `- item` line from the trimmed item: one space after the dash. */
  function ItemLine(spaces: string, item: string): string {
    spaces + "- " + item
  }

  /** What formatYAML makes of a line, given its trim and its indentation
      as spaces: blank lines and comments stay; a line with a colon becomes
      a key-value line, the key being what comes before the first colon and
      the value everything after it; a line starting with a dash becomes
      an item line; any other line stays. */
  function Reformat(line: string, trimmed: string, spaces: string): string {
    if trimmed == "" || trimmed[0] == '#' then line
    else if ':' in trimmed then
      var parts := Split(trimmed, ':');
      KeyValueLine(spaces, Trim(parts[0]), Trim(Join(parts[1..], ':')))
    else if trimmed[0] == '-' then ItemLine(spaces, Trim(trimmed[1..]))
    else line
  }

  /** One line of formatYAML. */
  function FormatYamlLine(line: string): string {
    Reformat(line, Trim(line), Repeat(' ', Indent(line)))
  }

  /** formatYAML on the whole text. */
  function FormatYaml(text: string): string {
    Join(Map(Split(text, '\n'), FormatYamlLine), '\n')
  }

  /** The indentation spaces hold no other character. */
  lemma {:induction false} SpacesKeepOut(n: nat, c: char)
    requires c != ' '
    ensures c !in Repeat(' ', n)
  {
  }

  /** Neither the key nor the rest of a line holds a character the line lacks. */
  lemma {:induction false} PartsKeepOut(trimmed: string, c: char)
    requires ':' in trimmed && c !in trimmed
    ensures var parts := Split(trimmed, ':');
      c !in parts[0] && c !in Join(parts[1..], ':')
  {
    SplitHeadTail(trimmed, ':');
  }

  lemma {:induction false} KeyValueKeepsOut(spaces: string, key: string, value: string, c: char)
    requires c !in spaces && c !in key && c !in value && c != ' ' && c != ':'
    ensures c !in KeyValueLine(spaces, key, value)
  {
    assert c !in ": " && c !in ":";
    assert c !in spaces + key + ": " + value;
    assert c !in spaces + key + ":";
  }

  lemma {:induction false} ItemKeepsOut(spaces: string, item: string, c: char)
    requires c !in spaces && c !in item && c != ' ' && c != '-'
    ensures c !in ItemLine(spaces, item)
  {
    assert c !in "- ";
  }

  /** Formatting a line introduces no character other than the space, the
      colon and the dash. */
  lemma {:induction false} FormatYamlLineKeepsOut(line: string, c: char)
    requires c !in line && c != ' ' && c != ':' && c != '-'
    ensures c !in FormatYamlLine(line)
  {
    var trimmed := Trim(line);
    if trimmed != "" && trimmed[0] != '#' {
      TrimKeepsOut(line, c);
      SpacesKeepOut(Indent(line), c);
      if ':' in trimmed {
        PartsKeepOut(trimmed, c);
        var parts := Split(trimmed, ':');
        TrimKeepsOut(parts[0], c);
        TrimKeepsOut(Join(parts[1..], ':'), c);
        KeyValueKeepsOut(Repeat(' ', Indent(line)), Trim(parts[0]), Trim(Join(parts[1..], ':')), c);
      } else if trimmed[0] == '-' {
        assert c !in trimmed[1..];
        TrimKeepsOut(trimmed[1..], c);
        ItemKeepsOut(Repeat(' ', Indent(line)), Trim(trimmed[1..]), c);
      }
    }
  }

  /** Formatting keeps the lines: the formatted text splits into the
      formatted lines of the original, one for one. */
  lemma {:induction false} FormatYamlKeepsLines(text: string)
    ensures Split(FormatYaml(text), '\n') == Map(Split(text, '\n'), FormatYamlLine)
    ensures |Split(FormatYaml(text), '\n')| == |Split(text, '\n')|
  {
    var lines := Split(text, '\n');
    var formatted := Map(lines, FormatYamlLine);
    forall i | 0 <= i < |formatted| ensures '\n' !in formatted[i] {
      FormatYamlLineKeepsOut(lines[i], '\n');
    }
    SplitJoin(formatted, '\n');
  }

  /** A string that is its own trim: empty, or no white space at either end. */
  predicate Trimmed(s: string) {
    s == [] || (!IsSpace(s[0]) && !IsSpace(s[|s| - 1]))
  }

  /** The spaces formatYAML indents with are white space. */
  lemma {:induction false} SpacesAreSpace(n: nat)
    ensures forall i :: 0 <= i < n ==> IsSpace(Repeat(' ', n)[i])
  {
  }

  /** A line of `n` spaces and then `x`, where `x` starts with something
      else, is indented by `n`. */
  lemma {:induction false} IndentOfPadded(n: nat, x: string)
    requires x == [] || !IsSpace(x[0])
    ensures Indent(Repeat(' ', n) + x) == n
    ensures TrimStart(Repeat(' ', n) + x) == x
  {
    SpacesAreSpace(n);
    TrimStartPadded(Repeat(' ', n), x);
  }

  /** The parts of a `key:tail` string with a colon-free key. */
  lemma {:induction false} SplitKey(key: string, tail: string)
    requires ':' !in key
    ensures var parts := Split(key + [':'] + tail, ':');
      parts[0] == key && Join(parts[1..], ':') == tail
  {
    SplitAtFirstSeparator(key, tail, ':');
    JoinSplit(tail, ':');
    assert Split(key + [':'] + tail, ':')[1..] == Split(tail, ':');
  }

  /** Indenting a non-empty string that is its own trim by `n` spaces
      gives a line indented by `n` whose trim is that string. */
  lemma {:induction false} PaddedLine(n: nat, x: string)
    requires x != [] && Trimmed(x)
    ensures Indent(Repeat(' ', n) + x) == n && Trim(Repeat(' ', n) + x) == x
  {
    IndentOfPadded(n, x);
    SpacesAreSpace(n);
    TrimPadded(Repeat(' ', n), x);
  }

  /** An indented `key:tail` line is formatted as a key-value line. */
  lemma {:induction false} FormatKeyLine(n: nat, x: string, key: string, tail: string)
    requires x == key + [':'] + tail && ':' !in key
    requires Trimmed(x) && x[0] != '#'
    ensures FormatYamlLine(Repeat(' ', n) + x) == KeyValueLine(Repeat(' ', n), Trim(key), Trim(tail))
  {
    PaddedLine(n, x);
    assert x[|key|] == ':';
    SplitKey(key, tail);
    assert FormatYamlLine(Repeat(' ', n) + x) == Reformat(Repeat(' ', n) + x, x, Repeat(' ', n));
  }

  /** A key-value line is the spaces, the key, a colon and the rest. */
  lemma {:induction false} KeyValueText(spaces: string, key: string, value: string)
    ensures KeyValueLine(spaces, key, value)
      == spaces + (key + [':'] + (if value != "" then " " + value else ""))
  {
  }

  /** The colon after the key and the last character of the value bound
      a key-value text that is its own trim. */
  lemma {:induction false} KeyValueTrimmed(key: string, value: string)
    requires ':' !in key && Trimmed(key) && (key == [] || key[0] != '#')
    requires Trimmed(value)
    ensures var x := key + [':'] + (if value != "" then " " + value else "");
      Trimmed(x) && x[0] != '#'
  {
    var x := key + [':'] + (if value != "" then " " + value else "");
    assert x[0] == (if key == [] then ':' else key[0]);
    assert x[|x| - 1] == (if value != "" then value[|value| - 1] else ':');
  }

  /** The value after `": "` trims back to itself. */
  lemma {:induction false} TailTrim(value: string)
    requires Trimmed(value)
    ensures Trim(if value != "" then " " + value else "") == value
  {
    if value != "" {
      TrimPadded(" ", value);
    }
  }

  /** A formatted `key: value` line formats to itself. */
  lemma {:induction false} KeyValueStable(n: nat, key: string, value: string)
    requires ':' !in key && Trimmed(key) && (key == [] || key[0] != '#')
    requires Trimmed(value)
    ensures var line := KeyValueLine(Repeat(' ', n), key, value);
      FormatYamlLine(line) == line
  {
    var spaces := Repeat(' ', n);
    var tail := if value != "" then " " + value else "";
    TrimUntouched(key);
    TrimUntouched(value);
    KeyValueText(spaces, key, value);
    KeyValueTrimmed(key, value);
    FormatKeyLine(n, key + [':'] + tail, key, tail);
    TailTrim(value);
  }

  /** An indented `-` line without an item formats to itself. */
  lemma {:induction false} BareDashStable(n: nat)
    ensures FormatYamlLine(ItemLine(Repeat(' ', n), "")) == ItemLine(Repeat(' ', n), "")
  {
    var spaces := Repeat(' ', n);
    var line := spaces + "- ";
    assert ItemLine(spaces, "") == line;
    IndentOfPadded(n, "- ");
    assert Trim(line) == "-";
    assert FormatYamlLine(line) == Reformat(line, "-", spaces);
  }

  /** A dash followed by a space and an item that is its own trim. */
  lemma {:induction false} ItemText(item: string)
    requires item != [] && ':' !in item && Trimmed(item)
    ensures var x := "- " + item;
      Trimmed(x) && x[0] == '-' && ':' !in x && Trim(x[1..]) == item
  {
    var x := "- " + item;
    assert x[|x| - 1] == item[|item| - 1];
    assert x[1..] == " " + item;
    TrimPadded(" ", item);
  }

  /** A trimmed line that starts with a dash and has no colon is an item line. */
  lemma {:induction false} ReformatItem(line: string, trimmed: string, spaces: string)
    requires trimmed != [] && trimmed[0] == '-' && ':' !in trimmed
    ensures Reformat(line, trimmed, spaces) == ItemLine(spaces, Trim(trimmed[1..]))
  {
  }

  /** A formatted `- item` line formats to itself. */
  lemma {:induction false} ItemStable(n: nat, item: string)
    requires ':' !in item && Trimmed(item)
    ensures FormatYamlLine(ItemLine(Repeat(' ', n), item)) == ItemLine(Repeat(' ', n), item)
  {
    if item == [] {
      BareDashStable(n);
    } else {
      var spaces := Repeat(' ', n);
      var x := "- " + item;
      assert ItemLine(spaces, item) == spaces + x;
      ItemText(item);
      PaddedLine(n, x);
      ReformatItem(spaces + x, x, spaces);
    }
  }

  /** The key of a `key: value` line keeps the first character of the
      trimmed line when it is not empty. */
  lemma {:induction false} KeyStartsLine(trimmed: string, key: string)
    requires Trimmed(trimmed) && |key| <= |trimmed| && trimmed[..|key|] == key
    ensures Trim(key) == [] || Trim(key)[0] == trimmed[0]
  {
    if key != [] {
      TrimStartPadded([], key);
      assert [] + key == key;
      TrimEndShape(key);
    }
  }

  /** The trimmed key of a trimmed line with a colon has no colon and does
      not start a comment. */
  lemma {:induction false} KeyOfLine(trimmed: string)
    requires trimmed != "" && Trimmed(trimmed) && trimmed[0] != '#' && ':' in trimmed
    ensures var key := Trim(Split(trimmed, ':')[0]);
      ':' !in key && Trimmed(key) && (key == [] || key[0] != '#')
  {
    var parts := Split(trimmed, ':');
    SplitHeadTail(trimmed, ':');
    TrimKeepsOut(parts[0], ':');
    assert trimmed[..|parts[0]|] == parts[0];
    KeyStartsLine(trimmed, parts[0]);
    TrimEdges(parts[0]);
  }

  /** A `key: value` line formats to a line that formats to itself. */
  lemma {:induction false} KeyValueIdempotent(line: string)
    requires Trim(line) != "" && Trim(line)[0] != '#' && ':' in Trim(line)
    ensures FormatYamlLine(FormatYamlLine(line)) == FormatYamlLine(line)
  {
    var trimmed := Trim(line);
    var parts := Split(trimmed, ':');
    TrimEdges(line);
    KeyOfLine(trimmed);
    var key, value := Trim(parts[0]), Trim(Join(parts[1..], ':'));
    TrimEdges(Join(parts[1..], ':'));
    assert FormatYamlLine(line) == KeyValueLine(Repeat(' ', Indent(line)), key, value);
    KeyValueStable(Indent(line), key, value);
  }

  /** A `- item` line formats to a line that formats to itself. */
  lemma {:induction false} ItemIdempotent(line: string)
    requires Trim(line) != "" && Trim(line)[0] == '-' && ':' !in Trim(line)
    ensures FormatYamlLine(FormatYamlLine(line)) == FormatYamlLine(line)
  {
    var trimmed := Trim(line);
    assert ':' !in trimmed[1..];
    TrimKeepsOut(trimmed[1..], ':');
    TrimEdges(trimmed[1..]);
    ReformatItem(line, trimmed, Repeat(' ', Indent(line)));
    ItemStable(Indent(line), Trim(trimmed[1..]));
  }

  /** Formatting a line twice changes nothing more than formatting it once. */
  lemma {:induction false} FormatYamlLineIdempotent(line: string)
    ensures FormatYamlLine(FormatYamlLine(line)) == FormatYamlLine(line)
  {
    var trimmed := Trim(line);
    if trimmed == "" || trimmed[0] == '#' {
    } else if ':' in trimmed {
      KeyValueIdempotent(line);
    } else if trimmed[0] == '-' {
      ItemIdempotent(line);
    }
  }

  /** Formatting the text twice changes nothing more than formatting it once. */
  lemma {:induction false} FormatYamlIdempotent(text: string)
    ensures FormatYaml(FormatYaml(text)) == FormatYaml(text)
  {
    FormatYamlKeepsLines(text);
    var lines := Split(text, '\n');
    var once := Map(lines, FormatYamlLine);
    var twice := Map(once, FormatYamlLine);
    forall i | 0 <= i < |once| ensures twice[i] == once[i] {
      FormatYamlLineIdempotent(lines[i]);
    }
    assert twice == once;
    assert FormatYaml(FormatYaml(text)) == Join(twice, '\n');
  }
}
